=== FILE: README.md ===
# Space invaders in a terminal: a Dafny model of the play simulation and the game-state machine

The Go program draws a space-invaders game in a terminal with termbox. This
project models its core in Dafny and proves properties of that model. The core is:

- **The play simulation** (`play.go`): the ship, its bullet, the alien
  formation with its fixed-size slot array, the alien bullets, the barricades
  and the UFO.
  - Collisions go through occupancy grids. A grid is a w-by-h array of
    cells. Each cell holds the slot index of the alien drawn there, the
    UFO marker `666`, the ship marker, or `-50` for empty.
  - A frame advances five phases in the source's order:
    1. alien bullets;
    2. the ship's bullet;
    3. the UFO drift;
    4. the formation cadence, which marches, fires, levels up and steers;
    5. the UFO timer.
  - A frame ends a life or the game exactly where the source does.
- **The game-state machine** (`game.go`, `menu.go`, `highscores.go`,
  `warn.go`, `howto.go`).
  - The states are Menu, Howto, Play, Highscores and Warn.
  - Each pass of the main loop first hands a pending key to the current
    state's handler. It then runs `Update`, which ticks the frame counter
    and runs the current state's per-frame update.
  - Other parts:
    - the `Go<State>` transitions;
    - the screen-size check;
    - the menu's starfield;
    - the highscore ledger: ordering, qualification, name entry, and the
      `name:score` file format in both directions.

Two layers model the play simulation.

- **Value layer.** Module `Rules` describes a frame as a function on
  values. A `Field` holds:
  - the ship;
  - the alien slots;
  - the bullet slots;
  - a snapshot of the barricade grid;
  - the UFO, its timer, the formation velocity, the sprite frame, the
    cadence and the level.

  Each phase is its own function, and `FrameStep` composes them.
- **Imperative layer.** Class `Play.Round` keeps the package globals of
  `play.go` as fields.
  - The alien and bullet slice contents become `array`s.
  - The grids become `array2<int>`, indexed `[x, y]` as the Go slices are.
  - Every method of `Round` is proved against `Rules` through a ghost
    `View()`.

Class `Game.Game` holds the `Game` struct and owns a `Round` and the
menu's `Menu.Sky`. Its `Valid()` invariant is kept by every transition. It says:

- the frame counter is in 1..30;
- the ledger is sorted;
- the star list stays within capacity with diagonal velocities;
- in Play there is a ship, and the round's arrays have the sizes the
  formation needs;
- a UFO and an armed UFO timer never coexist.

Randomness, the clock and input are parameters. The parameters are:

- **Alien firing rolls:** one `rand.Intn(alienShootValMax)` roll per alien
  slot.
- **UFO timer:** whether the timer fired this frame.
- **Stars:** the raw `rand.Intn` draws a new star consumes, in a
  `StarSeed`.
- **Screen size:** as read by `termbox.Size`.
- **Key polls:** name entry reads these.
- **Highscore file:** its contents, as an optional string.

The file that would be written comes back as an `Option<string>` result.

Where the game's documented behaviour and its code differ, the model
follows the code:

- **Malformed highscore file.** A malformed line aborts the whole load: the
  model returns an error where the code calls `log.Fatalln`. The load never
  skips a line.
  - A line without `:` has no `parts[1]`; the model reports `MissingScore`
    where Go would panic.
  - A file ending in a newline yields a last, empty line, and so the same
    error.
- **Names containing `:`.** Name entry refuses names shorter than three characters,
  but nothing stops a name containing `:`. Such a record is written out and
  then either fails to load or loads as a different record. The name
  `ab:12` with score 100 is written as `ab:12:100` and reads back as `ab`
  with score 12 (`Ledger.ColonNameMisread`). The round-trip lemmas
  therefore carry a `Storable` premise (no `:` and no newline in the name).
- **Sort order.** `sort.Sort` promises a sorted permutation and nothing
  about the order of equal scores. Which order it picks depends on the
  length and the Go release. From Go 1.19 a slice of at most 12 elements is
  insertion-sorted. Before that, 7 to 12 elements get a gap-6 pass first.
  Longer slices go through quicksort or pdqsort. The model sorts every
  length by insertion sort, so it fixes one order among equal scores that
  Go may not produce (see "## Left out").
- **Long highscore files.** `loadHighscores` keeps every line of the file
  and never cuts the ledger to five entries. On such a ledger a score that
  beats only entries past the fifth qualifies, so a name is asked for, and
  the truncation then drops it (`Ledger.LongLedgerDropsQualifier`).
  `checkHighscores` writes the file back with at most five entries.
- **`GoMenu` colours.** `GoMenu` (`menu.go:142-147`) assigns `g.fg`/`g.bg`,
  which are not fields of `Game` (`game.go:85-105`). It also assigns
  `Menu`, which is not a `GameState`. It is modelled as
  `state := MenuState; hmi := FirstMenuItem`, with the clear colours
  untouched.
- **Formation height.** `numRows` is evaluated once at package
  initialisation (`rowsSm + rowsMd + rowsLg` = 5). Later changes to `rowsSm`
  and `rowsMd` do not change it.

## Model

| member | source | states |
|---|---|---|
| Entities.Frames | play.go:589-604 | every alien tier has exactly two animation frames (`Rules.CadenceTickMarch` states how the sprite frame flips between them) |
| Entities.NewUfo | play.go:436-438 | a new UFO starts with its sprite wholly left of the screen (x + sprite width = 0) on row 4 |
| Entities.GoDiv | play.go:261 | Go's `/` truncates toward zero: the remainder a - q·b has the sign of the dividend and is smaller than the divisor in size |
| Text.Split | game.go:213-215 | splitting always yields at least one part and no part contains the separator |
| Text.SplitJoin | play.go:413-418 | splitting a joined list of separator-free parts gives back exactly those parts |
| Text.SplitWithoutSeparator | game.go:213 | a line with no separator splits into itself alone |
| Text.SplitAfterPiece | game.go:213 | a separator-free prefix followed by a separator splits off as the first part |
| Text.Join | play.go:413-419 | the pieces with exactly one separator between neighbours and none after the last; `Text.SplitJoin` is its inverse on separator-free pieces |
| Text.DigitChar | play.go:415 | the decimal digit character for d has code '0' + d |
| Text.NatDigits | play.go:415 | a natural's decimal digits are non-empty, all digits, with no leading zero past one digit |
| Text.DigitsValueOfNatDigits | game.go:216 | reading back the decimal digits of n gives n |
| Text.FormatInt | play.go:415 | `%d`: a minus sign for a negative value, then the decimal digits of its magnitude; `Text.ParseFormatInt` reads it back |
| Text.ParseInt | game.go:216 | `strconv.Atoi`: an optional sign, at least one decimal digit and nothing else, and a value within 64 bits; anything else has no value |
| Text.ParseFormatInt | game.go:216 | `strconv.Atoi` of the `%d` rendering of any 64-bit integer gives that integer |
| Text.FormatIntHasNoSeparator | play.go:415 | a rendered score never contains the `:` field separator |
| Text.Repeat | highscores.go:33 | `strings.Repeat` yields max(n, 0) copies of the character and nothing else |
| Text.PadRight | highscores.go:33 | `%-10s` keeps the name as a prefix and pads with spaces up to the width, never truncating |
| Text.ZeroPad | highscores.go:33 | `%010d` ends with the score's digits and reaches the width exactly when the digits fit |
| Ledger.InsertDescPermutes | game.go:22-26 | an insertion pass adds exactly the new entry to the multiset |
| Ledger.InsertDescSorted | game.go:22-26 | an insertion pass keeps a non-increasing ledger non-increasing |
| Ledger.InsertDesc | game.go:22-26 | one insertion pass of `sort.Reverse(ByScore)`: the new entry moves left past every entry with a strictly lower score |
| Ledger.SortDesc | game.go:223 | `sort.Sort(sort.Reverse(ByScore))` as repeated insertion passes; `Ledger.SortDescCorrect` states what it yields |
| Ledger.Less | game.go:26 | `ByScore.Less`: the score alone decides, names never break ties |
| Ledger.SortDescCorrect | game.go:222 | `sort.Reverse(ByScore)` yields a non-increasing permutation of its input |
| Ledger.SortDescOfSorted | play.go:407 | sorting an already sorted ledger changes nothing |
| Ledger.Qualifies | play.go:404 | a score earns a place iff the ledger has fewer than five entries or the score beats the last entry's |
| Ledger.Record | play.go:406-410 | the ledger with the new entry appended, sorted, and cut to its first five entries |
| Ledger.RecordBoundedSorted | play.go:406-410 | after an update the ledger has at most five entries, is sorted, and holds only old entries and the new one |
| Ledger.RecordKeepsEntry | play.go:404-410 | a qualifying score (room left, or beating the last entry) is in the truncated ledger |
| Ledger.InsertDescKeepsPrefix | game.go:22-26 | an insertion pass leaves alone every leading entry that scores at least the new one |
| Ledger.LongLedgerDropsQualifier | play.go:404-410 | on a sorted ledger of more than five entries, a score above the last entry but below the fifth qualifies and is still not in the updated ledger |
| Ledger.Records | play.go:413-418 | the file has one line per ledger entry, each the entry's `name:score` |
| Ledger.FormatRecord | play.go:415 | one file record: the name, `:`, then the score in decimal |
| Ledger.Serialise | play.go:413-419 | the file's contents: the records joined by newlines, with no newline after the last |
| Ledger.JoinSnoc | play.go:414-417 | appending a line to the file adds a newline and then the line |
| Ledger.SerialiseLedger | play.go:413-418 | the string loop builds the newline-joined records with no trailing newline |
| Ledger.SplitFindsSeparator | game.go:215 | a line containing `:` splits into at least two parts |
| Ledger.ParseRecord | game.go:215-220 | one line: no `:` is a missing score; otherwise the second part must read as an integer, which becomes the score, and the first part the name |
| Ledger.ParseRecords | game.go:214-221 | the lines in file order; the first bad line fails the whole load |
| Ledger.LoadLedger | game.go:213-223 | `loadHighscores` on the file contents: split into lines, parse each, then sort |
| Ledger.ParseRecordOutcome | game.go:215-221 | a line fails as missing its score iff it has no `:`; otherwise the name is the first part and the second part must read as an integer |
| Ledger.ParseFormatRecord | game.go:215-218 | a storable entry's `name:score` line parses back to that entry and contains no newline |
| Ledger.ColonNameMisread | game.go:215-217 | a name `a:d` whose tail `d` reads as an integer is written and read back as name `a` with score `d` |
| Ledger.ParseRecordsSnoc | game.go:214-221 | the load stops at the first bad line; otherwise each line adds its entry in file order |
| Ledger.ParseRecordsOfRecords | game.go:214-221 | parsing the lines written for storable entries gives back those entries |
| Ledger.LoadSerialised | game.go:208-224 | loading a written non-empty ledger succeeds with the same entries, and with exactly the same list when it was sorted |
| Ledger.TableRowLayout | highscores.go:33 | a table row is the name padded to 10, a space, then the score zero-padded to 10 |
| Ledger.TableRow | highscores.go:33 | `%-10s %010d`: the padded name, a space, the zero-padded score |
| Ledger.HighscoreRows | highscores.go:32-39 | the table shows every entry in order, then `?????` placeholder rows up to five |
| Ledger.NameStep | play.go:370-395 | one pass of `getName`'s loop: a ten-long name turns the warning on; Enter hands back a name of three or more or warns; a character is appended below ten; Backspace drops the last one |
| Ledger.EnterName | play.go:365-401 | `getName` over a stream of key polls: the first name handed back, if any |
| Ledger.NameStepBounds | play.go:370-394 | a name never passes ten characters; Enter hands it back iff it has at least three; a key changes only its last character |
| Ledger.EnteredNameLength | play.go:365-401 | whatever keys arrive, a name `getName` returns has 3 to 10 characters |
| Occupancy.NewGrid | play.go:169-175 | a fresh w-by-h grid is empty in every cell |
| Occupancy.Stamp | play.go:177-191 | stamping writes the id into exactly the non-space cells of the sprite and leaves every other cell as it was |
| Occupancy.PlayerPositions | play.go:168-194 | a cell holds the ship marker iff the ship's sprite covers it, and is empty otherwise |
| Occupancy.AlienCell | play.go:196-241 | a grid cell is empty, the UFO marker, or the index of a live alien slot |
| Occupancy.AlienPositions | play.go:196-241 | every cell of the alien grid is the cell `AlienCell` describes |
| Occupancy.AlienCellMeaning | play.go:205-238 | a cell holds the last live alien slot covering it; failing that the UFO marker iff a fully shown UFO covers it; otherwise empty |
| Occupancy.UfoShown | play.go:205 | the UFO is drawn into the grid only when it exists and 0 < x < w - UFO sprite width |
| Occupancy.Snapshot | play.go:123 | the value snapshot of a grid agrees with the array cell by cell |
| Occupancy.SnapshotAgrees | play.go:123 | a value grid of the same shape that agrees with the array is its snapshot |
| Occupancy.BarricadeYPos | play.go:248-250 | the barricades' top row: the ship's clearance from the bottom, less the barricade height, less 2 |
| Occupancy.BarricadeX | play.go:261-266 | barricade i starts at gap·(i + 1) + width·i, the gap being the leftover columns divided by 5 with Go's truncation |
| Occupancy.BarricadeCell | play.go:266-279 | the barricade grid cell after the first n blocks are stamped: the last block covering it, else empty |
| Occupancy.GenBarricades | play.go:252-282 | every barricade cell is the cell `BarricadeCell` describes |
| Occupancy.BarricadeCellMeaning | play.go:261-279 | a barricade cell holds the index of the last of the four barricades covering it, and is empty iff none does |
| Rules.NoBullets | play.go:243-246 | a fresh bullet slice has n slots, all empty |
| Rules.WipeBullets | play.go:243-246 | no ship bullet and a fresh all-empty alien-bullet slice sized to the formation's columns |
| Rules.AlienBulletStep | play.go:443-465 | one alien bullet drops a row; past the bottom it is cleared; on the ship it stays and reports a hit; on a barricade cell it and the cell are cleared |
| Rules.Erase | play.go:461-463 | an alien bullet hitting a barricade clears exactly that cell |
| Rules.AlienBulletScan | play.go:442-467 | the scan keeps the slice and grid shape and leaves slots not yet reached untouched |
| Rules.AlienBulletScanFrozen | play.go:450-460 | once a bullet hits the ship the scan stops, so later slots stay as they were |
| Rules.AlienBulletScanEffects | play.go:442-467 | the ship is hit iff some advanced bullet lands on it; otherwise every bullet advances or leaves at the bottom, and a barricade cell is cleared only where a bullet just stopped |
| Rules.AlienBulletScanHit | play.go:450-460 | the scan reports a hit iff some live bullet, advanced one row, lands on the ship |
| Rules.AlienBulletScanMoves | play.go:443-449 | without a hit, empty slots stay empty, every kept bullet is its old bullet advanced one row, and a bullet past the bottom is cleared |
| Rules.AlienBulletScanErodes | play.go:461-463 | a barricade cell changes only by being cleared where a bullet that vanished landed |
| Rules.AlienBulletsPhase | play.go:442-467 | the alien-bullet loop, then on a hit one life fewer, and either game over or a bullet wipe that ends the frame |
| Rules.AlienBulletsHit | play.go:442-467 | a hit costs exactly one life; it ends the game iff it was the last life; otherwise bullets are wiped and nothing else changes; no hit leaves the ship alone |
| Rules.ShipBulletKeeps | play.go:469-473 | the ship's bullet step touches only the bullet, the score, one alien slot and the UFO; no bullet changes nothing; leaving the top clears it |
| Rules.ShipBulletHitsAlien | play.go:474-484 | a bullet landing on the last alien slot drawn at its cell scores that alien's reward, empties the slot and clears the bullet |
| Rules.ShipBulletHitsUfo | play.go:476-481 | a bullet landing on a shown UFO and no alien scores the UFO bonus, removes the UFO and clears the bullet |
| Rules.ShipBulletMisses | play.go:485-487 | a bullet that hits no alien or UFO is cleared by a barricade cell and otherwise keeps flying |
| Rules.ShipBulletStep | play.go:469-489 | the ship's bullet moves up; off the top it is cleared; otherwise it lands on whatever the alien grid holds at its cell |
| Rules.ShotLands | play.go:476-487 | a bullet on cell occupant c: the UFO or an alien is destroyed and scored, a barricade cell stops it, an empty cell lets it fly on |
| Rules.UfoDrift | play.go:493-499 | on frames divisible by three the UFO moves one column right, vanishing and arming the timer past the right edge |
| Rules.UfoDriftEffect | play.go:493-499 | on every third frame the UFO moves one cell right and, past the right edge, vanishes and re-arms the timer; nothing else changes |
| Rules.UfoTimerEffect | play.go:557-565 | a fired timer spawns a UFO off the left edge and disarms; afterwards there is always a UFO or an armed timer |
| Rules.UfoTimer | play.go:557-565 | a fired armed timer brings a new UFO; with neither UFO nor timer a timer is armed |
| Rules.FirstFree | play.go:525-530 | the first empty bullet slot, or none when all are taken |
| Rules.FireInto | play.go:523-532 | firing fills the first empty bullet slot and nothing else; with no empty slot the shot is dropped |
| Rules.MarchScan | play.go:507-534 | the march keeps slice sizes and leaves slots not yet reached untouched |
| Rules.MarchScanFrozen | play.go:518-521 | once an alien reaches the ship's row the march stops |
| Rules.MarchScanEffects | play.go:507-534 | the game ends iff some alien reaches the ship's row; otherwise every alien moves by the velocity, the level is complete iff no slot is live, an edge is flagged iff some moved alien touches one, and `xval` is the last such alien's x |
| Rules.MarchScanOver | play.go:518-521 | the march ends the game iff some live alien, once moved, reaches the ship's row |
| Rules.MarchScanMoves | play.go:508-512 | when the game goes on, every live slot holds its alien moved by the velocity and every empty slot stays empty |
| Rules.MarchScanComplete | play.go:506-510 | when the game goes on, the level is complete iff no slot was live |
| Rules.MarchScanEdge | play.go:504-516 | when the game goes on, an edge is flagged iff some moved alien touches an edge, and `xval` is the x of the last one that did, or the no-edge value |
| Rules.MarchScanShots | play.go:523-532 | occupied bullet slots are kept, and a newly filled slot holds a shot from the centre of a live alien that rolled 6 |
| Rules.MarchStep | play.go:508-532 | one live alien moves by the velocity, flags an edge it touches, ends the game at the ship's row, and otherwise fires on a roll of 6 |
| Rules.Moved | play.go:510-511 | an alien moves by the formation velocity |
| Rules.AtEdge | play.go:513 | an alien touches an edge when x <= 0 or x + sprite width >= w |
| Rules.FilledAt | play.go:594-601 | `makeAliens` puts the alien of row i, column j at the row's slot offset + i·cols + j, at its grid position |
| Rules.Filled | play.go:589-604 | `makeAliens` after a number of placements: the slots from the offset filled row by row, all others as they were |
| Rules.PopulateSlot | play.go:619-632 | row r, column c of a new formation holds an alien of that row's tier and reward at its grid position |
| Rules.PopulateFormation | play.go:619-632 | a new formation fills every slot of every row with the right tier and position |
| Rules.PopulateTail | play.go:619-632 | the slots after the formation's last row are left as they were |
| Rules.Populate | play.go:619-632 | `BeginNextLevel`: large rows, then medium, then small, from (10, 7), keeping the slice length |
| Rules.CadenceTickMarch | play.go:501-555 | the cadence flips the sprite frame, marches, and steers from the march's edge flag; it never touches the ship or the UFO |
| Rules.CadenceSteering | play.go:545-554 | after a down step the formation goes right iff the last edge-touching alien is at x = 0, else left; otherwise it goes down iff an alien touched an edge |
| Rules.CadenceTick | play.go:501-555 | a cadence frame: flip the sprite frame, march, level up when cleared, and steer |
| Rules.Steer | play.go:545-554 | after a down step: right iff the recorded x is 0, else left; otherwise down iff an edge was touched, else unchanged |
| Rules.NextLevel | play.go:536-543 | level up by one, cadence down by one to a floor of 2, a new formation, all bullets wiped |
| Rules.LevelAdvance | play.go:536-543 | with no alien and no UFO left the level goes up by one, the cadence drops by one frame to a floor of 2, a new formation is built and all bullets are wiped |
| Rules.CadenceKeepsShape | play.go:501-555 | the cadence keeps the round's slot sizes and never lowers the level |
| Rules.AlienBulletsKeepShape | play.go:442-467 | the alien-bullet phase keeps slot sizes, the formation and the UFO |
| Rules.ShotAndDriftKeepShape | play.go:469-499 | the ship-bullet and UFO phases keep slot sizes and lives, and never leave a UFO with an armed timer |
| Rules.FrameKeepsShape | play.go:440-566 | a frame keeps slot sizes, never lowers the level, never has a UFO and an armed timer together, and a frame that continues ends with a UFO or an armed timer |
| Rules.LaterPhasesKeepLives | play.go:469-565 | no phase after the alien bullets changes the ship's lives |
| Rules.LifeLostEndsFrame | play.go:456-460 | a frame that costs a non-final life ends right after the bullet wipe, with one life fewer and all else kept |
| Rules.ShipHitIff | play.go:440-566 | a frame costs a life iff an alien bullet lands on the ship, and ends the game on the last life |
| Rules.FrameRest | play.go:469-565 | the frame after the alien bullets: ship bullet, UFO drift, cadence on frames divisible by it, then the UFO timer unless the march ended the game |
| Rules.FrameStep | play.go:440-566 | `UpdatePlay` as a function: the alien-bullet phase, stopping there on a lost life or game over, then the rest of the frame |
| Rules.ShipControl | play.go:568-587 | arrows move the ship two cells and clamp it to the screen; Space fires from the ship's centre only when no bullet is in flight |
| Rules.ShipAfterKey | play.go:568-587 | an arrow moves the ship two columns, Space fires when no bullet is out, then the ship is clamped to the screen |
| Play.LevelBanner | play.go:606-608 | the banner is `Level ` followed by the level in decimal |
| Play.LevelBannerReadsBack | play.go:606-608 | the banner's number reads back as the level |
| Play.AlienColumns | play.go:286-289 | the column count is the last index whose step fits left of half the screen width; unchanged on a screen under two columns wide |
| Play.FormationDepth | play.go:290-295 | the depth is at most 5, every counted row starts above the limit, and a row count under 5 stops at the limit |
| Play.RowSizing | play.go:296-306 | depth up to 3 gives one small and one medium row, 4 gives two small, 5 gives two of each |
| Play.FitColumns | play.go:286-289 | the column loop computes `AlienColumns` |
| Play.FitRows | play.go:290-295 | the row loop computes `FormationDepth` |
| Play.Round.constructor | play.go:98-125 | the package globals start with no ship, no UFO, empty slices and a 2/2/1 row split |
| Play.Round.WipeBullets | play.go:243-246 | the ship's bullet is cleared and a fresh, empty alien-bullet slice is made |
| Play.Round.HandleKeyPlay | play.go:568-587 | a key moves, clamps or fires the ship as `ShipControl` states and changes nothing else |
| Play.Round.MakeAliens | play.go:589-604 | fills rows·cols slots from the offset, and returns the next row's y and slot offset |
| Play.Round.BeginNextLevel | play.go:619-632 | the large, medium and small rows are filled in that order as `PopulateFormation` states |
| Play.Round.Fire | play.go:523-532 | an alien shot goes into the first empty bullet slot |
| Play.Round.MarchAlien | play.go:508-532 | one live alien moves, flags an edge, ends the game or fires, as `MarchStep` says |
| Play.Round.MarchSlot | play.go:507-533 | one pass of the march loop takes the arrays and flags from `MarchScan` of i slots to i + 1 slots |
| Play.Round.March | play.go:507-534 | the march loop over the alien slots computes `MarchScan` |
| Play.Round.FlipAndMarch | play.go:501-534 | the sprite frame flips and the formation marches as `MarchScan` says |
| Play.Round.SettleFormation | play.go:536-554 | after a march that did not end the game, the level advances when cleared with no UFO, then the velocity is steered |
| Play.Round.LevelUp | play.go:536-543 | level completion as `LevelAdvance` states |
| Play.Round.Cadence | play.go:501-555 | a cadence frame as `CadenceTickMarch` and `CadenceSteering` state |
| Play.Round.DropAlienBullet | play.go:443-465 | one alien bullet advances, leaves at the bottom, hits the ship, or erodes a barricade cell |
| Play.Round.ScanStep | play.go:443-465 | one pass of the bullet loop takes the slice, grid and hit flag from `AlienBulletScan` of b slots to b + 1 slots |
| Play.Round.ScanLoop | play.go:442-467 | the bullet loop, stopping at the first hit, ends in the state `AlienBulletScan` describes |
| Play.Round.ScanAlienBullets | play.go:442-467 | the bullet loop computes `AlienBulletScan` on the slice and the barricade grid |
| Play.Round.MoveAlienBullets | play.go:441-467 | the alien-bullet phase as `AlienBulletsHit` states |
| Play.Round.ShotCell | play.go:474-476 | the occupancy grid's cell under the bullet is the cell `AlienCell` describes |
| Play.Round.LandShot | play.go:476-487 | a bullet on screen destroys and scores the UFO or the alien in its cell, stops at a barricade cell, or flies on |
| Play.Round.MoveShipBullet | play.go:469-489 | the ship-bullet phase as the `ShipBullet*` lemmas state |
| Play.Round.FinishFrame | play.go:469-565 | the phases after the alien bullets run as `FrameRest` says, ending the game when the march reaches the ship |
| Play.Round.UpdatePlay | play.go:440-566 | one play frame moves the round exactly as `FrameStep` does and reports Continue, LifeLost or GameOver |
| Play.Round.SizeFormation | play.go:285-306 | columns and row split are recomputed from the screen; the ship and the UFO are untouched |
| Play.Round.SizedFor | play.go:286-306 | the columns and the small and medium row counts are those `wipePlay` computes for the screen |
| Play.Round.BarricadesFor | play.go:315 | the barricade grid is w by h and holds what `genBarricades` stamps |
| Play.Round.WipedFor | play.go:308-317 | the round `wipePlay` leaves: sized for the screen, no ship, empty slots, sprite frame 0, cadence 15, moving right, level 1, barricades rebuilt |
| Play.Round.WipePlay | play.go:284-318 | resets the round: the formation sized for the screen, no ship, empty slots sized to the formation, sprite frame 0, level 1, cadence 15, moving right, barricades stamped afresh, the UFO untouched |
| Play.Round.ClearRound | play.go:308-317 | no ship, empty alien and bullet slots sized to the formation, sprite frame 0, cadence 15, moving right, level 1 (the barricades are regenerated by `WipePlay`) |
| Play.Round.StartRound | play.go:642-651 | a new round: the formation sized for the screen, sprite frame 0, cadence 15, moving right, level 1, fresh empty bullet slots, the barricades `genBarricades` builds, the UFO untouched, the ship at the given cell with five lives, no score and no bullet, and the first formation placed as `PopulateFormation` says |
| Play.Round.DriftUfo | play.go:493-499 | the UFO phase as `UfoDriftEffect` states |
| Play.Round.UfoTimerStep | play.go:557-565 | the timer phase as `UfoTimerEffect` states |
| Menu.Velocity | menu.go:133-137 | the settled velocity has no zero component, and on `rand.Intn(3)` draws each component is -1 or +1 |
| Menu.VelocityFirst | menu.go:133-137 | the velocity comes from the first pair of draws with no zero component |
| Menu.NewStar | menu.go:130-140 | the redraw loop settles on that velocity at the given cell |
| Menu.Drifted | menu.go:121-122 | a drifting star moves by its velocity and keeps it |
| Menu.Spawned | menu.go:114-118 | the list grows by one star while below its capacity of 100 |
| Menu.MenuStepBounds | menu.go:113-128 | the list grows by one up to 100; every star ends on screen with a diagonal velocity, either moved one step or redrawn at its seed's cell |
| Menu.MenuStepKeepsCourse | menu.go:120-126 | a star that stays on screen moves by exactly its velocity |
| Menu.MenuStep | menu.go:113-128 | one starfield frame: spawn a star while below 100, move each star, and redraw any that left the screen |
| Menu.Twinkle | menu.go:120-126 | a star drifts by its velocity and, once outside 0..w by 0..h, is replaced by a new star from its seed |
| Menu.Sky.constructor | menu.go:70-71 | the star slice starts empty |
| Menu.Sky.UpdateMenu | menu.go:113-128 | the update computes `MenuStep`, which `MenuStepBounds` describes |
| Game.NextFrame | game.go:117-123 | the frame counter stays in 1..30, wraps to 1 exactly after 30, and otherwise counts up by one |
| Game.TickCycle | game.go:117-123 | after k ticks the counter is (fc - 1 + k) mod 30 + 1 |
| Game.TickPeriod | game.go:117-123 | every 30 ticks the counter returns to where it was |
| Game.KeyHandler | game.go:133-146 | each state's key handler: Menu, Howto, Play, Highscores and Warn each have their own |
| Game.FrameUpdater | game.go:190-206 | each state's update after the tick: the starfield for Menu, Howto and Highscores, the round for Play, none for Warn |
| Game.Checked | play.go:403-410 | the ledger after `checkHighscores`: a qualifying score is recorded under the polled name, otherwise it is unchanged |
| Game.CheckedLedger | play.go:403-422 | the end-of-round update keeps the ledger sorted with at most five entries; a qualifying score is recorded under a 3-10 character name; the written file of storable entries loads back as that ledger |
| Game.CheckedLedgerSorted | play.go:403-410 | the end-of-round update keeps the ledger sorted |
| Game.ParseRecordsErrSticks | game.go:214-221 | once a line has failed, later lines cannot rescue the load |
| Game.ReadRecords | game.go:214-221 | the line loop returns the first failing line's error or every entry in order |
| Play.FormationRoom | play.go:309 | the formation's rows·columns slots fit in the `aliensHorizontal·numRows` slice |
| Game.Game.constructor | game.go:107-114 | a new game has an empty ledger, frame counter 1, the Menu state and the first menu item |
| Game.Game.Valid | game.go:85-105 | the game's invariant: frame counter in 1..30, sorted ledger, stars within capacity with diagonal velocities, one large alien row, a ship in Play with round arrays sized to the formation, never a UFO with an armed timer |
| Game.Game.Tick | game.go:117-123 | a tick advances the frame counter as `NextFrame` and changes nothing else |
| Game.Game.CheckSize | game.go:226-231 | the screen fits iff it is at least the logo's width plus 8 (99) wide and the logo's top row plus 31 tall |
| Game.Game.FitScreen | game.go:148-152 | resizing records the new width and height and changes nothing else |
| Game.Game.GoMenu | menu.go:142-147 | enters Menu with the first item highlighted |
| Game.Game.GoHighscores | highscores.go:65-69 | enters Highscores with the menu colours |
| Game.Game.GoWarn | warn.go:43-47 | enters Warn with the menu colours |
| Game.Game.GoHowto | howto.go:69-71 | enters Howto and changes nothing else |
| Game.Game.HandleKeyHighscores | highscores.go:57-63 | Esc returns to Menu with Highscores highlighted; other keys change nothing |
| Game.Game.HandleKeyWarn | warn.go:16-25 | Enter or Space returns to Menu only once the screen fits; otherwise nothing changes |
| Game.Game.HandleKey | game.go:133-146 | a key goes to the current state's handler with that handler's effect; the Play, Highscores and Warn handlers keep the colours; the game stays valid |
| Game.Game.LoadHighscores | game.go:208-224 | a load either fails on the first bad line or merges the file's entries into a sorted ledger holding exactly the old and new entries |
| Game.Game.Startup | game.go:246-262 | start-up loads the file if present, enters Menu (first item highlighted, colours kept) or Warn (menu colours) from the first measured size, then records the second size |
| Game.Game.CheckHighscores | play.go:403-422 | a qualifying score is recorded and the whole ledger is written; otherwise neither ledger nor file changes |
| Game.Game.GoPlay | play.go:634-653 | entering Play sets the play colours; it resumes a round in progress unchanged, or starts a new one: the whole `wipePlay` reset for the screen, ship at the bottom centre with five lives, level 1 formation |
| Game.Game.EndGame | play.go:424-430 | game over records the score, then the whole `wipePlay` reset for the screen (formation size, empty slots, sprite frame 0, cadence 15, moving right, level 1, new barricades, UFO kept), then Menu with the first item and the colours kept |
| Game.Game.DriftStars | menu.go:113-128 | the starfield moves as `MenuStep` and the game stays valid |
| Game.Game.AdvanceRound | play.go:440-566 | the round moves as `FrameStep` says, its formation sizing is unchanged, and the game stays valid |
| Game.Game.PlayFrame | play.go:440-566 | a play frame moves the round as `FrameStep` with its sizing kept; on game over the ledger is updated, the round gets the whole `wipePlay` reset (keeping the frame's UFO and timer) and the game returns to Menu; the colours are kept |
| Game.Game.Update | game.go:190-206 | each frame ticks the counter, then runs the current state's updater: the starfield for Menu, Howto and Highscores, the round for Play (as `PlayFrame` states, reset included), nothing for Warn; the colours are kept |

## Left out

- Drawing (`Draw*`, `tbprint`, `tbrect`, `FreezeFlash`, the sprite art beyond its sizes) and termbox initialisation are not modelled: they only paint the terminal.
- `time.Sleep` in `FreezeFlash` is not modelled, and neither are the frame timer (`<-g.timer`), `rand.Seed` or `newUfoTimer`'s 15-34 s delay: the clock and randomness are inputs.
- The `Listen` goroutine, the main event loop and the `q` key are not modelled: they are concurrency and I/O around the handlers, and the handlers are modelled.
- `ReadJoystick` is not modelled: it is a device read that only calls `HandleKey` with Space or an arrow.
- File I/O is reduced to strings: the file's presence and contents are an input, and the text to write is a result.
- `HandleKeyMenu`, `HandleKeyHowto`, the menu art and `howto.go`'s text are not part of this model.
- Game.Game.HandleKey: for Menu and Howto it reports only which handler runs, and claims no effect, not even on the colours (the menu's handler can start a round, which sets the play colours).
- Play.Round.UpdatePlay: requires that the ship, every alien bullet, the ship's bullet, every live alien's sprite and the sprite of a shown UFO stay inside the grids (the stamping in play.go:177-191 and 209-235 indexes the grid without a bound check). Go would panic otherwise. The model does not prove that these hold from frame to frame, because a resize can break them.
- Occupancy.GenBarricades: requires `BarricadesFit`, that all four barricade sprites lie inside the w-by-h grid. On a smaller screen Go indexes past the grid at play.go:270-272 and panics; the model has no such path.
- Play.Round.WipePlay: requires `BarricadesFit` for the same reason, since it regenerates the barricades.
- Play.Round.StartRound: requires `BarricadesFit` for the same reason.
- Game.Game.GoPlay: requires `BarricadesFit` when a new round starts. The screen check in `CheckSize` does not ensure it if the terminal shrank afterwards, and Go would then panic in `genBarricades`.
- Game.Game.EndGame: requires `BarricadesFit`, because `gameOver` calls `WipePlay`; Go would panic in `genBarricades` otherwise.
- Game.Game.Update: carries the same in-screen requirements for Play, and requires key polls that produce a name in case the game ends.
- Game.Game.PlayFrame: requires key polls that produce a name, because `getName` blocks until one is entered.
- Game.Game.CheckHighscores: requires key polls that produce a name whenever the score qualifies.
- Menu.Sky.UpdateMenu: requires a valid seed for every slot, because each `rand.Intn` draw is an input.
- Menu.MenuStep: requires the same seeds.
- Menu.NewStar: requires draws that eventually settle; with only a finite prefix of draws, an endless run of zero velocities is out of reach.
- Ledger.RecordKeepsEntry: requires a ledger of at most five entries. Only then is a qualifying score sure to be kept. A ledger loaded from a longer file can drop it, as `Ledger.LongLedgerDropsQualifier` shows.
- Game.CheckedLedger: its "a qualifying score is recorded" clause likewise requires a ledger of at most five entries, for the same reason.
- Ledger.SortDescCorrect: claims sorted and a permutation, which is all `sort.Sort` promises; the tie order of `SortDesc` is the insertion sort's.
- Game.Game.LoadHighscores: its `ensures` fixes the ledger to `SortDesc` of the old and new entries, that is, equal scores in insertion-sort order, for every file length. Go's `sort.Sort` orders ties that way only for at most 12 entries from Go 1.19; otherwise (7 to 12 entries before Go 1.19, more than 12 on any release) equal scores may come out in another order. The scores, the entries and the sortedness agree either way.
- Game.Game.CheckHighscores: the same tie-order caveat applies when the ledger loaded from the file held more than five entries, so that more than six are sorted.
- Ledger.EnteredNameLength: treats each key as one single-byte character. Go's `getName` counts bytes with `len(name)`, appends the key's UTF-8 encoding and drops one byte on Backspace. With multi-byte keys Go can return a name of fewer than 3 characters or up to 13 bytes, and Backspace can leave a broken encoding.
- Ledger.NameStepBounds: the same single-byte assumption.
- Game.Game.Startup: takes the two screen sizes `termbox.Size` reports, one for each `FitScreen`, rather than reading the terminal.
- Play.Round.MakeAliens: fixes `cols`, `spriteW` and `spriteH` to `aliensHorizontal` and the alien sprite size, the values every call passes.
- Occupancy.AlienCellMeaning: assumes fewer than 666 alien slots, since a larger slot index would collide with the UFO marker.
- Colours are integers (termbox `ColorBlack` = 1, default = 0, `fgMenu` = 0xc5). They feed only drawing.

=== FILE: entities.dfy ===
/**
 * The shapes of the play-state entities and the tuning constants of a round.
 * Colours are left out: they only matter to the renderer.
 */
module Entities {
  import opened Wrappers
  import opened Sprites

  const PlayerSpriteBottomOffset: int := 2
  const InitLives: int := 5
  const PlayerMoveSpeed: int := 2
  const PlayerBulletSpeed: int := -1
  const PlayerSpriteHere: int := 11

  const UfoMoveEvery: int := 3
  const UfoIndex: int := 666
  const UfoReward: int := 100

  const AlienBulletSpeed: int := 1
  const AlienShootValMax: int := 100
  const AlienPadVertical: int := 1
  const AlienPadHorizontal: int := 3

  const RwdSm: int := 10
  const RwdMd: int := 20
  const RwdLg: int := 30

  const AlienStartX: int := 10
  const AlienStartY: int := 7

  const NumBarricades: int := 4

  /** The marker of an unoccupied cell in every occupancy grid. */
  const NonIndex: int := -50

  /**
   * The number of alien rows the slot array is sized for. It is the sum of the
   * initial row counts (2 small, 2 medium, 1 large), fixed once at start-up and
   * never recomputed, whatever the row counts later become.
   */
  const NumRows: int := 5

  /** The roll of `rand.Intn(AlienShootValMax)` that makes an alien fire. */
  const FiringRoll: int := 6

  datatype Bullet = Bullet(x: int, y: int, vy: int)

  datatype Ship = Ship(x: int, y: int, score: int, lives: int, bullet: Option<Bullet>)

  /** Which sprite pair (and so which row tier) an alien was built with. */
  datatype Tier = Small | Medium | Large

  datatype Alien = Alien(x: int, y: int, sprite: Tier, reward: int)

  datatype Ufo = Ufo(x: int, y: int)

  /** A shared formation velocity (dx, dy). */
  datatype Vec = Vec(dx: int, dy: int)

  const RightMove: Vec := Vec(1, 0)
  const LeftMove: Vec := Vec(-1, 0)
  const DownMove: Vec := Vec(0, 1)

  function Frames(t: Tier): (f: seq<seq<string>>)
    ensures |f| == 2
  {
    match t
    case Small => SmAlienSprite
    case Medium => MdAlienSprite
    case Large => LgAlienSprite
  }

  /** `NewBullet(x, y, vy)`. */
  function NewBullet(x: int, y: int, vy: int): Bullet { Bullet(x, y, vy) }

  /** `newUfo()`: a UFO whose sprite starts fully left of the screen, on row 4. */
  function NewUfo(): (u: Ufo)
    ensures u.x + UfoSpriteWidth == 0 && u.y == 4
  {
    Ufo(0 - UfoSpriteWidth, 4)
  }

  /**
   * Go's `/` on int: the quotient truncated toward zero, so the remainder
   * a - q·b has the sign of `a` and is smaller than `b` in size.
   */
  function GoDiv(a: int, b: int): (q: int)
    requires b > 0
    ensures a >= 0 ==> 0 <= a - q * b < b
    ensures a < 0 ==> -b < a - q * b <= 0
  {
    if a >= 0 then a / b else -((-a) / b)
  }
}

=== FILE: game.dfy ===
/**
 * The game-mode machine: which screen is up, the frame counter, the screen
 * size, the clear colours and the highscore ledger, and the transitions
 * between screens. The play round and the menu's starfield are package-level
 * state in the program; here they are objects the game holds.
 */
module Game {
  import opened Wrappers
  import opened Sprites
  import opened Entities
  import opened Occupancy
  import opened Rules
  import opened Keys
  import opened Text
  import opened Ledger
  import opened Play
  import opened Menu

  datatype GameState = MenuState | HowtoState | PlayState | HighscoresState | WarnState

  const Fps: int := 30

  // Colour attributes: termbox's ColorDefault is 0 and its ColorBlack is 1.
  const ColorDefault: int := 0
  const ColorBlack: int := 1
  const FgMenu: int := 0xc5
  const BgMenu: int := ColorBlack
  const FgPlay: int := ColorBlack
  const BgPlay: int := ColorBlack

  /** `Tick` on a `uint8` counter: step by one (wrapping at 256), back to 1 past `fps`. */
  function NextFrame(fc: int): (n: int)
    ensures 1 <= fc <= Fps ==> 1 <= n <= Fps && (n == 1 <==> fc == Fps) && (fc < Fps ==> n == fc + 1)
  {
    var n := (fc + 1) % 256;
    if n > Fps then 1 else n
  }

  /** The counter after k ticks. */
  function Ticks(fc: int, k: nat): int
  {
    if k == 0 then fc else NextFrame(Ticks(fc, k - 1))
  }

  lemma ModStep(a: nat)
    ensures (a + 1) % Fps == if a % Fps == Fps - 1 then 0 else a % Fps + 1
  {
  }

  /** From any frame in 1..fps, k ticks count on cyclically through 1..fps. */
  lemma {:induction false} TickCycle(fc: int, k: nat)
    requires 1 <= fc <= Fps
    ensures Ticks(fc, k) == (fc - 1 + k) % Fps + 1
  {
    if k > 0 {
      TickCycle(fc, k - 1);
      ModStep(fc - 1 + k - 1);
    }
  }

  /** Every `fps` ticks the counter is back where it was. */
  lemma TickPeriod(fc: int, n: nat)
    requires 1 <= fc <= Fps
    ensures Ticks(fc, n * Fps) == fc
  {
    TickCycle(fc, n * Fps);
    assert (fc - 1 + n * Fps) % Fps == fc - 1;
  }

  /** The handler `HandleKey` passes a key to. */
  datatype Handler = MenuKeys | HowtoKeys | PlayKeys | HighscoresKeys | WarnKeys

  /** The update `Update` runs after the tick. */
  datatype Updater = Starfield | RoundFrame | NoUpdate

  /** The key handler of each state. */
  function KeyHandler(s: GameState): Handler
  {
    match s
    case MenuState => MenuKeys
    case HowtoState => HowtoKeys
    case PlayState => PlayKeys
    case HighscoresState => HighscoresKeys
    case WarnState => WarnKeys
  }

  /** The updater of each state: the menu, how-to and highscores screens all drift the starfield. */
  function FrameUpdater(s: GameState): Updater
  {
    match s
    case MenuState => Starfield
    case HowtoState => Starfield
    case PlayState => RoundFrame
    case HighscoresState => Starfield
    case WarnState => NoUpdate
  }

  /** The name `getName` returns for a stream of key polls. */
  function PolledName(polls: seq<Option<Key>>): Option<string>
  {
    EnterName("", false, polls)
  }

  /**
   * The ledger after `checkHighscores` for a final score: a qualifying
   * score is recorded under the polled name, otherwise nothing changes.
   */
  function Checked(ledger: seq<Highscore>, score: int, polls: seq<Option<Key>>): seq<Highscore>
    requires Qualifies(ledger, score) ==> PolledName(polls).Some?
  {
    if Qualifies(ledger, score) then Record(ledger, score, PolledName(polls).value) else ledger
  }

  /**
   * A well-formed ledger stays well-formed (non-increasing, at most five
   * entries); a qualifying score is kept under a name of 3 to 10
   * characters; and the file written for it reads back as that very ledger,
   * provided no name holds a separator.
   */
  lemma CheckedLedger(ledger: seq<Highscore>, score: int, polls: seq<Option<Key>>)
    requires SortedDesc(ledger) && |ledger| <= MaxHighscores
    requires Qualifies(ledger, score) ==> PolledName(polls).Some?
    ensures var r := Checked(ledger, score, polls);
      && SortedDesc(r) && |r| <= MaxHighscores
      && (Qualifies(ledger, score) ==>
            var name := PolledName(polls).value;
            && MinNameLength <= |name| <= MaxNameLength
            && Highscore(score, name) in r
            && (Storable(Highscore(score, name)) && (forall e :: e in ledger ==> Storable(e)) ==>
                  LoadLedger(Serialise(r)) == Ok(r)))
  {
    if Qualifies(ledger, score) {
      var name := PolledName(polls).value;
      var e := Highscore(score, name);
      var r := Record(ledger, score, name);
      EnteredNameLength("", false, polls);
      RecordBoundedSorted(ledger, score, name);
      RecordKeepsEntry(ledger, score, name);
      if Storable(e) && forall x :: x in ledger ==> Storable(x) {
        forall x | x in r ensures Storable(x) {
          assert x in multiset(r);
          assert x in multiset(ledger) + multiset{e};
        }
        LoadSerialised(r);
      }
    }
  }

  /** The first bad line of the file decides the whole load. */
  lemma {:induction false} ParseRecordsErrSticks(lines: seq<string>, i: nat)
    requires i <= |lines| && ParseRecords(lines[..i]).Err?
    ensures ParseRecords(lines) == ParseRecords(lines[..i])
    decreases |lines| - i
  {
    if i == |lines| {
      assert lines[..i] == lines;
    } else {
      ParseRecordsSnoc(lines[..i], lines[i]);
      assert lines[..i + 1] == lines[..i] + [lines[i]];
      ParseRecordsErrSticks(lines, i + 1);
    }
  }

  /**
   * The parsing loop of `loadHighscores`: each line in order becomes a
   * record, and the first line that does not parse stops the loop with its
   * error.
   */
  method ReadRecords(lines: seq<string>) returns (r: Result<seq<Highscore>, LoadError>)
    ensures r == ParseRecords(lines)
  {
    var loaded := [];
    for i := 0 to |lines|
      invariant ParseRecords(lines[..i]) == Ok(loaded)
    {
      ParseRecordsSnoc(lines[..i], lines[i]);
      assert lines[..i + 1] == lines[..i] + [lines[i]];
      var p := ParseRecord(lines[i]);
      if p.Err? {
        ParseRecordsErrSticks(lines, i + 1);
        return Err(p.error);
      }
      loaded := loaded + [p.value];
    }
    assert lines[..|lines|] == lines;
    r := Ok(loaded);
  }

  class Game {
    var highscores: seq<Highscore>
    var state: GameState
    var fc: int                 // the frame counter, a uint8
    var hmi: int                // the highlighted menu item
    var w: nat
    var h: nat
    var cfg: int                // colours of a cleared screen
    var cbg: int

    const logoY: int            // the logo's top row, whose value is not part of this model
    const round: Round          // the play state
    const sky: Sky              // the menu's starfield

    /**
     * The shape kept from `NewGame` on: the counter in 1..fps, a sorted
     * ledger, a starfield within capacity whose stars move diagonally, a
     * ship in play whenever the play screen is up, a round shaped as
     * `wipePlay` makes it while a ship exists, and never a UFO on screen
     * with a timer running.
     */
    ghost predicate Valid()
      reads this, round, round.aliens, round.alienBullets, round.barricades, sky
    {
      && 1 <= fc <= Fps
      && SortedDesc(highscores)
      && |sky.stars| <= NumStars
      && (forall i :: 0 <= i < |sky.stars| ==> Diagonal(sky.stars[i]))
      && round.rowsLg == 1
      && (state == PlayState ==> round.player.Some?)
      && (round.player.Some? ==> Shaped(round.View(), round.Sizing()))
      && !(round.ufo.Some? && round.ufoTimerArmed)
    }

    /** `NewGame`: an empty ledger, frame 1, the zero state (the menu), and no round yet. */
    constructor (logoTop: int, barricadeSprite: seq<string>, barricadeWidth: int, barricadeHeight: int)
      ensures highscores == [] && state == MenuState && fc == 1 && hmi == FirstMenuItem
      ensures w == 0 && h == 0 && cfg == ColorDefault && cbg == ColorDefault && logoY == logoTop
      ensures fresh(round) && fresh(sky) && round.player.None? && sky.stars == []
      ensures Valid()
    {
      highscores := [];
      state := MenuState;
      fc := 1;
      hmi := FirstMenuItem;
      w, h := 0, 0;
      cfg, cbg := ColorDefault, ColorDefault;
      logoY := logoTop;
      round := new Round(barricadeSprite, barricadeWidth, barricadeHeight);
      sky := new Sky();
    }

    /** `Tick`, without the wait for the frame timer. */
    method Tick()
      modifies this
      ensures fc == NextFrame(old(fc))
      ensures state == old(state) && hmi == old(hmi) && highscores == old(highscores)
      ensures w == old(w) && h == old(h) && cfg == old(cfg) && cbg == old(cbg)
    {
      fc := (fc + 1) % 256;
      if fc > Fps {
        fc := 1;
      }
    }

    /** `checkSize`: the screen holds the logo's width plus eight and its height plus seven rows below `logoY`. */
    function CheckSize(): (fits: bool)
      reads this
      ensures fits <==> w >= 99 && h >= logoY + 31
    {
      !(w < LogoLineLength + 8 || h < logoY + LogoHeight + 5 + 2)
    }

    /** `FitScreen`: re-measure the screen; nothing else changes and the size is not checked again. */
    method FitScreen(width: nat, height: nat)
      modifies this
      ensures w == width && h == height
      ensures state == old(state) && hmi == old(hmi) && fc == old(fc) && highscores == old(highscores)
      ensures cfg == old(cfg) && cbg == old(cbg)
    {
      w, h := width, height;
    }

    /** `GoMenu`: the menu with its first item highlighted. */
    method GoMenu()
      modifies this
      ensures state == MenuState && hmi == FirstMenuItem
      ensures fc == old(fc) && highscores == old(highscores) && w == old(w) && h == old(h)
      ensures cfg == old(cfg) && cbg == old(cbg)
    {
      state := MenuState;
      hmi := FirstMenuItem;
    }

    /** `GoHighscores`: the table, cleared in the menu colours; the highlighted item is kept. */
    method GoHighscores()
      modifies this
      ensures state == HighscoresState && cfg == FgMenu && cbg == BgMenu
      ensures hmi == old(hmi) && fc == old(fc) && highscores == old(highscores) && w == old(w) && h == old(h)
    {
      state := HighscoresState;
      cfg := FgMenu;
      cbg := BgMenu;
    }

    /** `GoWarn`: the too-small warning, cleared in the menu colours. */
    method GoWarn()
      modifies this
      ensures state == WarnState && cfg == FgMenu && cbg == BgMenu
      ensures hmi == old(hmi) && fc == old(fc) && highscores == old(highscores) && w == old(w) && h == old(h)
    {
      state := WarnState;
      cfg := FgMenu;
      cbg := BgMenu;
    }

    /** `GoHowto`: the instructions screen; nothing else changes. */
    method GoHowto()
      modifies this
      ensures state == HowtoState
      ensures hmi == old(hmi) && fc == old(fc) && highscores == old(highscores) && w == old(w) && h == old(h)
      ensures cfg == old(cfg) && cbg == old(cbg)
    {
      state := HowtoState;
    }

    /** `HandleKeyHighscores`: Esc returns to the menu with the highscores item highlighted; other keys do nothing. */
    method HandleKeyHighscores(k: Key)
      modifies this
      ensures k == KeyEsc ==> state == MenuState && hmi == HighscoresItem
      ensures k != KeyEsc ==> state == old(state) && hmi == old(hmi)
      ensures fc == old(fc) && highscores == old(highscores) && w == old(w) && h == old(h)
      ensures cfg == old(cfg) && cbg == old(cbg)
    {
      if k == KeyEsc {
        GoMenu();
        hmi := HighscoresItem;
      }
    }

    /** `HandleKeyWarn`: Enter and Space alike go to the menu if the screen is now big enough; other keys do nothing. */
    method HandleKeyWarn(k: Key)
      modifies this
      ensures (k == KeyEnter || k == KeySpace) && CheckSize() ==> state == MenuState && hmi == FirstMenuItem
      ensures !((k == KeyEnter || k == KeySpace) && CheckSize()) ==> state == old(state) && hmi == old(hmi)
      ensures fc == old(fc) && highscores == old(highscores) && w == old(w) && h == old(h)
      ensures cfg == old(cfg) && cbg == old(cbg)
    {
      if k == KeyEnter || k == KeySpace {
        if CheckSize() {
          GoMenu();
        }
      }
    }

    /**
     * `HandleKey`: the key goes to the handler of the current state, and
     * only that handler runs. The menu's and the how-to screen's own
     * handlers are not part of this model.
     */
    method HandleKey(k: Key) returns (handler: Handler)
      requires Valid()
      modifies this, round
      ensures handler == KeyHandler(old(state)) && Valid()
      ensures fc == old(fc) && highscores == old(highscores) && w == old(w) && h == old(h)
      ensures old(state) != PlayState ==> unchanged(round)
      ensures old(state) == PlayState ==>
        && state == PlayState && hmi == old(hmi) && cfg == old(cfg) && cbg == old(cbg)
        && round.player.Some? && round.View() == old(round.View()).(player := ShipAfterKey(old(round.player.value), k, w))
      ensures old(state) in {PlayState, HighscoresState, WarnState} ==> cfg == old(cfg) && cbg == old(cbg)
      ensures old(state) == HighscoresState ==>
        if k == KeyEsc then state == MenuState && hmi == HighscoresItem else state == old(state) && hmi == old(hmi)
      ensures old(state) == WarnState ==>
        if (k == KeyEnter || k == KeySpace) && CheckSize() then state == MenuState && hmi == FirstMenuItem
        else state == old(state) && hmi == old(hmi)
    {
      match state
      case MenuState =>
        handler := MenuKeys;
      case HowtoState =>
        handler := HowtoKeys;
      case PlayState =>
        round.HandleKeyPlay(k, w);
        handler := PlayKeys;
      case HighscoresState =>
        HandleKeyHighscores(k);
        handler := HighscoresKeys;
      case WarnState =>
        HandleKeyWarn(k);
        handler := WarnKeys;
    }

    /**
     * `loadHighscores` on the file's contents: every line is parsed and
     * appended in order, the first bad line aborts the load with its error,
     * and a complete load is sorted non-increasing by score.
     */
    method LoadHighscores(data: string) returns (err: Option<LoadError>)
      modifies this
      ensures match ParseRecords(Split(data, RecordSeparator))
        case Err(e) => err == Some(e)
        case Ok(parsed) =>
          && err.None? && highscores == SortDesc(old(highscores) + parsed)
          && SortedDesc(highscores) && multiset(highscores) == multiset(old(highscores)) + multiset(parsed)
      ensures state == old(state) && hmi == old(hmi) && fc == old(fc) && w == old(w) && h == old(h)
      ensures cfg == old(cfg) && cbg == old(cbg)
    {
      var r := ReadRecords(Split(data, RecordSeparator));
      if r.Err? {
        return Some(r.error);
      }
      var loaded := highscores + r.value;
      SortDescCorrect(loaded);
      highscores := SortDesc(loaded);
      err := None;
    }

    /**
     * Start-up: load the highscore file if there is one (a bad file ends
     * the program with its error), measure the screen, open the menu if it
     * is big enough and the warning otherwise, then measure again. The
     * second measure does not revisit that choice.
     */
    method Startup(file: Option<string>, width: nat, height: nat, width2: nat, height2: nat) returns (err: Option<LoadError>)
      requires Valid() && highscores == []
      modifies this
      ensures file.Some? ==> err == match LoadLedger(file.value) case Err(e) => Some(e) case Ok(_) => None
      ensures file.None? ==> err.None?
      ensures err.None? ==>
        && Valid()
        && highscores == (if file.Some? then LoadLedger(file.value).value else [])
        && state == (if width >= 99 && height >= logoY + 31 then MenuState else WarnState)
        && (state == MenuState ==> hmi == FirstMenuItem && cfg == old(cfg) && cbg == old(cbg))
        && (state == WarnState ==> hmi == old(hmi) && cfg == FgMenu && cbg == BgMenu)
        && fc == old(fc) && w == width2 && h == height2
    {
      err := None;
      if file.Some? {
        err := LoadHighscores(file.value);
        if err.Some? {
          return;
        }
        assert [] + ParseRecords(Split(file.value, RecordSeparator)).value == ParseRecords(Split(file.value, RecordSeparator)).value;
      }
      FitScreen(width, height);
      if CheckSize() {
        GoMenu();
      } else {
        GoWarn();
      }
      FitScreen(width2, height2);
    }

    /**
     * `checkHighscores` for a final score: a qualifying score is recorded
     * under the name `getName` polls for, and the new ledger's file
     * contents are handed back for writing.
     */
    method CheckHighscores(score: int, polls: seq<Option<Key>>) returns (written: Option<string>)
      requires Qualifies(highscores, score) ==> PolledName(polls).Some?
      modifies this
      ensures highscores == Checked(old(highscores), score, polls)
      ensures written == if Qualifies(old(highscores), score) then Some(Serialise(highscores)) else None
      ensures state == old(state) && hmi == old(hmi) && fc == old(fc) && w == old(w) && h == old(h)
      ensures cfg == old(cfg) && cbg == old(cbg)
    {
      written := None;
      if |highscores| < MaxHighscores || score > highscores[|highscores| - 1].score {
        var name := PolledName(polls).value;
        highscores := highscores + [Highscore(score, name)];
        highscores := SortDesc(highscores);
        if |highscores| > MaxHighscores {
          highscores := highscores[..MaxHighscores];
        }
        var data := SerialiseLedger(highscores);
        written := Some(data);
      }
    }

    /** `GoPlay`: the play screen; a new round (ship, formation) only when there is no ship. */
    method GoPlay()
      requires Valid()
      requires round.player.None? ==> BarricadesFit(round.barricadeSprite, w, h, round.barricadeWidth, round.barricadeHeight)
      modifies this, round, round.aliens
      ensures state == PlayState && cfg == FgPlay && cbg == BgPlay && Valid()
      ensures hmi == old(hmi) && fc == old(fc) && highscores == old(highscores) && w == old(w) && h == old(h)
      ensures old(round.player).Some? ==> unchanged(round) && unchanged(round.aliens)
      ensures old(round.player).None? ==>
        && round.player == Some(Ship(w / 2 - PlayerSpriteWidth / 2, h - PlayerSpriteBottomOffset - PlayerSpriteHeight, 0, InitLives, None))
        && round.SizedFor(w, h, old(round.aliensHorizontal))
        && round.ufo == old(round.ufo) && round.ufoTimerArmed == old(round.ufoTimerArmed)
        && round.alienSpriteIndex == 0 && round.lvl == 1 && round.alienv == RightMove && round.alienMoveEvery == 15
        && fresh(round.aliens) && round.aliens.Length == round.aliensHorizontal * NumRows
        && round.aliens[..] == Populate(seq(round.aliens.Length, _ => None), round.Sizing())
        && fresh(round.alienBullets) && round.alienBullets[..] == NoBullets(BulletSlots(round.aliensHorizontal))
        && fresh(round.barricades) && round.BarricadesFor(w, h)
    {
      state := PlayState;
      cfg := FgPlay;
      cbg := BgPlay;
      var startx := w / 2 - PlayerSpriteWidth / 2;
      var starty := h - PlayerSpriteBottomOffset - PlayerSpriteHeight;
      if round.player.None? {
        round.StartRound(w, h, startx, starty);
      }
    }

    /**
     * `gameOver`: the ledger is checked against the final score, the round
     * is wiped and the menu opens. Returns the file contents written, if any.
     */
    method EndGame(polls: seq<Option<Key>>) returns (written: Option<string>)
      requires Valid() && round.player.Some?
      requires BarricadesFit(round.barricadeSprite, w, h, round.barricadeWidth, round.barricadeHeight)
      requires Qualifies(highscores, round.player.value.score) ==> PolledName(polls).Some?
      modifies this, round
      ensures highscores == Checked(old(highscores), old(round.player.value.score), polls)
      ensures written == if Qualifies(old(highscores), old(round.player.value.score)) then Some(Serialise(highscores)) else None
      ensures state == MenuState && hmi == FirstMenuItem && cfg == old(cfg) && cbg == old(cbg)
      ensures fc == old(fc) && w == old(w) && h == old(h) && Valid()
      ensures round.WipedFor(w, h, old(round.aliensHorizontal)) && round.rowsLg == old(round.rowsLg)
      ensures round.ufo == old(round.ufo) && round.ufoTimerArmed == old(round.ufoTimerArmed)
      ensures fresh(round.aliens) && fresh(round.alienBullets) && fresh(round.barricades)
    {
      CheckedLedgerSorted(highscores, round.player.value.score, polls);
      written := CheckHighscores(round.player.value.score, polls);
      round.WipePlay(w, h);
      GoMenu();
    }

    /** The starfield updater of the menu, how-to and highscores screens. */
    method DriftStars(spawn: StarSeed, respawn: seq<StarSeed>)
      requires Valid()
      requires |sky.stars| < NumStars ==> Seeded(spawn, w, h)
      requires |respawn| >= |Spawned(sky.stars, spawn)| && forall i :: 0 <= i < |respawn| ==> Seeded(respawn[i], w, h)
      modifies sky
      ensures sky.stars == MenuStep(old(sky.stars), w, h, spawn, respawn) && Valid()
    {
      sky.UpdateMenu(w, h, spawn, respawn);
      MenuStepBounds(old(sky.stars), w, h, spawn, respawn);
    }

    /**
     * The play screen's updater: a frame of the round with the alien rolls
     * `rolls` and the UFO timer's `fired`, ending the game as `gameOver`
     * does when the frame says so.
     */
    method PlayFrame(rolls: seq<int>, fired: bool, polls: seq<Option<Key>>) returns (written: Option<string>)
      requires Valid() && state == PlayState && round.player.Some? && 0 <= round.alienSpriteIndex < 2
      requires Fits(PlayerSprite, round.player.value.x, round.player.value.y, w, h)
      requires round.AlienShotsInside(w, h) && round.ShipShotReady(w, h)
      requires BarricadesFit(round.barricadeSprite, w, h, round.barricadeWidth, round.barricadeHeight)
      requires PolledName(polls).Some?
      modifies this, round, round.aliens, round.alienBullets, round.barricades
      ensures Valid() && fc == old(fc) && w == old(w) && h == old(h) && cfg == old(cfg) && cbg == old(cbg)
      ensures var (o, f) := FrameStep(old(round.View()), old(round.Sizing()), w, h, fc, rolls, fired);
        && (o != GameOver ==>
              && state == PlayState && hmi == old(hmi) && highscores == old(highscores) && written.None?
              && round.player.Some? && round.View() == f && round.Sizing() == old(round.Sizing()))
        && (o == GameOver ==>
              && state == MenuState && hmi == FirstMenuItem
              && round.WipedFor(w, h, old(round.aliensHorizontal)) && round.rowsLg == old(round.rowsLg)
              && round.ufo == f.ufo && round.ufoTimerArmed == f.timerArmed
              && highscores == Checked(old(highscores), f.player.score, polls)
              && written == if Qualifies(old(highscores), f.player.score) then Some(Serialise(highscores)) else None)
    {
      written := None;
      var o := AdvanceRound(rolls, fired);
      if o == GameOver {
        written := EndGame(polls);
      }
    }

    /** The round's part of a play frame, as `FrameStep` says; the game's own fields are left alone. */
    method AdvanceRound(rolls: seq<int>, fired: bool) returns (o: Outcome)
      requires Valid() && state == PlayState && round.player.Some? && 0 <= round.alienSpriteIndex < 2
      requires Fits(PlayerSprite, round.player.value.x, round.player.value.y, w, h)
      requires round.AlienShotsInside(w, h) && round.ShipShotReady(w, h)
      modifies round, round.aliens, round.alienBullets, round.barricades
      ensures Valid() && round.player.Some? && round.Sizing() == old(round.Sizing())
      ensures (o, round.View()) == FrameStep(old(round.View()), old(round.Sizing()), w, h, fc, rolls, fired)
    {
      ghost var f0, l0 := round.View(), round.Sizing();
      assert Shaped(f0, l0);
      FormationRoom(l0);
      o := round.UpdatePlay(w, h, fc, rolls, fired);
      FrameKeepsShape(f0, l0, w, h, fc, rolls, fired);
    }

    /**
     * `Update`: tick the counter, then run the current state's updater.
     * The menu, how-to and highscores screens drift the starfield (new
     * stars drawn from `spawn` and `respawn`); the play screen runs a frame
     * of the round; the warning screen runs nothing.
     */
    method Update(spawn: StarSeed, respawn: seq<StarSeed>, rolls: seq<int>, fired: bool, polls: seq<Option<Key>>)
      returns (updater: Updater, written: Option<string>)
      requires Valid()
      requires FrameUpdater(state) == Starfield ==>
        && (|sky.stars| < NumStars ==> Seeded(spawn, w, h))
        && |respawn| >= |Spawned(sky.stars, spawn)|
        && (forall i :: 0 <= i < |respawn| ==> Seeded(respawn[i], w, h))
      requires state == PlayState ==>
        && round.player.Some? && 0 <= round.alienSpriteIndex < 2
        && Fits(PlayerSprite, round.player.value.x, round.player.value.y, w, h)
        && round.AlienShotsInside(w, h) && round.ShipShotReady(w, h)
        && BarricadesFit(round.barricadeSprite, w, h, round.barricadeWidth, round.barricadeHeight)
        && PolledName(polls).Some?
      modifies this, sky, round, round.aliens, round.alienBullets, round.barricades
      ensures updater == FrameUpdater(old(state)) && Valid()
      ensures fc == NextFrame(old(fc)) && w == old(w) && h == old(h) && cfg == old(cfg) && cbg == old(cbg)
      ensures updater != RoundFrame ==>
        && state == old(state) && hmi == old(hmi) && highscores == old(highscores) && written.None?
        && unchanged(round)
        && sky.stars == if updater == Starfield then MenuStep(old(sky.stars), w, h, spawn, respawn) else old(sky.stars)
      ensures updater == RoundFrame ==>
        var (o, f) := FrameStep(old(round.View()), old(round.Sizing()), w, h, NextFrame(old(fc)), rolls, fired);
        && sky.stars == old(sky.stars)
        && (o != GameOver ==>
              && state == PlayState && hmi == old(hmi) && highscores == old(highscores) && written.None?
              && round.player.Some? && round.View() == f && round.Sizing() == old(round.Sizing()))
        && (o == GameOver ==>
              && state == MenuState && hmi == FirstMenuItem
              && round.WipedFor(w, h, old(round.aliensHorizontal)) && round.rowsLg == old(round.rowsLg)
              && round.ufo == f.ufo && round.ufoTimerArmed == f.timerArmed
              && highscores == Checked(old(highscores), f.player.score, polls)
              && written == if Qualifies(old(highscores), f.player.score) then Some(Serialise(highscores)) else None)
    {
      Tick();
      updater := FrameUpdater(state);
      written := None;
      match state
      case MenuState =>
        DriftStars(spawn, respawn);
      case HowtoState =>
        DriftStars(spawn, respawn);
      case HighscoresState =>
        DriftStars(spawn, respawn);
      case PlayState =>
        written := PlayFrame(rolls, fired, polls);
      case WarnState =>
    }
  }

  /** The ledger `checkHighscores` leaves is sorted, whether or not the score qualified. */
  lemma CheckedLedgerSorted(ledger: seq<Highscore>, score: int, polls: seq<Option<Key>>)
    requires SortedDesc(ledger)
    requires Qualifies(ledger, score) ==> PolledName(polls).Some?
    ensures SortedDesc(Checked(ledger, score, polls))
  {
    if Qualifies(ledger, score) {
      RecordBoundedSorted(ledger, score, PolledName(polls).value);
    }
  }
}

=== FILE: keys.dfy ===
/** The key events the handlers look at; every other key code is `KeyOther`. */
module Keys {

  datatype Key =
    | KeyChar(ch: char)      // a printable character (key code 0 with a rune)
    | KeyArrowLeft
    | KeyArrowRight
    | KeySpace
    | KeyEnter
    | KeyEsc
    | KeyBackspace
    | KeyBackspace2
    | KeyOther(code: int)
}

=== FILE: ledger.dfy ===
/**
 * The highscore ledger: its order (`ByScore`), the update made at the end of
 * a round, its `name:score` file format in both directions, the rows of the
 * highscore table, and the per-key step of name entry.
 */
module Ledger {
  import opened Wrappers
  import opened Text
  import opened Keys

  const MaxHighscores: int := 5
  const HighscoreSeparator: char := ':'
  const RecordSeparator: char := '\n'

  datatype Highscore = Highscore(score: int, name: string)

  /** `ByScore.Less`: scores alone decide; names never break ties. */
  predicate Less(a: Highscore, b: Highscore)
  {
    a.score < b.score
  }

  /** Non-increasing by score: the order `sort.Reverse(ByScore)` produces. */
  predicate SortedDesc(s: seq<Highscore>)
  {
    forall i, j :: 0 <= i < j < |s| ==> !Less(s[i], s[j])
  }

  /**
   * One insertion-sort pass of `sort.Reverse(ByScore)`: the new last element
   * moves left past every neighbour whose score is strictly lower.
   */
  function InsertDesc(xs: seq<Highscore>, e: Highscore): seq<Highscore>
  {
    if |xs| == 0 then [e]
    else if Less(xs[|xs| - 1], e) then InsertDesc(xs[..|xs| - 1], e) + [xs[|xs| - 1]]
    else xs + [e]
  }

  /**
   * `sort.Sort(sort.Reverse(ByScore(s)))`. Go sorts slices of at most twelve
   * elements by insertion sort, which this is.
   */
  function SortDesc(s: seq<Highscore>): seq<Highscore>
  {
    if |s| == 0 then [] else InsertDesc(SortDesc(s[..|s| - 1]), s[|s| - 1])
  }

  lemma {:induction false} InsertDescPermutes(xs: seq<Highscore>, e: Highscore)
    ensures multiset(InsertDesc(xs, e)) == multiset(xs) + multiset{e}
    ensures |InsertDesc(xs, e)| == |xs| + 1
  {
    if |xs| > 0 && Less(xs[|xs| - 1], e) {
      InsertDescPermutes(xs[..|xs| - 1], e);
      assert xs == xs[..|xs| - 1] + [xs[|xs| - 1]];
    }
  }

  lemma {:induction false} InsertDescSorted(xs: seq<Highscore>, e: Highscore)
    requires SortedDesc(xs)
    ensures SortedDesc(InsertDesc(xs, e))
  {
    if |xs| > 0 && Less(xs[|xs| - 1], e) {
      var init, last := xs[..|xs| - 1], xs[|xs| - 1];
      InsertDescSorted(init, e);
      InsertDescPermutes(init, e);
      var r := InsertDesc(init, e);
      forall i | 0 <= i < |r| ensures !Less(r[i], last) {
        assert r[i] in multiset(r);
        if r[i] != e {
          assert r[i] in multiset(init);
          var k :| 0 <= k < |init| && init[k] == r[i];
          assert xs[k] == r[i];
        }
      }
    }
  }

  /** The sort reorders and orders: a permutation, non-increasing by score. */
  lemma {:induction false} SortDescCorrect(s: seq<Highscore>)
    ensures multiset(SortDesc(s)) == multiset(s)
    ensures |SortDesc(s)| == |s|
    ensures SortedDesc(SortDesc(s))
  {
    if |s| > 0 {
      var init := s[..|s| - 1];
      SortDescCorrect(init);
      InsertDescPermutes(SortDesc(init), s[|s| - 1]);
      InsertDescSorted(SortDesc(init), s[|s| - 1]);
      assert s == init + [s[|s| - 1]];
    }
  }

  /** Sorting a ledger that is already in order leaves it exactly as it was. */
  lemma {:induction false} SortDescOfSorted(s: seq<Highscore>)
    requires SortedDesc(s)
    ensures SortDesc(s) == s
  {
    if |s| > 0 {
      var init := s[..|s| - 1];
      SortDescOfSorted(init);
      assert s == init + [s[|s| - 1]];
    }
  }

  /** A round's score earns a place iff the ledger has room or it beats the last entry. */
  function Qualifies(ledger: seq<Highscore>, score: int): bool
  {
    |ledger| < MaxHighscores || score > ledger[|ledger| - 1].score
  }

  /** `checkHighscores` once the name is known: append, sort, keep the first five. */
  function Record(ledger: seq<Highscore>, score: int, name: string): seq<Highscore>
  {
    var s := SortDesc(ledger + [Highscore(score, name)]);
    if |s| > MaxHighscores then s[..MaxHighscores] else s
  }

  /**
   * After an update the ledger holds at most five entries, is non-increasing
   * by score, and holds nothing but old entries and the new one.
   */
  lemma RecordBoundedSorted(ledger: seq<Highscore>, score: int, name: string)
    ensures |Record(ledger, score, name)| <= MaxHighscores
    ensures SortedDesc(Record(ledger, score, name))
    ensures multiset(Record(ledger, score, name)) <= multiset(ledger) + multiset{Highscore(score, name)}
  {
    var s := SortDesc(ledger + [Highscore(score, name)]);
    SortDescCorrect(ledger + [Highscore(score, name)]);
    if |s| > MaxHighscores {
      assert s == s[..MaxHighscores] + s[MaxHighscores..];
    }
  }

  /** A qualifying score on a well-formed ledger always keeps its place. */
  lemma RecordKeepsEntry(ledger: seq<Highscore>, score: int, name: string)
    requires SortedDesc(ledger) && |ledger| <= MaxHighscores
    requires Qualifies(ledger, score)
    ensures Highscore(score, name) in Record(ledger, score, name)
  {
    var e := Highscore(score, name);
    var t := ledger + [e];
    var s := SortDesc(t);
    SortDescCorrect(t);
    assert e in multiset(t);
    assert e in s;
    if |s| > MaxHighscores {
      var last := ledger[|ledger| - 1];
      assert last in multiset(t);
      var k :| 0 <= k < |s| && s[k] == last;
      var m :| 0 <= m < |s| && s[m] == e;
      assert m < MaxHighscores;
      assert s[..MaxHighscores][m] == e;
    }
  }

  /** An insertion pass leaves alone a prefix none of whose entries scores below the new one. */
  lemma {:induction false} InsertDescKeepsPrefix(xs: seq<Highscore>, e: Highscore, k: nat)
    requires k <= |xs| && forall i :: 0 <= i < k ==> !Less(xs[i], e)
    ensures |InsertDesc(xs, e)| == |xs| + 1 && InsertDesc(xs, e)[..k] == xs[..k]
  {
    InsertDescPermutes(xs, e);
    if |xs| > 0 && Less(xs[|xs| - 1], e) {
      var init := xs[..|xs| - 1];
      InsertDescKeepsPrefix(init, e, k);
      assert InsertDesc(xs, e)[..k] == InsertDesc(init, e)[..k];
    }
  }

  /**
   * The ledger loaded from the file is not cut to five entries. On a longer
   * ledger a score that beats only entries past the fifth qualifies, so a
   * name is asked for, and is then dropped by the truncation.
   */
  lemma LongLedgerDropsQualifier(ledger: seq<Highscore>, score: int, name: string)
    requires SortedDesc(ledger) && |ledger| > MaxHighscores
    requires ledger[|ledger| - 1].score < score < ledger[MaxHighscores - 1].score
    ensures Qualifies(ledger, score)
    ensures Highscore(score, name) !in Record(ledger, score, name)
  {
    var e := Highscore(score, name);
    SortDescOfSorted(ledger);
    assert (ledger + [e])[..|ledger|] == ledger;
    assert SortDesc(ledger + [e]) == InsertDesc(ledger, e);
    InsertDescKeepsPrefix(ledger, e, MaxHighscores);
    assert Record(ledger, score, name) == ledger[..MaxHighscores];
    forall i | 0 <= i < MaxHighscores
      ensures ledger[i] != e
    {
      assert ledger[i].score >= ledger[MaxHighscores - 1].score;
    }
  }

  /** One record of the highscore file: `name:score`. */
  function FormatRecord(h: Highscore): string
  {
    h.name + [HighscoreSeparator] + FormatInt(h.score)
  }

  function Records(ledger: seq<Highscore>): (lines: seq<string>)
    ensures |lines| == |ledger|
    ensures forall i :: 0 <= i < |ledger| ==> lines[i] == FormatRecord(ledger[i])
  {
    if |ledger| == 0 then [] else Records(ledger[..|ledger| - 1]) + [FormatRecord(ledger[|ledger| - 1])]
  }

  /** The file contents: records joined by line breaks, with none at the end. */
  function Serialise(ledger: seq<Highscore>): string
  {
    Join(Records(ledger), RecordSeparator)
  }

  lemma {:induction false} JoinSnoc(parts: seq<string>, p: string, sep: char)
    requires |parts| >= 1
    ensures Join(parts + [p], sep) == Join(parts, sep) + [sep] + p
  {
    if |parts| > 1 {
      JoinSnoc(parts[1..], p, sep);
      assert (parts + [p])[1..] == parts[1..] + [p];
    }
  }

  /** The write loop of `checkHighscores`: a separator after every record but the last. */
  method SerialiseLedger(ledger: seq<Highscore>) returns (data: string)
    ensures data == Serialise(ledger)
  {
    data := "";
    for i := 0 to |ledger|
      invariant i == 0 ==> data == ""
      invariant 0 < i ==> data == Join(Records(ledger[..i]), RecordSeparator) + (if i < |ledger| then [RecordSeparator] else "")
    {
      assert Records(ledger[..i + 1]) == Records(ledger[..i]) + [FormatRecord(ledger[i])] by {
        assert ledger[..i + 1][..i] == ledger[..i];
      }
      if i > 0 {
        JoinSnoc(Records(ledger[..i]), FormatRecord(ledger[i]), RecordSeparator);
      }
      data := data + FormatRecord(ledger[i]);
      if i != |ledger| - 1 {
        data := data + [RecordSeparator];
      }
    }
    assert ledger[..|ledger|] == ledger;
  }

  datatype LoadError =
    | MissingScore(line: string)   // no separator: the score part is out of range and Go panics
    | BadScore(line: string)       // the score part is not an integer: the load is fatal

  /** One line of the highscore file; anything after a second separator is ignored. */
  function ParseRecord(line: string): Result<Highscore, LoadError>
  {
    var parts := Split(line, HighscoreSeparator);
    if |parts| < 2 then Err(MissingScore(line))
    else
      match ParseInt(parts[1])
      case None => Err(BadScore(line))
      case Some(v) => Ok(Highscore(v, parts[0]))
  }

  /** Every line in order; the first bad line aborts the whole load. */
  function ParseRecords(lines: seq<string>): Result<seq<Highscore>, LoadError>
  {
    if |lines| == 0 then Ok([])
    else
      match ParseRecords(lines[..|lines| - 1])
      case Err(e) => Err(e)
      case Ok(init) =>
        match ParseRecord(lines[|lines| - 1])
        case Err(e) => Err(e)
        case Ok(h) => Ok(init + [h])
  }

  /** `loadHighscores` on the file's contents: parse every line, then sort. */
  function LoadLedger(data: string): Result<seq<Highscore>, LoadError>
  {
    match ParseRecords(Split(data, RecordSeparator))
    case Err(e) => Err(e)
    case Ok(s) => Ok(SortDesc(s))
  }

  lemma {:induction false} SplitFindsSeparator(s: string, sep: char)
    requires sep in s
    ensures |Split(s, sep)| >= 2
    decreases |s|
  {
    if s[0] != sep {
      assert sep in s[1..];
      SplitFindsSeparator(s[1..], sep);
    }
  }

  /**
   * The two error paths of a line: no separator at all, or a second part
   * that Atoi rejects; every other line yields its name and score.
   */
  lemma ParseRecordOutcome(line: string)
    ensures ParseRecord(line).Err? && ParseRecord(line).error.MissingScore? <==> HighscoreSeparator !in line
    ensures HighscoreSeparator in line ==>
      var parts := Split(line, HighscoreSeparator);
      ParseRecord(line) == (match ParseInt(parts[1])
                            case None => Err(BadScore(line))
                            case Some(v) => Ok(Highscore(v, parts[0])))
  {
    if HighscoreSeparator in line {
      SplitFindsSeparator(line, HighscoreSeparator);
    } else {
      SplitWithoutSeparator(line, HighscoreSeparator);
    }
  }

  /** Names the file format can carry: no field or record separator inside. */
  predicate Storable(h: Highscore)
  {
    HighscoreSeparator !in h.name && RecordSeparator !in h.name && MinInt64 <= h.score <= MaxInt64
  }

  lemma ParseFormatRecord(h: Highscore)
    requires Storable(h)
    ensures ParseRecord(FormatRecord(h)) == Ok(h)
    ensures RecordSeparator !in FormatRecord(h)
  {
    FormatIntHasNoSeparator(h.score, HighscoreSeparator);
    FormatIntHasNoSeparator(h.score, RecordSeparator);
    SplitAfterPiece(h.name, HighscoreSeparator, FormatInt(h.score));
    SplitWithoutSeparator(FormatInt(h.score), HighscoreSeparator);
    ParseFormatInt(h.score);
  }

  /**
   * Name entry lets a `:` through. A name `a:d` whose tail `d` reads as an
   * integer comes back as a different record: `d`'s value becomes the score
   * and only `a` remains of the name.
   */
  lemma {:induction false} ColonNameMisread(score: int, a: string, d: string, v: int)
    requires HighscoreSeparator !in a && HighscoreSeparator !in d
    requires ParseInt(d) == Some(v)
    ensures ParseRecord(FormatRecord(Highscore(score, a + [HighscoreSeparator] + d))) == Ok(Highscore(v, a))
  {
    var sep := HighscoreSeparator;
    var line := FormatRecord(Highscore(score, a + [sep] + d));
    assert line == a + [sep] + (d + [sep] + FormatInt(score));
    SplitAfterPiece(a, sep, d + [sep] + FormatInt(score));
    SplitAfterPiece(d, sep, FormatInt(score));
  }

  lemma ParseRecordsSnoc(init: seq<string>, line: string)
    ensures ParseRecords(init + [line]) ==
      match ParseRecords(init)
      case Err(e) => Err(e)
      case Ok(hs) =>
        match ParseRecord(line)
        case Err(e) => Err(e)
        case Ok(h) => Ok(hs + [h])
  {
    assert (init + [line])[..|init|] == init;
  }

  lemma {:induction false} ParseRecordsOfRecords(ledger: seq<Highscore>)
    requires forall i :: 0 <= i < |ledger| ==> Storable(ledger[i])
    ensures ParseRecords(Records(ledger)) == Ok(ledger)
  {
    if |ledger| > 0 {
      var init, last := ledger[..|ledger| - 1], ledger[|ledger| - 1];
      assert ledger == init + [last];
      assert Records(ledger) == Records(init) + [FormatRecord(last)];
      ParseRecordsOfRecords(init);
      ParseFormatRecord(last);
      ParseRecordsSnoc(Records(init), FormatRecord(last));
    }
  }

  /**
   * Reading back what `checkHighscores` wrote gives the same records in the
   * same order, provided the ledger is not empty and no name holds a
   * separator; loading then re-sorts, which keeps a sorted ledger as it is.
   */
  lemma LoadSerialised(ledger: seq<Highscore>)
    requires |ledger| >= 1
    requires forall h :: h in ledger ==> Storable(h)
    ensures ParseRecords(Split(Serialise(ledger), RecordSeparator)) == Ok(ledger)
    ensures LoadLedger(Serialise(ledger)).Ok?
    ensures multiset(LoadLedger(Serialise(ledger)).value) == multiset(ledger)
    ensures SortedDesc(ledger) ==> LoadLedger(Serialise(ledger)) == Ok(ledger)
  {
    var lines := Records(ledger);
    forall p | p in lines ensures RecordSeparator !in p {
      var i :| 0 <= i < |lines| && lines[i] == p;
      assert ledger[i] in ledger;
      ParseFormatRecord(ledger[i]);
    }
    SplitJoin(lines, RecordSeparator);
    ParseRecordsOfRecords(ledger);
    SortDescCorrect(ledger);
    if SortedDesc(ledger) {
      SortDescOfSorted(ledger);
    }
  }

  const PlaceholderName: string := "?????"
  const NamePad: int := 10
  const ScorePad: int := 10

  /** `fmt.Sprintf("%-10s %010d", name, score)`. */
  function TableRow(name: string, score: int): string
  {
    PadRight(name, NamePad) + " " + ZeroPad(score, ScorePad)
  }

  /**
   * A row is the name left-justified in ten cells, one space, then the score
   * right-aligned in ten zero-filled cells.
   */
  lemma TableRowLayout(name: string, score: int)
    requires |name| <= NamePad && 0 <= score && |NatDigits(score)| <= ScorePad
    ensures var r := TableRow(name, score);
      && |r| == NamePad + 1 + ScorePad
      && r[..|name|] == name
      && (forall i :: |name| <= i <= NamePad ==> r[i] == ' ')
      && (forall i :: NamePad < i < |r| - |NatDigits(score)| ==> r[i] == '0')
      && r[|r| - |NatDigits(score)|..] == NatDigits(score)
  {
    var r := TableRow(name, score);
    var p := PadRight(name, NamePad);
    var z := ZeroPad(score, ScorePad);
    assert r == p + " " + z;
    assert r[..|name|] == p[..|name|];
    forall i | NamePad < i < |r| - |NatDigits(score)| ensures r[i] == '0' {
      assert r[i] == z[i - NamePad - 1];
    }
    assert r[NamePad + 1..] == z;
  }

  /**
   * The rows `DrawHighscores` prints: the ledger in order, then `?????` rows
   * with score 0 up to five rows.
   */
  method HighscoreRows(ledger: seq<Highscore>) returns (rows: seq<string>)
    ensures |rows| == if |ledger| < MaxHighscores then MaxHighscores else |ledger|
    ensures forall i :: 0 <= i < |ledger| ==> rows[i] == TableRow(ledger[i].name, ledger[i].score)
    ensures forall i :: |ledger| <= i < |rows| ==> rows[i] == TableRow(PlaceholderName, 0)
  {
    rows := [];
    for i := 0 to |ledger|
      invariant |rows| == i
      invariant forall k :: 0 <= k < i ==> rows[k] == TableRow(ledger[k].name, ledger[k].score)
    {
      rows := rows + [TableRow(ledger[i].name, ledger[i].score)];
    }
    var i := 0;
    while i < MaxHighscores - |ledger|
      invariant 0 <= i && (i <= MaxHighscores - |ledger| || i == 0)
      invariant |rows| == |ledger| + i
      invariant forall k :: 0 <= k < |ledger| ==> rows[k] == TableRow(ledger[k].name, ledger[k].score)
      invariant forall k :: |ledger| <= k < |rows| ==> rows[k] == TableRow(PlaceholderName, 0)
    {
      rows := rows + [TableRow(PlaceholderName, 0)];
      i := i + 1;
    }
  }

  const MinNameLength: int := 3
  const MaxNameLength: int := 10

  /** Where name entry stands after one poll: still typing, or a name handed back. */
  datatype NameEntry = Typing(name: string, showLenWarn: bool) | Entered(name: string)

  /**
   * One pass of `getName`'s loop: a name already ten long turns the warning
   * on; then Enter hands back a name of three or more (else warns), a
   * character is appended while there is room, and Backspace drops the last
   * character. A poll with no key event changes nothing else.
   */
  function NameStep(name: string, showLenWarn: bool, ev: Option<Key>): NameEntry
  {
    var warn := showLenWarn || |name| >= MaxNameLength;
    match ev
    case None => Typing(name, warn)
    case Some(k) =>
      match k
      case KeyEnter => if |name| < MinNameLength then Typing(name, true) else Entered(name)
      case KeyChar(ch) => if |name| < MaxNameLength then Typing(name + [ch], warn) else Typing(name, warn)
      case KeyBackspace => Typing(if |name| > 0 then name[..|name| - 1] else name, warn)
      case KeyBackspace2 => Typing(if |name| > 0 then name[..|name| - 1] else name, warn)
      case _ => Typing(name, warn)
  }

  /**
   * A name never grows past ten characters, and a handed-back name has three
   * to ten; each key changes the name by at most one character at its end.
   */
  lemma NameStepBounds(name: string, showLenWarn: bool, ev: Option<Key>)
    requires |name| <= MaxNameLength
    ensures var r := NameStep(name, showLenWarn, ev);
      && (r.Typing? ==> |r.name| <= MaxNameLength)
      && (r.Entered? <==> ev == Some(KeyEnter) && |name| >= MinNameLength)
      && (r.Entered? ==> r.name == name)
      && (r.Typing? && |r.name| > |name| ==> r.name == name + [ev.value.ch])
      && (r.Typing? && |r.name| < |name| ==> r.name == name[..|name| - 1])
  {
  }

  /** `getName` over a stream of polls: the first name handed back, if any. */
  function EnterName(name: string, showLenWarn: bool, events: seq<Option<Key>>): Option<string>
    decreases |events|
  {
    if |events| == 0 then None
    else
      match NameStep(name, showLenWarn, events[0])
      case Entered(n) => Some(n)
      case Typing(n, w) => EnterName(n, w, events[1..])
  }

  /** Whatever the keys pressed, the name `getName` returns is 3 to 10 characters long. */
  lemma {:induction false} EnteredNameLength(name: string, showLenWarn: bool, events: seq<Option<Key>>)
    requires |name| <= MaxNameLength
    ensures EnterName(name, showLenWarn, events).Some? ==>
      MinNameLength <= |EnterName(name, showLenWarn, events).value| <= MaxNameLength
    decreases |events|
  {
    if |events| > 0 {
      NameStepBounds(name, showLenWarn, events[0]);
      var r := NameStep(name, showLenWarn, events[0]);
      if r.Typing? {
        EnteredNameLength(r.name, r.showLenWarn, events[1..]);
      }
    }
  }
}

=== FILE: menu.dfy ===
/**
 * The menu's item numbering and its drifting starfield. The star list is a
 * slice of capacity `numStars` that grows by one star per update until full;
 * every star drifts one step along its velocity and a star that leaves the
 * screen is replaced by a new one at a random cell. The random numbers are
 * inputs: a `StarSeed` holds the two `rand.Intn` cell draws and the pairs of
 * `rand.Intn(3)` velocity draws `NewStar` consumes.
 */
module Menu {

  const FirstMenuItem: int := 0
  const PlayItem: int := 0
  const HighscoresItem: int := 1
  const HowtoItem: int := 2
  const NumMenuItems: int := 3

  const NumStars: nat := 100

  datatype Star = Star(x: int, y: int, vx: int, vy: int)

  /** The random draws behind one new star: its cell, then the velocity draws in order. */
  datatype StarSeed = StarSeed(x: int, y: int, draws: seq<(int, int)>)

  /** A pair of `rand.Intn(3)` draws that gives a velocity with no zero component. */
  predicate Settles(d: (int, int))
  {
    d.0 - 1 != 0 && d.1 - 1 != 0
  }

  /** The draws eventually settle: `NewStar`'s loop ends on them. */
  predicate Ends(draws: seq<(int, int)>)
  {
    exists k :: 0 <= k < |draws| && Settles(draws[k])
  }

  /** Every draw is a value `rand.Intn(3)` can return. */
  predicate DieRolls(draws: seq<(int, int)>)
  {
    forall k :: 0 <= k < |draws| ==> 0 <= draws[k].0 < 3 && 0 <= draws[k].1 < 3
  }

  lemma EndsTail(draws: seq<(int, int)>)
    requires Ends(draws) && !Settles(draws[0])
    ensures Ends(draws[1..])
  {
    var k :| 0 <= k < |draws| && Settles(draws[k]);
    assert draws[1..][k - 1] == draws[k];
  }

  /**
   * The velocity `NewStar` settles on: the first pair of draws with no zero
   * component, each shifted down by one. It has no zero component, and on
   * draws of `rand.Intn(3)` each component is -1 or +1.
   */
  function Velocity(draws: seq<(int, int)>): (v: (int, int))
    requires Ends(draws)
    ensures v.0 != 0 && v.1 != 0
    ensures DieRolls(draws) ==> (v.0 == -1 || v.0 == 1) && (v.1 == -1 || v.1 == 1)
    decreases |draws|
  {
    if Settles(draws[0]) then (draws[0].0 - 1, draws[0].1 - 1)
    else
      EndsTail(draws);
      assert DieRolls(draws) ==> DieRolls(draws[1..]);
      Velocity(draws[1..])
  }

  /** The settled velocity comes from the first settling pair: every pair before it has a zero component. */
  lemma {:induction false} VelocityFirst(draws: seq<(int, int)>)
    requires Ends(draws)
    ensures exists k :: (0 <= k < |draws| && Settles(draws[k]) &&
      (forall i :: 0 <= i < k ==> !Settles(draws[i])) && Velocity(draws) == (draws[k].0 - 1, draws[k].1 - 1))
    decreases |draws|
  {
    if !Settles(draws[0]) {
      EndsTail(draws);
      VelocityFirst(draws[1..]);
      var k :| 0 <= k < |draws[1..]| && Settles(draws[1..][k]) &&
        (forall i :: 0 <= i < k ==> !Settles(draws[1..][i])) && Velocity(draws[1..]) == (draws[1..][k].0 - 1, draws[1..][k].1 - 1);
      assert forall i :: 0 < i < k + 1 ==> draws[i] == draws[1..][i - 1];
      assert Settles(draws[k + 1]);
    }
  }

  /** The star a seed yields. */
  function Born(seed: StarSeed): Star
    requires Ends(seed.draws)
  {
    Star(seed.x, seed.y, Velocity(seed.draws).0, Velocity(seed.draws).1)
  }

  /** A seed `UpdateMenu` can be handed on a w-by-h screen: cell draws of `rand.Intn(w)` and `rand.Intn(h)`. */
  predicate Seeded(seed: StarSeed, w: int, h: int)
  {
    0 <= seed.x < w && 0 <= seed.y < h && DieRolls(seed.draws) && Ends(seed.draws)
  }

  /**
   * `NewStar(x, y)`: draw velocity pairs until neither component is zero.
   * The star sits at (x, y) with the first settling velocity.
   */
  method NewStar(x: int, y: int, draws: seq<(int, int)>) returns (s: Star)
    requires Ends(draws)
    ensures s == Born(StarSeed(x, y, draws))
  {
    var vx, vy := 0, 0;
    var k := 0;
    assert draws[0..] == draws;
    while vx == 0 || vy == 0
      invariant 0 <= k <= |draws|
      invariant vx == 0 || vy == 0 ==> Ends(draws[k..]) && Velocity(draws[k..]) == Velocity(draws)
      invariant !(vx == 0 || vy == 0) ==> (vx, vy) == Velocity(draws)
      decreases |draws| - k
    {
      var d := draws[k];
      vx := d.0 - 1;
      vy := d.1 - 1;
      if !Settles(d) {
        EndsTail(draws[k..]);
        assert draws[k..][1..] == draws[k + 1..];
      }
      k := k + 1;
    }
    s := Star(x, y, vx, vy);
  }

  /** A star after one step along its velocity. */
  function Drifted(s: Star): (d: Star)
    ensures d.x - s.x == s.vx && d.y - s.y == s.vy && d.vx == s.vx && d.vy == s.vy
  {
    s.(x := s.x + s.vx, y := s.y + s.vy)
  }

  /** On the w-by-h screen, borders included, as `UpdateMenu`'s range test reads it. */
  predicate InSky(s: Star, w: int, h: int)
  {
    0 <= s.x <= w && 0 <= s.y <= h
  }

  /** Both velocity components are -1 or +1. */
  predicate Diagonal(s: Star)
  {
    (s.vx == -1 || s.vx == 1) && (s.vy == -1 || s.vy == 1)
  }

  /** The list after the growth step: one star more while below capacity. */
  function Spawned(stars: seq<Star>, spawn: StarSeed): (s1: seq<Star>)
    requires |stars| != NumStars ==> Ends(spawn.draws)
    ensures |s1| == if |stars| != NumStars then |stars| + 1 else |stars|
  {
    if |stars| != NumStars then stars + [Born(spawn)] else stars
  }

  /** One star of the update: drift it, and replace it by the seed's star if it drifted off screen. */
  function Twinkle(s: Star, w: int, h: int, seed: StarSeed): Star
    requires Ends(seed.draws)
  {
    if InSky(Drifted(s), w, h) then Drifted(s) else Born(seed)
  }

  /** `UpdateMenu`: grow by one below capacity, then step every star; slot i takes its replacement from `respawn[i]`. */
  function MenuStep(stars: seq<Star>, w: int, h: int, spawn: StarSeed, respawn: seq<StarSeed>): seq<Star>
    requires |stars| != NumStars ==> Seeded(spawn, w, h)
    requires |respawn| >= |Spawned(stars, spawn)| && forall i :: 0 <= i < |respawn| ==> Seeded(respawn[i], w, h)
  {
    var s1 := Spawned(stars, spawn);
    assert forall i :: 0 <= i < |s1| ==> Seeded(respawn[i], w, h);
    seq(|s1|, i requires 0 <= i < |s1| <= |respawn| && Ends(respawn[i].draws) => Twinkle(s1[i], w, h, respawn[i]))
  }

  /**
   * The list grows by exactly one star while below capacity and never goes
   * past it; every star ends on the screen, borders included, with a
   * diagonal velocity; and every old star has either drifted exactly one
   * step along its velocity or been replaced at the seed's cell.
   */
  lemma MenuStepBounds(stars: seq<Star>, w: int, h: int, spawn: StarSeed, respawn: seq<StarSeed>)
    requires |stars| <= NumStars
    requires |stars| < NumStars ==> Seeded(spawn, w, h)
    requires |respawn| >= |Spawned(stars, spawn)| && forall i :: 0 <= i < |respawn| ==> Seeded(respawn[i], w, h)
    requires forall i :: 0 <= i < |stars| ==> Diagonal(stars[i])
    ensures var r := MenuStep(stars, w, h, spawn, respawn);
      && |r| == (if |stars| < NumStars then |stars| + 1 else NumStars)
      && (forall i :: 0 <= i < |r| ==> InSky(r[i], w, h) && Diagonal(r[i]))
      && (forall i :: 0 <= i < |stars| ==>
            r[i] == Drifted(stars[i]) || (r[i].x == respawn[i].x && r[i].y == respawn[i].y))
  {
    var s1 := Spawned(stars, spawn);
    var r := MenuStep(stars, w, h, spawn, respawn);
    forall i | 0 <= i < |r| ensures InSky(r[i], w, h) && Diagonal(r[i]) {
      assert r[i] == Twinkle(s1[i], w, h, respawn[i]);
      assert Diagonal(s1[i]);
    }
  }

  /** A star that stays on screen keeps its velocity and moves by exactly (vx, vy). */
  lemma MenuStepKeepsCourse(stars: seq<Star>, w: int, h: int, spawn: StarSeed, respawn: seq<StarSeed>, i: int)
    requires |stars| != NumStars ==> Seeded(spawn, w, h)
    requires |respawn| >= |Spawned(stars, spawn)| && forall j :: 0 <= j < |respawn| ==> Seeded(respawn[j], w, h)
    requires 0 <= i < |stars| && InSky(Drifted(stars[i]), w, h)
    ensures var r := MenuStep(stars, w, h, spawn, respawn);
      r[i].x == stars[i].x + stars[i].vx && r[i].y == stars[i].y + stars[i].vy &&
      r[i].vx == stars[i].vx && r[i].vy == stars[i].vy
  {
    assert Spawned(stars, spawn)[i] == stars[i];
  }

  /** The package's star slice. */
  class Sky {
    var stars: seq<Star>

    /** The empty slice of capacity `numStars`. */
    constructor ()
      ensures stars == []
    {
      stars := [];
    }

    /**
     * `UpdateMenu` on a w-by-h screen: the new star, if any, is drawn from
     * `spawn`; a star in slot i that drifts off screen is redrawn from
     * `respawn[i]`.
     */
    method UpdateMenu(w: int, h: int, spawn: StarSeed, respawn: seq<StarSeed>)
      requires |stars| <= NumStars
      requires |stars| < NumStars ==> Seeded(spawn, w, h)
      requires |respawn| >= |Spawned(stars, spawn)| && forall i :: 0 <= i < |respawn| ==> Seeded(respawn[i], w, h)
      modifies this
      ensures stars == MenuStep(old(stars), w, h, spawn, respawn)
    {
      if |stars| != NumStars {
        var n := |stars|;
        var s := NewStar(spawn.x, spawn.y, spawn.draws);
        stars := stars + [s];
      }
      ghost var s1 := stars;
      assert s1 == Spawned(old(stars), spawn);
      for i := 0 to |stars|
        invariant |stars| == |s1|
        invariant forall k :: 0 <= k < i ==> stars[k] == Twinkle(s1[k], w, h, respawn[k])
        invariant forall k :: i <= k < |s1| ==> stars[k] == s1[k]
      {
        var s := stars[i];
        s := s.(x := s.x + s.vx, y := s.y + s.vy);
        if s.x < 0 || s.x > w || s.y < 0 || s.y > h {
          s := NewStar(respawn[i].x, respawn[i].y, respawn[i].draws);
        }
        stars := stars[i := s];
      }
    }
  }
}

=== FILE: occupancy.dfy ===
/**
 * Occupancy grids: per-frame lookups from a screen cell to what occupies it,
 * built by stamping sprites into a fresh column-major w-by-h grid
 * (`grid[x, y]`, x the column). Every visible (non-space) glyph of a sprite
 * stamps its cell with the sprite's identity; a later stamp overwrites an
 * earlier one; untouched cells hold `NonIndex`.
 */
module Occupancy {
  import opened Wrappers
  import opened Sprites
  import opened Entities

  /** Cell (x, y) shows a visible glyph of the sprite `rows` drawn with its top-left corner at (ox, oy). */
  predicate Covers(rows: seq<string>, ox: int, oy: int, x: int, y: int)
  {
    oy <= y < oy + |rows| && ox <= x < ox + |rows[y - oy]| && rows[y - oy][x - ox] != ' '
  }

  /** Every visible glyph of the sprite lands inside a w-by-h grid (Go panics otherwise). */
  predicate Fits(rows: seq<string>, ox: int, oy: int, w: int, h: int)
  {
    forall r, c :: 0 <= r < |rows| && 0 <= c < |rows[r]| && rows[r][c] != ' ' ==>
      0 <= ox + c < w && 0 <= oy + r < h
  }

  predicate InGrid(g: array2<int>, x: int, y: int)
  {
    0 <= x < g.Length0 && 0 <= y < g.Length1
  }

  /** A fresh grid with every cell empty. */
  method NewGrid(w: nat, h: nat) returns (g: array2<int>)
    ensures fresh(g) && g.Length0 == w && g.Length1 == h
    ensures forall x, y :: 0 <= x < w && 0 <= y < h ==> g[x, y] == NonIndex
  {
    g := new int[w, h];
    for i := 0 to w
      invariant forall x, y :: 0 <= x < i && 0 <= y < h ==> g[x, y] == NonIndex
    {
      for j := 0 to h
        invariant forall x, y :: 0 <= y < h && (0 <= x < i || (x == i && y < j)) ==> g[x, y] == NonIndex
      {
        g[i, j] := NonIndex;
      }
    }
  }

  /**
   * Walks the sprite row by row and glyph by glyph from (ox, oy), writing `id`
   * at each visible glyph; nothing else changes.
   */
  method Stamp(g: array2<int>, rows: seq<string>, ox: int, oy: int, id: int)
    requires Fits(rows, ox, oy, g.Length0, g.Length1)
    modifies g
    ensures forall x, y :: InGrid(g, x, y) ==>
      g[x, y] == if Covers(rows, ox, oy, x, y) then id else old(g[x, y])
  {
    var x, y := ox, oy;
    for r := 0 to |rows|
      invariant x == ox && y == oy + r
      invariant forall x', y' :: InGrid(g, x', y') ==>
        g[x', y'] == if Covers(rows, ox, oy, x', y') && y' < oy + r then id else old(g[x', y'])
    {
      for c := 0 to |rows[r]|
        invariant x == ox + c && y == oy + r
        invariant forall x', y' :: InGrid(g, x', y') ==>
          g[x', y'] ==
            if Covers(rows, ox, oy, x', y') && (y' < oy + r || (y' == oy + r && x' < ox + c)) then id
            else old(g[x', y'])
      {
        if rows[r][c] != ' ' {
          g[x, y] := id;
        }
        x := x + 1;
      }
      y := y + 1;
      x := ox;
    }
  }

  /** `PlayerPositions`: the ship's footprint, marked `PlayerSpriteHere`. */
  method PlayerPositions(w: nat, h: nat, p: Ship) returns (g: array2<int>)
    requires Fits(PlayerSprite, p.x, p.y, w, h)
    ensures fresh(g) && g.Length0 == w && g.Length1 == h
    ensures forall x, y :: InGrid(g, x, y) ==>
      g[x, y] == if Covers(PlayerSprite, p.x, p.y, x, y) then PlayerSpriteHere else NonIndex
  {
    g := NewGrid(w, h);
    Stamp(g, PlayerSprite, p.x, p.y, PlayerSpriteHere);
  }

  /** The UFO is stamped only while its whole sprite is strictly inside the columns. */
  predicate UfoShown(ufo: Option<Ufo>, w: int)
  {
    ufo.Some? && ufo.value.x > 0 && ufo.value.x < w - UfoSpriteWidth
  }

  predicate AlienCovers(a: Alien, frame: nat, x: int, y: int)
    requires frame < 2
  {
    Covers(Frames(a.sprite)[frame], a.x, a.y, x, y)
  }

  /**
   * What the alien grid holds at (x, y) once the UFO and the slots below `n`
   * have been stamped in order: the highest live slot covering the cell, else
   * `UfoIndex` if the shown UFO covers it, else `NonIndex`.
   */
  function AlienCell(aliens: seq<Option<Alien>>, n: nat, frame: nat, ufo: Option<Ufo>, w: int, x: int, y: int): (c: int)
    requires n <= |aliens| && frame < 2
    ensures c == NonIndex || c == UfoIndex || (0 <= c < n && aliens[c].Some?)
  {
    if n == 0 then
      if UfoShown(ufo, w) && Covers(UfoSprite, ufo.value.x, ufo.value.y, x, y) then UfoIndex else NonIndex
    else if aliens[n - 1].Some? && AlienCovers(aliens[n - 1].value, frame, x, y) then n - 1
    else AlienCell(aliens, n - 1, frame, ufo, w, x, y)
  }

  predicate AliensFit(aliens: seq<Option<Alien>>, frame: nat, w: int, h: int)
    requires frame < 2
  {
    forall i :: 0 <= i < |aliens| && aliens[i].Some? ==>
      Fits(Frames(aliens[i].value.sprite)[frame], aliens[i].value.x, aliens[i].value.y, w, h)
  }

  /** `AlienPositions`: the UFO (when shown) and then every live alien in slot order. */
  method AlienPositions(w: nat, h: nat, aliens: seq<Option<Alien>>, frame: nat, ufo: Option<Ufo>)
    returns (g: array2<int>)
    requires frame < 2
    requires UfoShown(ufo, w) ==> Fits(UfoSprite, ufo.value.x, ufo.value.y, w, h)
    requires AliensFit(aliens, frame, w, h)
    ensures fresh(g) && g.Length0 == w && g.Length1 == h
    ensures forall x, y :: InGrid(g, x, y) ==> g[x, y] == AlienCell(aliens, |aliens|, frame, ufo, w, x, y)
  {
    g := NewGrid(w, h);
    if ufo.Some? && ufo.value.x > 0 && ufo.value.x < w - UfoSpriteWidth {
      Stamp(g, UfoSprite, ufo.value.x, ufo.value.y, UfoIndex);
    }
    for i := 0 to |aliens|
      invariant forall x, y :: InGrid(g, x, y) ==> g[x, y] == AlienCell(aliens, i, frame, ufo, w, x, y)
    {
      if aliens[i].Some? {
        var a := aliens[i].value;
        Stamp(g, Frames(a.sprite)[frame], a.x, a.y, i);
      }
    }
  }

  /**
   * The meaning of an alien-grid cell: a value below `n` names the live slot
   * stamped last over the cell; any other value is `UfoIndex` exactly when the
   * shown UFO covers the cell and no live slot does, and `NonIndex` otherwise.
   * This needs at most `UfoIndex` slots: slot 666 and the UFO share a marker.
   */
  lemma {:induction false} AlienCellMeaning(aliens: seq<Option<Alien>>, n: nat, frame: nat, ufo: Option<Ufo>, w: int, x: int, y: int)
    requires n <= |aliens| && n <= UfoIndex && frame < 2
    ensures var c := AlienCell(aliens, n, frame, ufo, w, x, y);
      && (0 <= c < n ==>
            aliens[c].Some? && AlienCovers(aliens[c].value, frame, x, y)
            && forall j :: c < j < n && aliens[j].Some? ==> !AlienCovers(aliens[j].value, frame, x, y))
      && (!(0 <= c < n) ==>
            (forall j :: 0 <= j < n && aliens[j].Some? ==> !AlienCovers(aliens[j].value, frame, x, y))
            && (c == UfoIndex <==> UfoShown(ufo, w) && Covers(UfoSprite, ufo.value.x, ufo.value.y, x, y))
            && (c != UfoIndex ==> c == NonIndex))
  {
    if n > 0 && !(aliens[n - 1].Some? && AlienCovers(aliens[n - 1].value, frame, x, y)) {
      AlienCellMeaning(aliens, n - 1, frame, ufo, w, x, y);
    }
  }

  /** A grid held as columns of cells; a cell outside it reads as empty. */
  function CellAt(grid: seq<seq<int>>, x: int, y: int): int
  {
    if 0 <= x < |grid| && 0 <= y < |grid[x]| then grid[x][y] else NonIndex
  }

  /** The cells of an array grid as columns of values. */
  ghost function Snapshot(g: array2<int>): (s: seq<seq<int>>)
    reads g
    ensures |s| == g.Length0 && forall x :: 0 <= x < |s| ==> |s[x]| == g.Length1
    ensures forall x, y :: InGrid(g, x, y) ==> CellAt(s, x, y) == g[x, y]
  {
    seq(g.Length0, x requires 0 <= x < g.Length0 reads g => seq(g.Length1, y requires 0 <= y < g.Length1 reads g => g[x, y]))
  }

  /** A value grid of the same shape that agrees with `g` at every cell is its snapshot. */
  lemma SnapshotAgrees(g: array2<int>, s: seq<seq<int>>)
    requires |s| == g.Length0 && forall x :: 0 <= x < |s| ==> |s[x]| == g.Length1
    requires forall x, y :: InGrid(g, x, y) ==> g[x, y] == CellAt(s, x, y)
    ensures Snapshot(g) == s
  {
    var t := Snapshot(g);
    forall x | 0 <= x < |s|
      ensures t[x] == s[x]
    {
      forall y | 0 <= y < |s[x]|
        ensures t[x][y] == s[x][y]
      {
        assert CellAt(t, x, y) == g[x, y];
      }
    }
  }

  /** `barricadeYPos`: the top row of the barricades, two rows above the ship's clearance. */
  function BarricadeYPos(h: int, barricadeHeight: int): int
  {
    (h - PlayerSpriteBottomOffset - PlayerSpriteHeight) - barricadeHeight - 2
  }

  /** The left column of barricade `i`: equal gaps between and around the four blocks. */
  function BarricadeX(w: int, barricadeWidth: int, i: int): int
  {
    var gap := GoDiv(w - NumBarricades * barricadeWidth, NumBarricades + 1);
    gap * (i + 1) + barricadeWidth * i
  }

  /** What the barricade grid holds at (x, y) once blocks below `n` are stamped. */
  function BarricadeCell(sprite: seq<string>, w: int, h: int, bw: int, bh: int, n: nat, x: int, y: int): int
  {
    if n == 0 then NonIndex
    else if Covers(sprite, BarricadeX(w, bw, n - 1), BarricadeYPos(h, bh), x, y) then n - 1
    else BarricadeCell(sprite, w, h, bw, bh, n - 1, x, y)
  }

  predicate BarricadesFit(sprite: seq<string>, w: int, h: int, bw: int, bh: int)
  {
    forall i :: 0 <= i < NumBarricades ==> Fits(sprite, BarricadeX(w, bw, i), BarricadeYPos(h, bh), w, h)
  }

  /** `genBarricades`: the four blocks, each stamped with its block number. */
  method GenBarricades(w: nat, h: nat, sprite: seq<string>, bw: int, bh: int) returns (g: array2<int>)
    requires BarricadesFit(sprite, w, h, bw, bh)
    ensures fresh(g) && g.Length0 == w && g.Length1 == h
    ensures forall x, y :: InGrid(g, x, y) ==> g[x, y] == BarricadeCell(sprite, w, h, bw, bh, NumBarricades, x, y)
  {
    g := NewGrid(w, h);
    var y := BarricadeYPos(h, bh);
    for i := 0 to NumBarricades
      invariant forall x', y' :: InGrid(g, x', y') ==> g[x', y'] == BarricadeCell(sprite, w, h, bw, bh, i, x', y')
    {
      var initx := BarricadeX(w, bw, i);
      Stamp(g, sprite, initx, y, i);
    }
  }

  /**
   * The meaning of a barricade-grid cell: block `c` when block `c` covers it
   * and no later block does, `NonIndex` when no block covers it.
   */
  lemma {:induction false} BarricadeCellMeaning(sprite: seq<string>, w: int, h: int, bw: int, bh: int, n: nat, x: int, y: int)
    ensures var c := BarricadeCell(sprite, w, h, bw, bh, n, x, y);
      && (c == NonIndex || 0 <= c < n)
      && (0 <= c < n ==>
            Covers(sprite, BarricadeX(w, bw, c), BarricadeYPos(h, bh), x, y)
            && forall j :: c < j < n ==> !Covers(sprite, BarricadeX(w, bw, j), BarricadeYPos(h, bh), x, y))
      && (c == NonIndex <==> forall j :: 0 <= j < n ==> !Covers(sprite, BarricadeX(w, bw, j), BarricadeYPos(h, bh), x, y))
  {
    if n > 0 {
      BarricadeCellMeaning(sprite, w, h, bw, bh, n - 1, x, y);
    }
  }
}

=== FILE: play.dfy ===
/**
 * The play state: the package-level variables of a round, held by `Round`,
 * and the steps that change them in place. Every step is proved against the
 * value-level rules of `Rules` through `View`, which reads the round as a
 * `Field`.
 */
module Play {
  import opened Wrappers
  import opened Sprites
  import opened Entities
  import opened Occupancy
  import opened Rules
  import opened Keys
  import opened Text

  /** `lvlFlash`: the banner shown as a level starts. */
  function LevelBanner(lvl: int): (banner: string)
    ensures |banner| > 6 && banner[..6] == "Level " && banner[6..] == FormatInt(lvl)
  {
    "Level " + FormatInt(lvl)
  }

  /** The level number reads back from its banner. */
  lemma LevelBannerReadsBack(lvl: int)
    requires MinInt64 <= lvl <= MaxInt64
    ensures ParseInt(LevelBanner(lvl)[6..]) == Some(lvl)
  {
    ParseFormatInt(lvl);
  }

  /** The columns `wipePlay` fits into the left half of a w-wide screen; without room it keeps `current`. */
  function AlienColumns(w: nat, current: nat): (cols: nat)
    ensures w / 2 > 0 ==> cols * ColumnStep < w / 2 <= (cols + 1) * ColumnStep
    ensures w / 2 == 0 ==> cols == current
  {
    if w / 2 > 0 then (w / 2 - 1) / ColumnStep else current
  }

  /**
   * How many formation rows start above `limit`, counting at most five:
   * row k starts at 7 + 5k.
   */
  function FormationDepth(limit: int): (rows: nat)
    ensures rows <= 5
    ensures forall k :: 0 <= k < rows ==> AlienStartY + k * RowStep < limit
    ensures rows < 5 ==> AlienStartY + rows * RowStep >= limit
  {
    if limit <= AlienStartY then 0
    else if (limit - AlienStartY - 1) / RowStep + 1 >= 5 then 5
    else (limit - AlienStartY - 1) / RowStep + 1
  }

  /** The small and medium row counts for a formation that has room for `depth` rows. */
  function RowSizing(depth: nat): (sizes: (nat, nat))
    ensures 1 <= sizes.0 <= 2 && 1 <= sizes.1 <= 2
    ensures depth <= 3 ==> sizes == (1, 1)
    ensures depth == 4 ==> sizes == (2, 1)
    ensures depth >= 5 ==> sizes == (2, 2)
  {
    if depth <= 3 then (1, 1) else if depth == 4 then (2, 1) else (2, 2)
  }

  /** The column loop of `wipePlay`: the last i whose column 11i starts in the left half of the screen. */
  method FitColumns(w: nat, current: nat) returns (cols: nat)
    ensures cols == AlienColumns(w, current)
  {
    cols := current;
    var i, x := 0, 0;
    while x < w / 2
      invariant x == i * ColumnStep
      invariant i > 0 ==> (i - 1) * ColumnStep < w / 2 && cols == i - 1
      invariant i == 0 ==> cols == current
      decreases w / 2 - x
    {
      cols := i;
      x, i := x + ColumnStep, i + 1;
    }
  }

  /** The row loop of `wipePlay`: rows starting at 7, 12, 17, ... above `limit`, at most five. */
  method FitRows(limit: int) returns (depth: nat)
    ensures depth == FormationDepth(limit)
  {
    var i, y := 0, AlienStartY;
    while y < limit
      invariant 0 <= i <= 5 && y == AlienStartY + i * RowStep
      invariant forall k :: 0 <= k < i ==> AlienStartY + k * RowStep < limit
      decreases limit - y
    {
      if i == 5 {
        break;
      }
      y, i := y + RowStep, i + 1;
    }
    return i;
  }

  /** A layout of `Shaped` has room for the rows `BeginNextLevel` fills. */
  lemma FormationRoom(l: Layout)
    requires l.rowsLg == 1 && l.rowsMd <= 2 && l.rowsSm <= 2
    ensures (l.rowsLg + l.rowsMd + l.rowsSm) * l.across <= l.across * NumRows
  {
    MulLe(l.rowsLg + l.rowsMd + l.rowsSm, NumRows, l.across);
  }

  class Round {
    var player: Option<Ship>
    var aliens: array<Option<Alien>>
    var alienBullets: array<Option<Bullet>>
    var ufo: Option<Ufo>
    var ufoTimerArmed: bool                 // a UFO timer is running
    var barricades: array2<int>
    var alienv: Vec
    var alienSpriteIndex: int
    var alienMoveEvery: int
    var lvl: int
    var aliensHorizontal: nat
    var rowsSm: nat
    var rowsMd: nat
    var rowsLg: nat

    /** The barricade art and its size come from a sprite file that is not part of this model. */
    const barricadeSprite: seq<string>
    const barricadeWidth: int
    const barricadeHeight: int

    /** The package's variables before any round: no ship, no slots, rows 2/2/1, one column. */
    constructor (sprite: seq<string>, width: int, height: int)
      ensures barricadeSprite == sprite && barricadeWidth == width && barricadeHeight == height
      ensures player.None? && ufo.None? && !ufoTimerArmed
      ensures aliens.Length == 0 && alienBullets.Length == 0
      ensures barricades.Length0 == 0 && barricades.Length1 == 0
      ensures alienv == Vec(0, 0) && alienSpriteIndex == 0 && alienMoveEvery == 0 && lvl == 0
      ensures aliensHorizontal == 1 && rowsSm == 2 && rowsMd == 2 && rowsLg == 1
    {
      barricadeSprite, barricadeWidth, barricadeHeight := sprite, width, height;
      player, ufo, ufoTimerArmed := None, None, false;
      aliens := new Option<Alien>[0];
      alienBullets := new Option<Bullet>[0];
      barricades := new int[0, 0];
      alienv, alienSpriteIndex, alienMoveEvery, lvl := Vec(0, 0), 0, 0, 0;
      aliensHorizontal, rowsSm, rowsMd, rowsLg := 1, 2, 2, 1;
    }

    /**
     * The formation is sized as `wipePlay` sizes it for a w-by-h screen:
     * columns for the left half (`prev` when none fit), small and medium
     * rows for the room above the barricades.
     */
    predicate SizedFor(w: nat, h: nat, prev: nat)
      reads this
    {
      && aliensHorizontal == AlienColumns(w, prev)
      && (rowsSm, rowsMd) ==
        RowSizing(FormationDepth(BarricadeYPos(h, barricadeHeight) - AlienSpriteHeight - AlienPadVertical))
    }

    /** The barricade grid is the w-by-h grid `genBarricades` builds. */
    ghost predicate BarricadesFor(w: nat, h: nat)
      reads this, barricades
    {
      && barricades.Length0 == w && barricades.Length1 == h
      && forall x, y :: InGrid(barricades, x, y) ==>
        barricades[x, y] == BarricadeCell(barricadeSprite, w, h, barricadeWidth, barricadeHeight, NumBarricades, x, y)
    }

    /**
     * The round as `wipePlay` leaves it on a w-by-h screen, from `prev`
     * columns: sized for the screen, no ship, every alien and bullet slot
     * empty, sprite frame 0, cadence 15, moving right, level 1, and the
     * barricades rebuilt.
     */
    ghost predicate WipedFor(w: nat, h: nat, prev: nat)
      reads this, aliens, alienBullets, barricades
    {
      && SizedFor(w, h, prev)
      && player.None?
      && aliens.Length == aliensHorizontal * NumRows
      && (forall k :: 0 <= k < aliens.Length ==> aliens[k].None?)
      && alienBullets[..] == NoBullets(BulletSlots(aliensHorizontal))
      && alienSpriteIndex == 0 && alienMoveEvery == 15 && alienv == RightMove && lvl == 1
      && BarricadesFor(w, h)
    }

    /** The formation sizing of the round. */
    function Sizing(): Layout
      reads this
    {
      Layout(aliensHorizontal, rowsSm, rowsMd, rowsLg)
    }

    /** The round as a value. */
    ghost function View(): Field
      reads this, aliens, alienBullets, barricades
      requires player.Some?
    {
      Field(player.value, aliens[..], alienBullets[..], ufo, ufoTimerArmed, Snapshot(barricades),
            alienv, alienSpriteIndex, alienMoveEvery, lvl)
    }

    /** `WipeBullets`: the ship bullet is gone and a new, empty bullet slot array replaces the old one. */
    method WipeBullets()
      requires player.Some?
      modifies this
      ensures fresh(alienBullets) && aliens == old(aliens) && barricades == old(barricades)
      ensures Sizing() == old(Sizing())
      ensures player.Some? && View() == Rules.WipeBullets(old(View()), old(Sizing()))
    {
      player := Some(player.value.(bullet := None));
      alienBullets := new Option<Bullet>[BulletSlots(aliensHorizontal)](_ => None);
      assert alienBullets[..] == NoBullets(BulletSlots(aliensHorizontal));
    }

    /** `HandleKeyPlay`: only the ship changes, as `ShipAfterKey` says. */
    method HandleKeyPlay(k: Key, w: int)
      requires player.Some?
      modifies this
      ensures aliens == old(aliens) && alienBullets == old(alienBullets) && barricades == old(barricades)
      ensures Sizing() == old(Sizing())
      ensures player.Some? && View() == old(View()).(player := ShipAfterKey(old(player.value), k, w))
    {
      var p := player.value;
      match k {
        case KeyArrowRight => p := p.(x := p.x + PlayerMoveSpeed);
        case KeyArrowLeft => p := p.(x := p.x - PlayerMoveSpeed);
        case KeySpace =>
          if p.bullet.None? {
            p := p.(bullet := Some(NewBullet(p.x + PlayerSpriteWidth / 2, p.y, PlayerBulletSpeed)));
          }
        case _ =>
      }
      if p.x + PlayerSpriteWidth > w {
        p := p.(x := w - PlayerSpriteWidth);
      } else if p.x < 0 {
        p := p.(x := 0);
      }
      player := Some(p);
    }

    /**
     * `makeAliens` as `BeginNextLevel` calls it (the block is `aliensHorizontal`
     * wide and the sprites are alien-sized): `rows` rows of aliens from (x, y),
     * written into the slots from `offset` on; it returns the row below the
     * block and the slot after it.
     */
    method MakeAliens(x: int, y: int, rows: nat, tier: Tier, reward: int, offset: nat) returns (nextY: int, nextOffset: nat)
      requires offset + rows * aliensHorizontal <= aliens.Length
      modifies aliens
      ensures aliens[..] == Filled(old(aliens[..]), x, y, aliensHorizontal, tier, reward, offset, rows * aliensHorizontal)
      ensures nextY == y + rows * RowStep && nextOffset == offset + rows * aliensHorizontal
    {
      var cols := aliensHorizontal;
      ghost var s0 := aliens[..];
      FilledNone(s0, x, y, cols, tier, reward, offset);
      var ax, ay := x, y;
      for i := 0 to rows
        invariant ax == x && ay == y + i * RowStep
        invariant aliens[..] == Filled(s0, x, y, cols, tier, reward, offset, i * cols)
      {
        for j := 0 to cols
          invariant ax == x + j * ColumnStep && ay == y + i * RowStep
          invariant aliens[..] == Filled(s0, x, y, cols, tier, reward, offset, i * cols + j)
        {
          MulBound(i, rows, cols);
          DivModSlot(i, j, cols);
          FilledNext(s0, x, y, cols, tier, reward, offset, i * cols + j);
          aliens[offset + i * cols + j] := Some(Alien(ax, ay, tier, reward));
          ax := ax + ColumnStep;
        }
        MulStep(i, cols);
        ax := x;
        ay := ay + RowStep;
      }
      return ay, offset + rows * cols;
    }

    /** `BeginNextLevel`: a large row, then the medium rows, then the small rows, from (10, 7). */
    method BeginNextLevel()
      requires (rowsLg + rowsMd + rowsSm) * aliensHorizontal <= aliens.Length
      modifies aliens
      ensures aliens[..] == Populate(old(aliens[..]), Sizing())
    {
      Distrib(rowsLg, rowsMd, aliensHorizontal);
      Distrib(rowsLg + rowsMd, rowsSm, aliensHorizontal);
      Distrib(rowsLg, rowsMd, RowStep);
      var y, offset := AlienStartY, 0;
      y, offset := MakeAliens(AlienStartX, y, rowsLg, Large, RwdLg, offset);
      y, offset := MakeAliens(AlienStartX, y, rowsMd, Medium, RwdMd, offset);
      y, offset := MakeAliens(AlienStartX, y, rowsSm, Small, RwdSm, offset);
    }

    /** The firing loop of one alien: the shot takes the first empty bullet slot, if there is one. */
    method Fire(x: int, y: int)
      modifies alienBullets
      ensures alienBullets[..] == FireInto(old(alienBullets[..]), x, y)
    {
      for j := 0 to alienBullets.Length
        invariant alienBullets[..] == old(alienBullets[..])
        invariant forall k :: 0 <= k < j ==> alienBullets[k].Some?
      {
        if alienBullets[j].None? {
          alienBullets[j] := Some(NewBullet(x, y, AlienBulletSpeed));
          assert FirstFree(old(alienBullets[..])) == Some(j);
          return;
        }
      }
    }

    /** Room in the slot array for the formation `BeginNextLevel` builds. */
    predicate CanPopulate()
      reads this
    {
      (rowsLg + rowsMd + rowsSm) * aliensHorizontal <= aliens.Length
    }

    /** The state of the cadence loop: the arrays and the three flags hold what `m` says, and the game goes on. */
    ghost predicate Marching(m: March, down: bool, xval: int, complete: bool)
      reads this, aliens, alienBullets
    {
      !m.over && down == m.down && xval == m.xval && complete == m.complete
      && aliens[..] == m.aliens && alienBullets[..] == m.bullets
    }

    /** Slot `i` of the cadence loop holding a live alien, as `MarchStep` says. */
    method MarchAlien(i: nat, ghost m0: March, v: Vec, w: int, limit: int, rolls: seq<int>, down0: bool, xval0: int)
      returns (over: bool, down: bool, xval: int)
      requires i < |m0.aliens| && m0.aliens[i].Some?
      requires Marching(m0, down0, xval0, m0.complete)
      modifies aliens, alienBullets
      ensures var m := MarchStep(m0, i, v, w, limit, rolls);
        && over == m.over && down == m.down && xval == m.xval && !m.complete
        && aliens[..] == m.aliens && alienBullets[..] == m.bullets
    {
      over, down, xval := false, down0, xval0;
      var a := Moved(aliens[i].value, v);
      aliens[i] := Some(a);
      if AtEdge(a, w) {
        down, xval := true, a.x;
      }
      if a.y >= limit {
        over := true;
      } else if i < |rolls| && rolls[i] == FiringRoll {
        Fire(a.x + AlienSpriteWidth / 2, a.y);
      }
    }

    /** Slot `i` of the cadence loop, as `MarchStep` says, after a scan of the first `i` slots that did not end the game. */
    method MarchSlot(i: nat, ghost a0: seq<Option<Alien>>, ghost b0: seq<Option<Bullet>>, v: Vec, w: int, limit: int,
                     rolls: seq<int>, down0: bool, xval0: int, complete0: bool)
      returns (over: bool, down: bool, xval: int, complete: bool)
      requires i < |a0|
      requires Marching(MarchScan(a0, b0, v, w, limit, rolls, i), down0, xval0, complete0)
      modifies aliens, alienBullets
      ensures var m := MarchScan(a0, b0, v, w, limit, rolls, i + 1);
        && over == m.over && down == m.down && xval == m.xval && complete == m.complete
        && aliens[..] == m.aliens && alienBullets[..] == m.bullets
    {
      ghost var m0 := MarchScan(a0, b0, v, w, limit, rolls, i);
      assert MarchScan(a0, b0, v, w, limit, rolls, i + 1) == MarchStep(m0, i, v, w, limit, rolls);
      over, down, xval, complete := false, down0, xval0, complete0;
      if aliens[i].Some? {
        over, down, xval := MarchAlien(i, m0, v, w, limit, rolls, down0, xval0);
        complete := false;
      }
    }

    /**
     * The cadence loop over the formation, as `MarchScan` says: every live
     * alien moves, edge touches are recorded, an alien low enough ends the
     * game at once, and aliens whose roll comes up fire.
     */
    method March(v: Vec, w: int, limit: int, rolls: seq<int>) returns (over: bool, down: bool, xval: int, complete: bool)
      modifies aliens, alienBullets
      ensures var m := MarchScan(old(aliens[..]), old(alienBullets[..]), v, w, limit, rolls, aliens.Length);
        && over == m.over && down == m.down && xval == m.xval && complete == m.complete
        && aliens[..] == m.aliens && alienBullets[..] == m.bullets
    {
      ghost var a0, b0 := aliens[..], alienBullets[..];
      over, down, xval, complete := false, false, NoEdge, true;
      var i := 0;
      while i < aliens.Length && !over
        invariant 0 <= i <= |a0| == aliens.Length
        invariant var m := MarchScan(a0, b0, v, w, limit, rolls, i);
          && over == m.over && down == m.down && xval == m.xval && complete == m.complete
          && aliens[..] == m.aliens && alienBullets[..] == m.bullets
      {
        over, down, xval, complete := MarchSlot(i, a0, b0, v, w, limit, rolls, down, xval, complete);
        i := i + 1;
      }
      if over {
        MarchScanFrozen(a0, b0, v, w, limit, rolls, i, aliens.Length);
      }
    }

    /** The end of a cleared level, as `NextLevel` says: the level counter, the cadence, a new formation, no bullets. */
    method LevelUp()
      requires player.Some? && CanPopulate()
      modifies this, aliens
      ensures aliens == old(aliens) && barricades == old(barricades) && fresh(alienBullets)
      ensures Sizing() == old(Sizing())
      ensures player.Some? && View() == NextLevel(old(View()), old(Sizing()))
    {
      lvl := lvl + 1;
      if alienMoveEvery != 2 {
        alienMoveEvery := alienMoveEvery - 1;
      }
      BeginNextLevel();
      WipeBullets();
    }

    /** The first half of a cadence tick: the sprite frame flips and the formation marches, as `MarchScan` says. */
    method FlipAndMarch(w: int, rolls: seq<int>) returns (over: bool, down: bool, xval: int, complete: bool)
      requires player.Some?
      modifies this, aliens, alienBullets
      ensures aliens == old(aliens) && alienBullets == old(alienBullets) && barricades == old(barricades)
      ensures Sizing() == old(Sizing()) && player.Some?
      ensures var f0 := old(View()).(spriteIndex := (old(alienSpriteIndex) + 1) % 2);
        var m := MarchScan(f0.aliens, f0.bullets, f0.alienv, w, f0.player.y - PlayerSpriteHeight, rolls, |f0.aliens|);
        && over == m.over && down == m.down && xval == m.xval && complete == m.complete
        && View() == f0.(aliens := m.aliens, bullets := m.bullets)
    {
      alienSpriteIndex := (alienSpriteIndex + 1) % 2;
      over, down, xval, complete := March(alienv, w, player.value.y - PlayerSpriteHeight, rolls);
    }

    /**
     * The second half of a cadence tick that did not end the game: a cleared
     * level with no UFO around starts the next one, and the velocity is
     * steered by the march's edge flag and `xval`.
     */
    method SettleFormation(down: bool, xval: int, complete: bool)
      requires player.Some? && CanPopulate()
      modifies this, aliens
      ensures aliens == old(aliens) && barricades == old(barricades)
      ensures alienBullets == old(alienBullets) || fresh(alienBullets)
      ensures Sizing() == old(Sizing()) && player.Some?
      ensures var f2 := if complete && old(ufo).None? then NextLevel(old(View()), old(Sizing())) else old(View());
        View() == f2.(alienv := Steer(f2.alienv, down, xval))
    {
      if complete && ufo.None? {
        LevelUp();
      }
      if alienv == DownMove {
        alienv := if xval == 0 then RightMove else LeftMove;
      } else if down {
        alienv := DownMove;
      }
    }

    /**
     * The cadence tick of a frame, as `CadenceTick` says: the sprite frame
     * flips, the formation marches (an alien down at the ship ends the game
     * at once: `over`), a cleared level with no UFO around starts the next
     * one, and the velocity is steered.
     */
    method Cadence(w: int, rolls: seq<int>) returns (over: bool)
      requires player.Some? && CanPopulate()
      modifies this, aliens, alienBullets
      ensures aliens == old(aliens) && barricades == old(barricades)
      ensures alienBullets == old(alienBullets) || fresh(alienBullets)
      ensures Sizing() == old(Sizing())
      ensures player.Some? && (over, View()) == CadenceTick(old(View()), old(Sizing()), w, rolls)
    {
      var down, xval, complete;
      over, down, xval, complete := FlipAndMarch(w, rolls);
      if !over {
        SettleFormation(down, xval, complete);
      }
    }

    /** A cell inside both the w-by-h screen and the barricade grid. */
    predicate OnBoard(x: int, y: int, w: int, h: int)
      reads this
    {
      0 <= x < w && 0 <= y < h && x < barricades.Length0 && y < barricades.Length1
    }

    /** Every live alien bullet that stays above row h moves onto a cell the loop may look up. */
    predicate AlienShotsInside(w: int, h: int)
      reads this, alienBullets
    {
      forall j :: 0 <= j < alienBullets.Length && alienBullets[j].Some? && Advanced(alienBullets[j].value).y < h ==>
        OnBoard(alienBullets[j].value.x, Advanced(alienBullets[j].value).y, w, h)
    }

    /** The barricade grid holds the cells of `bar`. */
    ghost predicate HoldsBar(bar: seq<seq<int>>)
      reads this, barricades
    {
      forall x, y :: InGrid(barricades, x, y) ==> barricades[x, y] == CellAt(bar, x, y)
    }

    /** `playerPos` is the ship's occupancy grid, as `PlayerPositions` builds it. */
    ghost predicate ShowsShip(playerPos: array2<int>, p: Ship)
      reads playerPos
    {
      forall x, y :: InGrid(playerPos, x, y) ==>
        playerPos[x, y] == if Covers(PlayerSprite, p.x, p.y, x, y) then PlayerSpriteHere else NonIndex
    }

    /**
     * Slot `b` of the alien-bullet loop, as `AlienBulletStep` says: the
     * bullet drops a row; past the bottom it is cleared; on a cell of the
     * ship (`playerPos`) it stays and `hit` is set; on a barricade cell it
     * and that cell are cleared.
     */
    method DropAlienBullet(b: nat, ghost s: Volley, p: Ship, playerPos: array2<int>, w: nat, h: nat) returns (hit: bool)
      requires b < alienBullets.Length && alienBullets[..] == s.bullets && HoldsBar(s.bar) && !s.hit
      requires playerPos != barricades && playerPos.Length0 == w && playerPos.Length1 == h
      requires ShowsShip(playerPos, p)
      requires alienBullets[b].Some? && Advanced(alienBullets[b].value).y < h ==>
        OnBoard(alienBullets[b].value.x, Advanced(alienBullets[b].value).y, w, h)
      modifies alienBullets, barricades
      ensures var r := AlienBulletStep(s, b, p, h);
        hit == r.hit && alienBullets[..] == r.bullets && HoldsBar(r.bar)
    {
      hit := false;
      if alienBullets[b].Some? {
        var nb := Advanced(alienBullets[b].value);
        alienBullets[b] := Some(nb);
        if nb.y >= h {
          alienBullets[b] := None;
        } else {
          var x, y := nb.x, nb.y;
          assert InGrid(playerPos, x, y) && InGrid(barricades, x, y);
          assert barricades[x, y] == CellAt(s.bar, x, y);
          if playerPos[x, y] != NonIndex {
            assert Covers(PlayerSprite, p.x, p.y, x, y);
            hit := true;
          } else if barricades[x, y] != NonIndex {
            alienBullets[b] := None;
            barricades[x, y] := NonIndex;
            forall x', y' | InGrid(barricades, x', y')
              ensures barricades[x', y'] == CellAt(Erase(s.bar, x, y), x', y')
            {
            }
          }
        }
      }
    }

    /** The state of the alien-bullet loop: the bullet array, the barricade grid and the hit flag hold what `s` says. */
    ghost predicate Scanned(s: Volley, hit: bool)
      reads this, alienBullets, barricades
    {
      hit == s.hit && alienBullets[..] == s.bullets && HoldsBar(s.bar)
    }

    /** One pass of the alien-bullet loop moves the scan from slot `b` to slot `b + 1`. */
    method ScanStep(b: nat, ghost b0: seq<Option<Bullet>>, ghost bar0: seq<seq<int>>, p: Ship, playerPos: array2<int>, w: nat, h: nat)
      returns (hit: bool)
      requires b < |b0| && b0[b].Some? && Advanced(b0[b].value).y < h ==> OnBoard(b0[b].value.x, Advanced(b0[b].value).y, w, h)
      requires b < |b0|
      requires playerPos != barricades && playerPos.Length0 == w && playerPos.Length1 == h
      requires ShowsShip(playerPos, p)
      requires Scanned(AlienBulletScan(b0, bar0, p, h, b), false)
      modifies alienBullets, barricades
      ensures Scanned(AlienBulletScan(b0, bar0, p, h, b + 1), hit)
    {
      ghost var s0 := AlienBulletScan(b0, bar0, p, h, b);
      assert alienBullets[b] == b0[b];
      hit := DropAlienBullet(b, s0, p, playerPos, w, h);
      assert AlienBulletScan(b0, bar0, p, h, b + 1) == AlienBulletStep(s0, b, p, h);
    }

    /** The loop over the alien bullets from bullet slots `b0` and barricade cells `bar0`; it stops at the first hit. */
    method ScanLoop(ghost b0: seq<Option<Bullet>>, ghost bar0: seq<seq<int>>, p: Ship, playerPos: array2<int>, w: nat, h: nat)
      returns (hit: bool)
      requires playerPos != barricades && playerPos.Length0 == w && playerPos.Length1 == h
      requires ShowsShip(playerPos, p)
      requires AlienShotsInside(w, h)
      requires Scanned(AlienBulletScan(b0, bar0, p, h, 0), false)
      modifies alienBullets, barricades
      ensures Scanned(AlienBulletScan(b0, bar0, p, h, |b0|), hit)
    {
      assert forall j :: 0 <= j < |b0| && b0[j].Some? && Advanced(b0[j].value).y < h ==>
        OnBoard(b0[j].value.x, Advanced(b0[j].value).y, w, h);
      hit := false;
      var b := 0;
      while b < alienBullets.Length && !hit
        invariant 0 <= b <= |b0|
        invariant Scanned(AlienBulletScan(b0, bar0, p, h, b), hit)
      {
        hit := ScanStep(b, b0, bar0, p, playerPos, w, h);
        b := b + 1;
      }
      if hit {
        AlienBulletScanFrozen(b0, bar0, p, h, b, |b0|);
      }
    }

    /**
     * The loop over the alien bullets, as `AlienBulletScan` says; it stops
     * at the first bullet that lands on the ship.
     */
    method ScanAlienBullets(p: Ship, playerPos: array2<int>, w: nat, h: nat) returns (hit: bool)
      requires playerPos != barricades && playerPos.Length0 == w && playerPos.Length1 == h
      requires ShowsShip(playerPos, p)
      requires AlienShotsInside(w, h)
      modifies alienBullets, barricades
      ensures var s := AlienBulletScan(old(alienBullets[..]), old(Snapshot(barricades)), p, h, alienBullets.Length);
        hit == s.hit && alienBullets[..] == s.bullets && Snapshot(barricades) == s.bar
    {
      ghost var b0, bar0 := alienBullets[..], Snapshot(barricades);
      hit := ScanLoop(b0, bar0, p, playerPos, w, h);
      SnapshotAgrees(barricades, AlienBulletScan(b0, bar0, p, h, |b0|).bar);
    }

    /**
     * The alien-bullet phase of a frame, as `AlienBulletsPhase` says: after
     * the loop, a hit costs the ship one life and ends the frame, with
     * `GameOver` at no lives left and otherwise `LifeLost` and every bullet
     * wiped.
     */
    method MoveAlienBullets(w: nat, h: nat) returns (o: Outcome)
      requires player.Some? && Fits(PlayerSprite, player.value.x, player.value.y, w, h)
      requires AlienShotsInside(w, h)
      modifies this, alienBullets, barricades
      ensures aliens == old(aliens) && barricades == old(barricades)
      ensures alienBullets == old(alienBullets) || fresh(alienBullets)
      ensures Sizing() == old(Sizing())
      ensures player.Some? && (o, View()) == AlienBulletsPhase(old(View()), old(Sizing()), h)
    {
      var p := player.value;
      var playerPos := PlayerPositions(w, h, p);
      var hit := ScanAlienBullets(p, playerPos, w, h);
      if !hit {
        return Continue;
      }
      player := Some(p.(lives := p.lives - 1));
      if p.lives - 1 == 0 {
        return GameOver;
      }
      WipeBullets();
      return LifeLost;
    }

    /**
     * A ship bullet that stays on screen moves onto a cell the step may look
     * up, and every sprite `AlienPositions` stamps lies on the screen.
     */
    predicate ShipShotReady(w: int, h: int)
      reads this, aliens
      requires 0 <= alienSpriteIndex < 2
    {
      player.Some? && player.value.bullet.Some? &&
      player.value.bullet.value.y + player.value.bullet.value.vy >= 0 ==>
        && OnBoard(player.value.bullet.value.x, player.value.bullet.value.y + player.value.bullet.value.vy, w, h)
        && AliensFit(aliens[..], alienSpriteIndex, w, h)
        && (UfoShown(ufo, w) ==> Fits(UfoSprite, ufo.value.x, ufo.value.y, w, h))
    }

    /**
     * The ship-bullet step of a frame, as `ShipBulletStep` says: the bullet
     * moves; off the top it is gone; on the alien grid it scores and removes
     * what it hit (the UFO, or the alien of that slot); on a barricade cell
     * it is gone; otherwise it flies on.
     */
    method MoveShipBullet(w: nat, h: nat)
      requires player.Some? && 0 <= alienSpriteIndex < 2 && ShipShotReady(w, h)
      modifies this, aliens
      ensures aliens == old(aliens) && alienBullets == old(alienBullets) && barricades == old(barricades)
      ensures Sizing() == old(Sizing())
      ensures player.Some? && View() == ShipBulletStep(old(View()), w)
    {
      ghost var f := View();
      var p := player.value;
      if p.bullet.Some? {
        var nb := p.bullet.value.(y := p.bullet.value.y + p.bullet.value.vy);
        if nb.y < 0 {
          player := Some(p.(bullet := None));
        } else {
          var c := ShotCell(nb.x, nb.y, w, h);
          assert ShipBulletStep(f, w) == ShotLands(f, nb, c);
          LandShot(nb, c, w, h);
        }
      }
    }

    /** `alienPositions` read at cell (x, y): the alien slot, the UFO or nothing there, as `AlienCell` says. */
    method ShotCell(x: int, y: int, w: nat, h: nat) returns (c: int)
      requires 0 <= alienSpriteIndex < 2 && 0 <= x < w && 0 <= y < h
      requires AliensFit(aliens[..], alienSpriteIndex, w, h)
      requires UfoShown(ufo, w) ==> Fits(UfoSprite, ufo.value.x, ufo.value.y, w, h)
      ensures c == AlienCell(aliens[..], aliens.Length, alienSpriteIndex, ufo, w, x, y)
    {
      var screen := AlienPositions(w, h, aliens[..], alienSpriteIndex, ufo);
      assert InGrid(screen, x, y);
      c := screen[x, y];
    }

    /** The ship bullet, moved on screen to `nb`, lands on a cell holding `c`, as `ShotLands` says. */
    method LandShot(nb: Bullet, c: int, w: nat, h: nat)
      requires player.Some? && OnBoard(nb.x, nb.y, w, h)
      requires c == NonIndex || c == UfoIndex || (0 <= c < aliens.Length && aliens[c].Some?)
      modifies this, aliens
      ensures aliens == old(aliens) && alienBullets == old(alienBullets) && barricades == old(barricades)
      ensures Sizing() == old(Sizing())
      ensures player.Some? && View() == ShotLands(old(View()), nb, c)
    {
      var p := player.value;
      if c != NonIndex {
        if c == UfoIndex {
          player := Some(p.(bullet := None, score := p.score + UfoReward));
          ufo := None;
        } else {
          player := Some(p.(bullet := None, score := p.score + aliens[c].value.reward));
          aliens[c] := None;
        }
      } else if barricades[nb.x, nb.y] != NonIndex {
        player := Some(p.(bullet := None));
      } else {
        player := Some(p.(bullet := Some(nb)));
      }
    }

    /**
     * `UpdatePlay` on frame `fc`, given each alien slot's firing roll and
     * whether the UFO timer has fired, as `FrameStep` says: alien bullets,
     * ship bullet, UFO drift, the cadence tick on frames divisible by
     * `alienMoveEvery`, and the UFO timer, stopping early on a hit on the
     * ship or the game's end.
     */
    method UpdatePlay(w: nat, h: nat, fc: nat, rolls: seq<int>, fired: bool) returns (o: Outcome)
      requires player.Some? && 0 <= alienSpriteIndex < 2 && alienMoveEvery > 0 && CanPopulate()
      requires Fits(PlayerSprite, player.value.x, player.value.y, w, h)
      requires AlienShotsInside(w, h) && ShipShotReady(w, h)
      modifies this, aliens, alienBullets, barricades
      ensures aliens == old(aliens) && barricades == old(barricades)
      ensures alienBullets == old(alienBullets) || fresh(alienBullets)
      ensures Sizing() == old(Sizing())
      ensures player.Some? && (o, View()) == FrameStep(old(View()), old(Sizing()), w, h, fc, rolls, fired)
    {
      o := MoveAlienBullets(w, h);
      if o == Continue {
        o := FinishFrame(w, h, fc, rolls, fired);
      }
    }

    /** The rest of a frame the alien bullets did not end, as `FrameRest` says. */
    method FinishFrame(w: nat, h: nat, fc: nat, rolls: seq<int>, fired: bool) returns (o: Outcome)
      requires player.Some? && 0 <= alienSpriteIndex < 2 && alienMoveEvery > 0 && CanPopulate()
      requires ShipShotReady(w, h)
      modifies this, aliens, alienBullets
      ensures aliens == old(aliens) && barricades == old(barricades)
      ensures alienBullets == old(alienBullets) || fresh(alienBullets)
      ensures Sizing() == old(Sizing())
      ensures player.Some? && (o, View()) == FrameRest(old(View()), old(Sizing()), w, fc, rolls, fired)
    {
      MoveShipBullet(w, h);
      DriftUfo(fc, w);
      var over := false;
      if fc % alienMoveEvery == 0 {
        over := Cadence(w, rolls);
      }
      if over {
        o := GameOver;
      } else {
        o := Continue;
        UfoTimerStep(fired);
      }
    }

    /** The sizing part of `wipePlay`: columns for the left half, small and medium rows for the room above the barricades. */
    method SizeFormation(w: nat, h: nat)
      modifies this
      ensures aliensHorizontal == AlienColumns(w, old(aliensHorizontal))
      ensures (rowsSm, rowsMd) ==
        RowSizing(FormationDepth(BarricadeYPos(h, barricadeHeight) - AlienSpriteHeight - AlienPadVertical))
      ensures rowsLg == old(rowsLg) && player == old(player) && ufo == old(ufo) && ufoTimerArmed == old(ufoTimerArmed)
    {
      aliensHorizontal := FitColumns(w, aliensHorizontal);
      var i := FitRows(BarricadeYPos(h, barricadeHeight) - AlienSpriteHeight - AlienPadVertical);
      if i <= 3 {
        rowsSm, rowsMd := 1, 1;
      } else if i == 4 {
        rowsSm, rowsMd := 2, 1;
      } else {
        rowsSm, rowsMd := 2, 2;
      }
    }

    /**
     * `wipePlay` on a w-by-h screen: the formation is sized to the screen
     * (columns for the left half, small and medium rows for the room above
     * the barricades), the ship is gone, the slot arrays are new and empty,
     * the cadence, velocity and level start over, and the barricades are
     * rebuilt. The UFO and its timer are left as they were.
     */
    method WipePlay(w: nat, h: nat)
      requires BarricadesFit(barricadeSprite, w, h, barricadeWidth, barricadeHeight)
      modifies this
      ensures WipedFor(w, h, old(aliensHorizontal)) && rowsLg == old(rowsLg)
      ensures ufo == old(ufo) && ufoTimerArmed == old(ufoTimerArmed)
      ensures fresh(aliens) && fresh(alienBullets) && fresh(barricades)
    {
      SizeFormation(w, h);
      ClearRound();
      barricades := GenBarricades(w, h, barricadeSprite, barricadeWidth, barricadeHeight);
    }

    /** The reset part of `wipePlay`: no ship, empty alien and bullet slots sized to the formation, level 1. */
    method ClearRound()
      modifies this
      ensures aliensHorizontal == old(aliensHorizontal) && rowsSm == old(rowsSm) && rowsMd == old(rowsMd)
      ensures rowsLg == old(rowsLg) && ufo == old(ufo) && ufoTimerArmed == old(ufoTimerArmed)
      ensures player.None? && fresh(aliens) && aliens.Length == aliensHorizontal * NumRows
      ensures forall k :: 0 <= k < aliens.Length ==> aliens[k].None?
      ensures fresh(alienBullets) && alienBullets[..] == NoBullets(BulletSlots(aliensHorizontal))
      ensures alienSpriteIndex == 0 && alienMoveEvery == 15 && alienv == RightMove && lvl == 1
    {
      player := None;
      aliens := new Option<Alien>[aliensHorizontal * NumRows](_ => None);
      alienBullets := new Option<Bullet>[BulletSlots(aliensHorizontal)](_ => None);
      assert alienBullets[..] == NoBullets(BulletSlots(aliensHorizontal));
      alienSpriteIndex, alienMoveEvery, alienv := 0, 15, RightMove;
      lvl := 1;
    }

    /**
     * The new round `GoPlay` starts when there is no ship: `wipePlay`, a ship
     * at (startx, starty) with a full set of lives and no score, and the
     * first formation. The round then has the shape every later frame keeps.
     */
    method StartRound(w: nat, h: nat, startx: int, starty: int)
      requires BarricadesFit(barricadeSprite, w, h, barricadeWidth, barricadeHeight)
      requires rowsLg == 1
      modifies this
      ensures player == Some(Ship(startx, starty, 0, InitLives, None))
      ensures SizedFor(w, h, old(aliensHorizontal)) && rowsLg == 1
      ensures ufo == old(ufo) && ufoTimerArmed == old(ufoTimerArmed)
      ensures alienSpriteIndex == 0 && lvl == 1 && alienv == RightMove && alienMoveEvery == 15
      ensures fresh(aliens) && aliens.Length == aliensHorizontal * NumRows
      ensures aliens[..] == Populate(seq(aliens.Length, _ => None), Sizing())
      ensures fresh(alienBullets) && alienBullets[..] == NoBullets(BulletSlots(aliensHorizontal))
      ensures fresh(barricades) && BarricadesFor(w, h)
      ensures Shaped(View(), Sizing())
    {
      WipePlay(w, h);
      assert aliens[..] == seq(aliens.Length, _ => None);
      player := Some(Ship(startx, starty, 0, InitLives, None));
      FormationRoom(Sizing());
      BeginNextLevel();
    }

    /** The UFO drift of a frame, as `UfoDrift` says. */
    method DriftUfo(fc: int, w: int)
      requires player.Some?
      modifies this
      ensures aliens == old(aliens) && alienBullets == old(alienBullets) && barricades == old(barricades)
      ensures Sizing() == old(Sizing())
      ensures player.Some? && View() == UfoDrift(old(View()), fc, w)
    {
      if ufo.Some? && fc % UfoMoveEvery == 0 {
        ufo := Some(ufo.value.(x := ufo.value.x + 1));
        if ufo.value.x > w {
          ufo := None;
          ufoTimerArmed := true;
        }
      }
    }

    /** The UFO timer at the end of a frame, as `UfoTimer` says. */
    method UfoTimerStep(fired: bool)
      requires player.Some?
      modifies this
      ensures aliens == old(aliens) && alienBullets == old(alienBullets) && barricades == old(barricades)
      ensures Sizing() == old(Sizing())
      ensures player.Some? && View() == UfoTimer(old(View()), fired)
    {
      if ufoTimerArmed && fired {
        ufo := Some(NewUfo());
        ufoTimerArmed := false;
      } else if !ufoTimerArmed && ufo.None? {
        ufoTimerArmed := true;
      }
    }
  }
}

=== FILE: rules.dfy ===
/**
 * The rules of the play state as functions on values. `Field` is everything
 * a frame of `UpdatePlay` reads or writes; `Layout` is the formation sizing
 * chosen by `wipePlay`, fixed for the rest of the game. Each phase of a frame
 * is a function from the field before it to the field after it, and the
 * frame is their composition in the source's order: alien bullets, ship
 * bullet, UFO drift, formation cadence, UFO timer.
 */
module Rules {
  import opened Wrappers
  import opened Sprites
  import opened Entities
  import opened Occupancy
  import opened Keys

  datatype Field = Field(
    player: Ship,
    aliens: seq<Option<Alien>>,
    bullets: seq<Option<Bullet>>,
    ufo: Option<Ufo>,
    timerArmed: bool,               // a UFO timer is running
    bar: seq<seq<int>>,             // the barricade grid, column by column
    alienv: Vec,
    spriteIndex: int,
    moveEvery: int,
    lvl: int)

  /** Columns of aliens, and rows of each kind. */
  datatype Layout = Layout(across: nat, rowsSm: nat, rowsMd: nat, rowsLg: nat)

  /** How a frame ends: normally, with a life lost (the frame stops early), or with the game over. */
  datatype Outcome = Continue | LifeLost | GameOver

  /** Horizontal and vertical distance between neighbouring aliens of the formation. */
  const ColumnStep: int := AlienSpriteWidth + AlienPadHorizontal
  const RowStep: int := AlienSpriteHeight + AlienPadVertical

  /** The initial `xval` of a cadence tick: no alien has touched an edge yet. */
  const NoEdge: int := 999999999

  /** The length of the alien-bullet slot array: a tenth of the alien slots, rounded down. */
  function BulletSlots(across: nat): nat
  {
    across * NumRows / 10
  }

  function NoBullets(n: nat): (s: seq<Option<Bullet>>)
    ensures |s| == n && forall j :: 0 <= j < n ==> s[j].None?
  {
    seq(n, _ => None)
  }

  /** The shape a round has from `wipePlay` on. */
  predicate Shaped(f: Field, l: Layout)
  {
    && |f.aliens| == l.across * NumRows
    && |f.bullets| == BulletSlots(l.across)
    && l.rowsLg == 1 && 1 <= l.rowsMd <= 2 && 1 <= l.rowsSm <= 2
    && 0 <= f.spriteIndex < 2
    && 2 <= f.moveEvery <= 15
    && (f.alienv == RightMove || f.alienv == LeftMove || f.alienv == DownMove)
    && f.lvl >= 1
  }

  /** `WipeBullets`: no ship bullet, and a fresh, empty alien-bullet slot array. */
  function WipeBullets(f: Field, l: Layout): Field
  {
    f.(player := f.player.(bullet := None), bullets := NoBullets(BulletSlots(l.across)))
  }

  // ---------------------------------------------------------------------
  // Alien bullets

  /** The bullet slots and barricades while the alien bullets are moved one by one. */
  datatype Volley = Volley(bullets: seq<Option<Bullet>>, bar: seq<seq<int>>, hit: bool)

  function Advanced(b: Bullet): Bullet
  {
    b.(y := b.y + AlienBulletSpeed)
  }

  /** Clears one barricade cell. */
  function Erase(bar: seq<seq<int>>, x: int, y: int): (r: seq<seq<int>>)
    ensures |r| == |bar| && forall i :: 0 <= i < |bar| ==> |r[i]| == |bar[i]|
    ensures forall x', y' :: CellAt(r, x', y') == if x' == x && y' == y then NonIndex else CellAt(bar, x', y')
  {
    if 0 <= x < |bar| && 0 <= y < |bar[x]| then bar[x := bar[x][y := NonIndex]] else bar
  }

  /**
   * Slot `j` of the alien-bullet loop: the bullet drops one row; past the
   * bottom it is cleared; on the ship it stays and the ship is hit; on a
   * barricade cell it and that cell are cleared.
   */
  function AlienBulletStep(s: Volley, j: int, p: Ship, h: int): Volley
    requires 0 <= j < |s.bullets|
  {
    match s.bullets[j]
    case None => s
    case Some(b) =>
      var nb := Advanced(b);
      if nb.y >= h then s.(bullets := s.bullets[j := None])
      else if Covers(PlayerSprite, p.x, p.y, nb.x, nb.y) then Volley(s.bullets[j := Some(nb)], s.bar, true)
      else if CellAt(s.bar, nb.x, nb.y) != NonIndex then Volley(s.bullets[j := None], Erase(s.bar, nb.x, nb.y), false)
      else s.(bullets := s.bullets[j := Some(nb)])
  }

  /** The alien-bullet loop over its first `k` slots; it stops at the first hit on the ship. */
  function AlienBulletScan(bullets: seq<Option<Bullet>>, bar: seq<seq<int>>, p: Ship, h: int, k: int): (r: Volley)
    requires 0 <= k <= |bullets|
    ensures |r.bullets| == |bullets|
    ensures forall j :: k <= j < |bullets| ==> r.bullets[j] == bullets[j]
    ensures |r.bar| == |bar| && forall x :: 0 <= x < |bar| ==> |r.bar[x]| == |bar[x]|
  {
    if k == 0 then Volley(bullets, bar, false)
    else
      var s := AlienBulletScan(bullets, bar, p, h, k - 1);
      if s.hit then s else AlienBulletStep(s, k - 1, p, h)
  }

  /**
   * The alien-bullet phase: a hit on the ship costs exactly one life; at no
   * lives left the game is over, otherwise every bullet is wiped and the
   * frame ends there.
   */
  function AlienBulletsPhase(f: Field, l: Layout, h: int): (Outcome, Field)
  {
    var s := AlienBulletScan(f.bullets, f.bar, f.player, h, |f.bullets|);
    var f1 := f.(bullets := s.bullets, bar := s.bar);
    if !s.hit then (Continue, f1)
    else
      var f2 := f1.(player := f1.player.(lives := f1.player.lives - 1));
      if f2.player.lives == 0 then (GameOver, f2) else (LifeLost, WipeBullets(f2, l))
  }

  /** A live alien bullet whose next row lands on the ship. */
  predicate HitsShip(ob: Option<Bullet>, p: Ship, h: int)
  {
    ob.Some? && Advanced(ob.value).y < h && Covers(PlayerSprite, p.x, p.y, ob.value.x, Advanced(ob.value).y)
  }

  lemma {:induction false} AlienBulletScanFrozen(bullets: seq<Option<Bullet>>, bar: seq<seq<int>>, p: Ship, h: int, k: int, n: int)
    requires 0 <= k <= n <= |bullets|
    requires AlienBulletScan(bullets, bar, p, h, k).hit
    ensures AlienBulletScan(bullets, bar, p, h, n) == AlienBulletScan(bullets, bar, p, h, k)
    decreases n
  {
    if n > k {
      AlienBulletScanFrozen(bullets, bar, p, h, k, n - 1);
    }
  }

  /** The ship is hit exactly when some live bullet's next row lands on it, whatever the barricades. */
  lemma {:induction false} AlienBulletScanHit(bullets: seq<Option<Bullet>>, bar: seq<seq<int>>, p: Ship, h: int, k: int)
    requires 0 <= k <= |bullets|
    ensures AlienBulletScan(bullets, bar, p, h, k).hit <==> exists j :: 0 <= j < k && HitsShip(bullets[j], p, h)
    decreases k
  {
    if k > 0 {
      AlienBulletScanHit(bullets, bar, p, h, k - 1);
      var s := AlienBulletScan(bullets, bar, p, h, k - 1);
      if !s.hit {
        assert s.bullets[k - 1] == bullets[k - 1];
      } else {
        var j :| 0 <= j < k - 1 && HitsShip(bullets[j], p, h);
      }
    }
  }

  /**
   * Until the hit every processed bullet has moved exactly one row down or
   * been cleared, and one past the bottom is always cleared.
   */
  lemma {:induction false} AlienBulletScanMoves(bullets: seq<Option<Bullet>>, bar: seq<seq<int>>, p: Ship, h: int, k: int)
    requires 0 <= k <= |bullets|
    ensures var r := AlienBulletScan(bullets, bar, p, h, k);
      forall j :: 0 <= j < k && !r.hit ==>
        (bullets[j].None? ==> r.bullets[j].None?)
        && (r.bullets[j].Some? ==> bullets[j].Some? && r.bullets[j].value == Advanced(bullets[j].value))
        && (bullets[j].Some? && Advanced(bullets[j].value).y >= h ==> r.bullets[j].None?)
    decreases k
  {
    if k > 0 {
      AlienBulletScanMoves(bullets, bar, p, h, k - 1);
      var s := AlienBulletScan(bullets, bar, p, h, k - 1);
      if !s.hit {
        assert s.bullets[k - 1] == bullets[k - 1];
      }
    }
  }

  /** Barricade cells are only ever cleared, each under a bullet that was cleared there. */
  lemma {:induction false} AlienBulletScanErodes(bullets: seq<Option<Bullet>>, bar: seq<seq<int>>, p: Ship, h: int, k: int)
    requires 0 <= k <= |bullets|
    ensures var r := AlienBulletScan(bullets, bar, p, h, k);
      forall x, y :: CellAt(r.bar, x, y) == CellAt(bar, x, y) ||
        (CellAt(r.bar, x, y) == NonIndex &&
         exists j :: 0 <= j < k && bullets[j].Some? && r.bullets[j].None?
                     && bullets[j].value.x == x && Advanced(bullets[j].value).y == y)
    decreases k
  {
    if k > 0 {
      AlienBulletScanErodes(bullets, bar, p, h, k - 1);
      var s := AlienBulletScan(bullets, bar, p, h, k - 1);
      var r := AlienBulletScan(bullets, bar, p, h, k);
      if !s.hit {
        assert s.bullets[k - 1] == bullets[k - 1];
        forall x, y
          ensures CellAt(r.bar, x, y) == CellAt(bar, x, y) ||
            (CellAt(r.bar, x, y) == NonIndex &&
             exists j :: 0 <= j < k && bullets[j].Some? && r.bullets[j].None?
                         && bullets[j].value.x == x && Advanced(bullets[j].value).y == y)
        {
          if CellAt(r.bar, x, y) != CellAt(bar, x, y) {
            if CellAt(s.bar, x, y) != CellAt(bar, x, y) {
              var j :| 0 <= j < k - 1 && bullets[j].Some? && s.bullets[j].None?
                         && bullets[j].value.x == x && Advanced(bullets[j].value).y == y;
              assert r.bullets[j] == s.bullets[j];
            } else {
              assert r.bullets[k - 1].None?;
            }
          }
        }
      }
    }
  }

  /**
   * The ship is hit exactly when some live bullet's next row lands on it,
   * whatever the barricades; until the hit every processed bullet has moved
   * exactly one row down or been cleared, and one past the bottom is always
   * cleared; barricade cells are only ever cleared, each under a bullet that
   * was cleared there.
   */
  lemma AlienBulletScanEffects(bullets: seq<Option<Bullet>>, bar: seq<seq<int>>, p: Ship, h: int, k: int)
    requires 0 <= k <= |bullets|
    ensures var r := AlienBulletScan(bullets, bar, p, h, k);
      && (r.hit <==> exists j :: 0 <= j < k && HitsShip(bullets[j], p, h))
      && (forall j :: 0 <= j < k && !r.hit ==>
            (bullets[j].None? ==> r.bullets[j].None?)
            && (r.bullets[j].Some? ==> bullets[j].Some? && r.bullets[j].value == Advanced(bullets[j].value))
            && (bullets[j].Some? && Advanced(bullets[j].value).y >= h ==> r.bullets[j].None?))
      && (forall x, y :: CellAt(r.bar, x, y) == CellAt(bar, x, y) ||
            (CellAt(r.bar, x, y) == NonIndex &&
             exists j :: 0 <= j < k && bullets[j].Some? && r.bullets[j].None?
                         && bullets[j].value.x == x && Advanced(bullets[j].value).y == y))
  {
    AlienBulletScanHit(bullets, bar, p, h, k);
    AlienBulletScanMoves(bullets, bar, p, h, k);
    AlienBulletScanErodes(bullets, bar, p, h, k);
  }

  // ---------------------------------------------------------------------
  // The ship bullet

  /**
   * The ship bullet moves by its velocity; off the top it is cleared; on an
   * alien-grid cell it is cleared and scores: 100 and the UFO gone for the
   * UFO marker, else the reward of the alien in that slot and the slot
   * emptied; on a barricade cell it is cleared and the cell stays.
   */
  function ShipBulletStep(f: Field, w: int): Field
    requires 0 <= f.spriteIndex < 2
  {
    match f.player.bullet
    case None => f
    case Some(b) =>
      var nb := b.(y := b.y + b.vy);
      var spent := f.player.(bullet := None);
      if nb.y < 0 then f.(player := spent)
      else ShotLands(f, nb, AlienCell(f.aliens, |f.aliens|, f.spriteIndex, f.ufo, w, nb.x, nb.y))
  }

  /**
   * The ship bullet, moved on screen to `nb`, lands on a cell whose
   * occupant is `c`: the UFO or an alien is destroyed and scored, a
   * barricade cell stops the bullet, and an empty cell lets it fly on.
   */
  function ShotLands(f: Field, nb: Bullet, c: int): Field
    requires c == NonIndex || c == UfoIndex || (0 <= c < |f.aliens| && f.aliens[c].Some?)
  {
    var spent := f.player.(bullet := None);
    if c != NonIndex then
      if c == UfoIndex then f.(player := spent.(score := spent.score + UfoReward), ufo := None)
      else f.(player := spent.(score := spent.score + f.aliens[c].value.reward), aliens := f.aliens[c := None])
    else if CellAt(f.bar, nb.x, nb.y) != NonIndex then f.(player := spent)
    else f.(player := f.player.(bullet := Some(nb)))
  }

  /** Live slot `j` covers cell (x, y) in the current sprite frame. */
  predicate SlotCovers(f: Field, j: int, x: int, y: int)
    requires 0 <= f.spriteIndex < 2
  {
    0 <= j < |f.aliens| && f.aliens[j].Some? && AlienCovers(f.aliens[j].value, f.spriteIndex, x, y)
  }

  /** Where the ship bullet lands this frame. */
  function ShotX(f: Field): int
    requires f.player.bullet.Some?
  {
    f.player.bullet.value.x
  }

  function ShotY(f: Field): int
    requires f.player.bullet.Some?
  {
    f.player.bullet.value.y + f.player.bullet.value.vy
  }

  /**
   * The ship bullet never damages a barricade and touches nothing but the
   * ship's bullet and score, the alien slots and the UFO; the ship itself
   * does not move or lose lives, and a bullet gone off the top simply ends.
   */
  lemma ShipBulletKeeps(f: Field, w: int)
    requires 0 <= f.spriteIndex < 2
    ensures var r := ShipBulletStep(f, w);
      && r.bar == f.bar && r.bullets == f.bullets && r.timerArmed == f.timerArmed
      && r.alienv == f.alienv && r.spriteIndex == f.spriteIndex && r.moveEvery == f.moveEvery && r.lvl == f.lvl
      && r.player.x == f.player.x && r.player.y == f.player.y && r.player.lives == f.player.lives
      && |r.aliens| == |f.aliens|
      && (f.player.bullet.None? ==> r == f)
      && (f.player.bullet.Some? && ShotY(f) < 0 ==> r == f.(player := f.player.(bullet := None)))
  {
  }

  /**
   * A bullet landing on a cell covered by live aliens hits the last of them
   * (the highest slot): it scores that alien's reward and empties that slot
   * and no other, whatever the UFO (with at most as many slots as the UFO
   * marker, so that the two cannot be confused).
   */
  lemma ShipBulletHitsAlien(f: Field, w: int, c: int)
    requires 0 <= f.spriteIndex < 2 && |f.aliens| <= UfoIndex
    requires f.player.bullet.Some? && ShotY(f) >= 0
    requires SlotCovers(f, c, ShotX(f), ShotY(f))
    requires forall j :: c < j < |f.aliens| ==> !SlotCovers(f, j, ShotX(f), ShotY(f))
    ensures ShipBulletStep(f, w) ==
      f.(player := f.player.(bullet := None, score := f.player.score + f.aliens[c].value.reward),
         aliens := f.aliens[c := None])
  {
    var x, y := ShotX(f), ShotY(f);
    AlienCellMeaning(f.aliens, |f.aliens|, f.spriteIndex, f.ufo, w, x, y);
    var cell := AlienCell(f.aliens, |f.aliens|, f.spriteIndex, f.ufo, w, x, y);
    assert SlotCovers(f, c, x, y);
    assert SlotCovers(f, cell, x, y);
    assert cell == c;
  }

  /** A bullet landing where no live alien is but the shown UFO is scores 100 and removes the UFO. */
  lemma ShipBulletHitsUfo(f: Field, w: int)
    requires 0 <= f.spriteIndex < 2 && |f.aliens| <= UfoIndex
    requires f.player.bullet.Some? && ShotY(f) >= 0
    requires forall j :: 0 <= j < |f.aliens| ==> !SlotCovers(f, j, ShotX(f), ShotY(f))
    requires UfoShown(f.ufo, w) && Covers(UfoSprite, f.ufo.value.x, f.ufo.value.y, ShotX(f), ShotY(f))
    ensures ShipBulletStep(f, w) ==
      f.(player := f.player.(bullet := None, score := f.player.score + UfoReward), ufo := None)
  {
    var x, y := ShotX(f), ShotY(f);
    AlienCellMeaning(f.aliens, |f.aliens|, f.spriteIndex, f.ufo, w, x, y);
    var cell := AlienCell(f.aliens, |f.aliens|, f.spriteIndex, f.ufo, w, x, y);
    assert !SlotCovers(f, cell, x, y);
    assert cell == UfoIndex;
  }

  /**
   * A bullet landing where neither a live alien nor the shown UFO is: a
   * barricade cell stops it with no score and leaves the cell standing;
   * otherwise it flies on from its new row.
   */
  lemma ShipBulletMisses(f: Field, w: int)
    requires 0 <= f.spriteIndex < 2 && |f.aliens| <= UfoIndex
    requires f.player.bullet.Some? && ShotY(f) >= 0
    requires forall j :: 0 <= j < |f.aliens| ==> !SlotCovers(f, j, ShotX(f), ShotY(f))
    requires !(UfoShown(f.ufo, w) && Covers(UfoSprite, f.ufo.value.x, f.ufo.value.y, ShotX(f), ShotY(f)))
    ensures ShipBulletStep(f, w) ==
      f.(player := f.player.(bullet := if CellAt(f.bar, ShotX(f), ShotY(f)) != NonIndex then None
                                       else Some(f.player.bullet.value.(y := ShotY(f)))))
  {
    var x, y := ShotX(f), ShotY(f);
    AlienCellMeaning(f.aliens, |f.aliens|, f.spriteIndex, f.ufo, w, x, y);
    var cell := AlienCell(f.aliens, |f.aliens|, f.spriteIndex, f.ufo, w, x, y);
    assert !SlotCovers(f, cell, x, y);
    assert cell == NonIndex;
  }

  // ---------------------------------------------------------------------
  // The UFO

  /** Every third frame the UFO moves one column right; once past the right edge it is gone and a new timer starts. */
  function UfoDrift(f: Field, fc: int, w: int): Field
  {
    if f.ufo.Some? && fc % UfoMoveEvery == 0 then
      var u := f.ufo.value.(x := f.ufo.value.x + 1);
      if u.x > w then f.(ufo := None, timerArmed := true) else f.(ufo := Some(u))
    else f
  }

  /** The end of a frame: a fired timer brings a new UFO; with neither UFO nor timer a timer starts. */
  function UfoTimer(f: Field, fired: bool): Field
  {
    if f.timerArmed && fired then f.(ufo := Some(NewUfo()), timerArmed := false)
    else if !f.timerArmed && f.ufo.None? then f.(timerArmed := true)
    else f
  }

  /**
   * The UFO moves only on frames divisible by three, by one column, keeping
   * its row; it disappears exactly when that move takes it past column w,
   * and then a timer runs.
   */
  lemma UfoDriftEffect(f: Field, fc: int, w: int)
    requires f.ufo.Some?
    ensures var r := UfoDrift(f, fc, w);
      && (fc % UfoMoveEvery != 0 ==> r == f)
      && (fc % UfoMoveEvery == 0 ==>
            (r.ufo.None? <==> f.ufo.value.x + 1 > w)
            && (r.ufo.None? ==> r.timerArmed)
            && (r.ufo.Some? ==> r.ufo.value == Ufo(f.ufo.value.x + 1, f.ufo.value.y) && r.timerArmed == f.timerArmed))
      && r.player == f.player && r.aliens == f.aliens && r.bullets == f.bullets && r.bar == f.bar
  {
  }

  /** A fired timer spawns the UFO fully left of the screen on row 4; otherwise after the timer step there is always a UFO or a running timer. */
  lemma UfoTimerEffect(f: Field, fired: bool)
    ensures var r := UfoTimer(f, fired);
      && (f.timerArmed && fired ==> r.ufo == Some(Ufo(0 - UfoSpriteWidth, 4)) && !r.timerArmed)
      && (r.ufo.Some? || r.timerArmed)
      && (!(f.timerArmed && fired) ==> r.ufo == f.ufo)
  {
  }

  // ---------------------------------------------------------------------
  // The formation cadence

  function Moved(a: Alien, v: Vec): Alien
  {
    a.(x := a.x + v.dx, y := a.y + v.dy)
  }

  /** An alien touching the left or right edge of a w-wide screen. */
  predicate AtEdge(a: Alien, w: int)
  {
    a.x <= 0 || a.x + AlienSpriteWidth >= w
  }

  /** The first empty slot of the bullet array, if any. */
  function FirstFree(bs: seq<Option<Bullet>>): (r: Option<nat>)
    ensures r.Some? ==> r.value < |bs| && bs[r.value].None? && forall j :: 0 <= j < r.value ==> bs[j].Some?
    ensures r.None? ==> forall j :: 0 <= j < |bs| ==> bs[j].Some?
  {
    if |bs| == 0 then None
    else if bs[0].None? then Some(0)
    else match FirstFree(bs[1..])
      case None => None
      case Some(k) => Some(k + 1)
  }

  /** An alien shot from (x, y): it goes into the first empty slot, or nowhere when every slot is taken. */
  function FireInto(bs: seq<Option<Bullet>>, x: int, y: int): (r: seq<Option<Bullet>>)
    ensures |r| == |bs|
    ensures (forall j :: 0 <= j < |bs| ==> bs[j].Some?) ==> r == bs
    ensures (exists j :: 0 <= j < |bs| && bs[j].None?) ==>
      exists k :: 0 <= k < |bs| && bs[k].None? && (forall j :: 0 <= j < k ==> bs[j].Some?)
        && r == bs[k := Some(Bullet(x, y, AlienBulletSpeed))]
  {
    match FirstFree(bs)
    case None => bs
    case Some(k) => bs[k := Some(NewBullet(x, y, AlienBulletSpeed))]
  }

  /** The slots, bullets and flags of the cadence loop. */
  datatype March = March(aliens: seq<Option<Alien>>, bullets: seq<Option<Bullet>>,
                         down: bool, xval: int, complete: bool, over: bool)

  /**
   * Slot `j` of the cadence loop: a live alien moves by the formation
   * velocity, records an edge touch, ends the game once it reaches `limit`,
   * and otherwise fires when its roll is `FiringRoll`.
   */
  function MarchStep(m: March, j: int, v: Vec, w: int, limit: int, rolls: seq<int>): March
    requires 0 <= j < |m.aliens|
  {
    match m.aliens[j]
    case None => m
    case Some(a) =>
      var na := Moved(a, v);
      var m1 := m.(aliens := m.aliens[j := Some(na)], complete := false,
                   down := m.down || AtEdge(na, w), xval := if AtEdge(na, w) then na.x else m.xval);
      if na.y >= limit then m1.(over := true)
      else if j < |rolls| && rolls[j] == FiringRoll then m1.(bullets := FireInto(m1.bullets, na.x + AlienSpriteWidth / 2, na.y))
      else m1
  }

  /** The cadence loop over its first `k` slots; it stops once the game is over. */
  function MarchScan(aliens: seq<Option<Alien>>, bullets: seq<Option<Bullet>>, v: Vec, w: int, limit: int,
                     rolls: seq<int>, k: int): (r: March)
    requires 0 <= k <= |aliens|
    ensures |r.aliens| == |aliens| && |r.bullets| == |bullets|
    ensures forall j :: k <= j < |aliens| ==> r.aliens[j] == aliens[j]
  {
    if k == 0 then March(aliens, bullets, false, NoEdge, true, false)
    else
      var m := MarchScan(aliens, bullets, v, w, limit, rolls, k - 1);
      if m.over then m else MarchStep(m, k - 1, v, w, limit, rolls)
  }

  lemma {:induction false} MarchScanFrozen(aliens: seq<Option<Alien>>, bullets: seq<Option<Bullet>>, v: Vec, w: int, limit: int,
                                           rolls: seq<int>, k: int, n: int)
    requires 0 <= k <= n <= |aliens|
    requires MarchScan(aliens, bullets, v, w, limit, rolls, k).over
    ensures MarchScan(aliens, bullets, v, w, limit, rolls, n) == MarchScan(aliens, bullets, v, w, limit, rolls, k)
    decreases n
  {
    if n > k {
      MarchScanFrozen(aliens, bullets, v, w, limit, rolls, k, n - 1);
    }
  }

  /** A live alien that the move brings down to `limit`. */
  predicate Reaches(oa: Option<Alien>, v: Vec, limit: int)
  {
    oa.Some? && Moved(oa.value, v).y >= limit
  }

  /** A live alien that the move brings to an edge. */
  predicate TouchesEdge(oa: Option<Alien>, v: Vec, w: int)
  {
    oa.Some? && AtEdge(Moved(oa.value, v), w)
  }

  /** Slot `j` is the last of the first `k` whose alien the move brings to an edge. */
  predicate LastTouch(aliens: seq<Option<Alien>>, v: Vec, w: int, k: int, j: int)
  {
    0 <= j < k <= |aliens| && TouchesEdge(aliens[j], v, w)
    && forall i :: j < i < k ==> !TouchesEdge(aliens[i], v, w)
  }

  lemma LastTouchUnique(aliens: seq<Option<Alien>>, v: Vec, w: int, k: int, j: int, j': int)
    requires LastTouch(aliens, v, w, k, j) && LastTouch(aliens, v, w, k, j')
    ensures j == j'
  {
  }

  /** The cadence loop ends the game exactly when some live alien's move reaches `limit`. */
  lemma {:induction false} MarchScanOver(aliens: seq<Option<Alien>>, bullets: seq<Option<Bullet>>, v: Vec, w: int, limit: int,
                                         rolls: seq<int>, k: int)
    requires 0 <= k <= |aliens|
    ensures MarchScan(aliens, bullets, v, w, limit, rolls, k).over <==> exists j :: 0 <= j < k && Reaches(aliens[j], v, limit)
    decreases k
  {
    if k > 0 {
      MarchScanOver(aliens, bullets, v, w, limit, rolls, k - 1);
      var m := MarchScan(aliens, bullets, v, w, limit, rolls, k - 1);
      if !m.over {
        assert m.aliens[k - 1] == aliens[k - 1];
      } else {
        var j :| 0 <= j < k - 1 && Reaches(aliens[j], v, limit);
      }
    }
  }

  /** Short of the game ending, every live alien moves by exactly `v` and empty slots stay empty. */
  lemma {:induction false} MarchScanMoves(aliens: seq<Option<Alien>>, bullets: seq<Option<Bullet>>, v: Vec, w: int, limit: int,
                                          rolls: seq<int>, k: int)
    requires 0 <= k <= |aliens|
    ensures var m := MarchScan(aliens, bullets, v, w, limit, rolls, k);
      !m.over ==>
        forall j :: 0 <= j < k ==> m.aliens[j] == if aliens[j].Some? then Some(Moved(aliens[j].value, v)) else None
    decreases k
  {
    if k > 0 {
      MarchScanMoves(aliens, bullets, v, w, limit, rolls, k - 1);
      var m := MarchScan(aliens, bullets, v, w, limit, rolls, k - 1);
      if !m.over {
        assert m.aliens[k - 1] == aliens[k - 1];
      }
    }
  }

  /** Short of the game ending, the level counts as complete exactly when no slot is live. */
  lemma {:induction false} MarchScanComplete(aliens: seq<Option<Alien>>, bullets: seq<Option<Bullet>>, v: Vec, w: int, limit: int,
                                             rolls: seq<int>, k: int)
    requires 0 <= k <= |aliens|
    ensures var m := MarchScan(aliens, bullets, v, w, limit, rolls, k);
      !m.over ==> (m.complete <==> forall j :: 0 <= j < k ==> aliens[j].None?)
    decreases k
  {
    if k > 0 {
      MarchScanComplete(aliens, bullets, v, w, limit, rolls, k - 1);
      var m := MarchScan(aliens, bullets, v, w, limit, rolls, k - 1);
      if !m.over {
        assert m.aliens[k - 1] == aliens[k - 1];
      }
    }
  }

  /**
   * Short of the game ending, the edge flag is set exactly when some moved
   * alien touches an edge, and `xval` is then the column of the last one
   * (of the highest slot), else `NoEdge`.
   */
  lemma {:induction false} MarchScanEdge(aliens: seq<Option<Alien>>, bullets: seq<Option<Bullet>>, v: Vec, w: int, limit: int,
                                         rolls: seq<int>, k: int)
    requires 0 <= k <= |aliens|
    ensures var m := MarchScan(aliens, bullets, v, w, limit, rolls, k);
      !m.over ==>
        && (m.down <==> exists j :: 0 <= j < k && TouchesEdge(aliens[j], v, w))
        && (!m.down ==> m.xval == NoEdge)
        && (m.down ==> exists j :: LastTouch(aliens, v, w, k, j) && m.xval == Moved(aliens[j].value, v).x)
    decreases k
  {
    if k > 0 {
      MarchScanEdge(aliens, bullets, v, w, limit, rolls, k - 1);
      var m := MarchScan(aliens, bullets, v, w, limit, rolls, k - 1);
      if !m.over {
        assert m.aliens[k - 1] == aliens[k - 1];
        if !TouchesEdge(aliens[k - 1], v, w) && m.down {
          var j :| LastTouch(aliens, v, w, k - 1, j) && m.xval == Moved(aliens[j].value, v).x;
          assert LastTouch(aliens, v, w, k, j);
        }
      }
    }
  }

  /**
   * The cadence loop ends the game exactly when some live alien's move
   * reaches `limit`. Short of that, every live alien moves by exactly `v`
   * and empty slots stay empty; the level counts as complete exactly when
   * no slot is live; the edge flag is set exactly when some moved alien
   * touches an edge, and `xval` is then the column of the last one (of the
   * highest slot), else `NoEdge`.
   */
  lemma MarchScanEffects(aliens: seq<Option<Alien>>, bullets: seq<Option<Bullet>>, v: Vec, w: int, limit: int,
                         rolls: seq<int>, k: int)
    requires 0 <= k <= |aliens|
    ensures var m := MarchScan(aliens, bullets, v, w, limit, rolls, k);
      && (m.over <==> exists j :: 0 <= j < k && Reaches(aliens[j], v, limit))
      && (!m.over ==>
            && (forall j :: 0 <= j < k ==>
                  m.aliens[j] == if aliens[j].Some? then Some(Moved(aliens[j].value, v)) else None)
            && (m.complete <==> forall j :: 0 <= j < k ==> aliens[j].None?)
            && (m.down <==> exists j :: 0 <= j < k && TouchesEdge(aliens[j], v, w))
            && (!m.down ==> m.xval == NoEdge)
            && (m.down ==> exists j :: LastTouch(aliens, v, w, k, j) && m.xval == Moved(aliens[j].value, v).x))
  {
    MarchScanOver(aliens, bullets, v, w, limit, rolls, k);
    MarchScanMoves(aliens, bullets, v, w, limit, rolls, k);
    MarchScanComplete(aliens, bullets, v, w, limit, rolls, k);
    MarchScanEdge(aliens, bullets, v, w, limit, rolls, k);
  }

  /**
   * Alien shots never disturb a bullet already in flight: an occupied slot
   * keeps its bullet, and every slot that fills holds a bullet from the
   * centre column and the row of a moved alien that rolled `FiringRoll`,
   * falling at the alien bullet speed. The slot array keeps its length.
   */
  lemma {:induction false} MarchScanShots(aliens: seq<Option<Alien>>, bullets: seq<Option<Bullet>>, v: Vec, w: int, limit: int,
                                          rolls: seq<int>, k: int)
    requires 0 <= k <= |aliens|
    ensures var m := MarchScan(aliens, bullets, v, w, limit, rolls, k);
      && |m.bullets| == |bullets|
      && (forall j :: 0 <= j < |bullets| && bullets[j].Some? ==> m.bullets[j] == bullets[j])
      && (forall j :: 0 <= j < |bullets| && bullets[j].None? && m.bullets[j].Some? ==>
            exists i :: 0 <= i < k && i < |rolls| && rolls[i] == FiringRoll && aliens[i].Some?
              && m.bullets[j] == Some(Bullet(Moved(aliens[i].value, v).x + AlienSpriteWidth / 2,
                                             Moved(aliens[i].value, v).y, AlienBulletSpeed)))
    decreases k
  {
    if k > 0 {
      MarchScanShots(aliens, bullets, v, w, limit, rolls, k - 1);
      var m := MarchScan(aliens, bullets, v, w, limit, rolls, k - 1);
      if !m.over {
        assert m.aliens[k - 1] == aliens[k - 1];
      }
    }
  }

  /** After a cadence tick: back to sideways motion after one step down, else down when an edge was touched. */
  function Steer(v: Vec, down: bool, xval: int): Vec
  {
    if v == DownMove then (if xval == 0 then RightMove else LeftMove)
    else if down then DownMove
    else v
  }

  /** The slot `n` places of a block of `cols` columns from (x0, y0). */
  function Slot(x0: int, y0: int, cols: nat, tier: Tier, reward: int, n: nat): Alien
    requires cols > 0
  {
    Alien(x0 + (n % cols) * ColumnStep, y0 + (n / cols) * RowStep, tier, reward)
  }

  /** `makeAliens` after `count` placements: slots `offset ..` filled row by row. */
  function Filled(s: seq<Option<Alien>>, x0: int, y0: int, cols: nat, tier: Tier, reward: int, offset: nat, count: nat)
    : (r: seq<Option<Alien>>)
    ensures |r| == |s|
  {
    seq(|s|, k requires 0 <= k < |s| =>
      if cols > 0 && offset <= k < offset + count then Some(Slot(x0, y0, cols, tier, reward, k - offset)) else s[k])
  }

  /** One more placement fills the next slot of the block with the next alien. */
  lemma FilledNext(s: seq<Option<Alien>>, x0: int, y0: int, cols: nat, tier: Tier, reward: int, offset: nat, count: nat)
    requires cols > 0 && offset + count < |s|
    ensures Filled(s, x0, y0, cols, tier, reward, offset, count + 1)
      == Filled(s, x0, y0, cols, tier, reward, offset, count)[offset + count := Some(Slot(x0, y0, cols, tier, reward, count))]
  {
  }

  lemma FilledNone(s: seq<Option<Alien>>, x0: int, y0: int, cols: nat, tier: Tier, reward: int, offset: nat)
    ensures Filled(s, x0, y0, cols, tier, reward, offset, 0) == s
  {
  }

  /** `BeginNextLevel`: large rows, then medium, then small, from (10, 7). */
  function Populate(s: seq<Option<Alien>>, l: Layout): (r: seq<Option<Alien>>)
    ensures |r| == |s|
  {
    var s1 := Filled(s, AlienStartX, AlienStartY, l.across, Large, RwdLg, 0, l.rowsLg * l.across);
    var s2 := Filled(s1, AlienStartX, AlienStartY + l.rowsLg * RowStep, l.across, Medium, RwdMd,
                     l.rowsLg * l.across, l.rowsMd * l.across);
    Filled(s2, AlienStartX, AlienStartY + (l.rowsLg + l.rowsMd) * RowStep, l.across, Small, RwdSm,
           (l.rowsLg + l.rowsMd) * l.across, l.rowsSm * l.across)
  }

  /** The kind of formation row `r`: large rows first, then medium, then small. */
  function RowTier(l: Layout, r: nat): Tier
  {
    if r < l.rowsLg then Large else if r < l.rowsLg + l.rowsMd then Medium else Small
  }

  function TierReward(t: Tier): int
  {
    match t
    case Small => RwdSm
    case Medium => RwdMd
    case Large => RwdLg
  }

  lemma MulStep(a: nat, c: nat)
    ensures (a + 1) * c == a * c + c
  {
  }

  lemma {:induction false} MulLe(a: nat, b: nat, c: nat)
    requires a <= b
    ensures a * c <= b * c
    decreases b - a
  {
    if a < b {
      MulLe(a + 1, b, c);
      MulStep(a, c);
    }
  }

  lemma DivModSlot(i: nat, j: nat, cols: nat)
    requires j < cols
    ensures (i * cols + j) / cols == i && (i * cols + j) % cols == j
  {
    var n := i * cols + j;
    var q, r := n / cols, n % cols;
    assert q * cols + r == n;
    if q > i {
      MulLe(i + 1, q, cols);
      MulStep(i, cols);
      assert false;
    } else if q < i {
      MulLe(q + 1, i, cols);
      MulStep(q, cols);
      assert false;
    }
  }

  lemma MulBound(i: nat, rows: nat, cols: nat)
    requires i < rows
    ensures i * cols + cols <= rows * cols
  {
    MulLe(i + 1, rows, cols);
    MulStep(i, cols);
  }

  /** The slot of formation row `r`, column `c`. */
  function SlotOf(l: Layout, r: nat, c: nat): nat
  {
    r * l.across + c
  }

  lemma Distrib(a: nat, b: nat, c: nat)
    ensures (a + b) * c == a * c + b * c
  {
  }

  /** Placement `i * cols + j` of a block lands in column j and row i of the block. */
  lemma FilledAt(s: seq<Option<Alien>>, x0: int, y0: int, cols: nat, tier: Tier, reward: int, offset: nat, rows: nat,
                 i: nat, j: nat)
    requires i < rows && j < cols && offset + rows * cols <= |s|
    ensures offset + i * cols + j < offset + rows * cols
    ensures Filled(s, x0, y0, cols, tier, reward, offset, rows * cols)[offset + i * cols + j]
      == Some(Alien(x0 + j * ColumnStep, y0 + i * RowStep, tier, reward))
  {
    MulBound(i, rows, cols);
    DivModSlot(i, j, cols);
    var k := offset + i * cols + j;
    assert Slot(x0, y0, cols, tier, reward, k - offset) == Alien(x0 + j * ColumnStep, y0 + i * RowStep, tier, reward);
  }

  /**
   * Formation row r (counted from the top), column c sits in slot
   * r * across + c, at (10 + 11c, 7 + 5r), with the kind and reward of its row.
   */
  predicate PlacedAt(t: seq<Option<Alien>>, l: Layout, r: nat, c: nat)
  {
    SlotOf(l, r, c) < |t| &&
    t[SlotOf(l, r, c)] ==
      Some(Alien(AlienStartX + c * ColumnStep, AlienStartY + r * RowStep, RowTier(l, r), TierReward(RowTier(l, r))))
  }

  /** One slot of the formation `BeginNextLevel` builds. */
  lemma PopulateSlot(s: seq<Option<Alien>>, l: Layout, r: nat, c: nat)
    requires |s| >= (l.rowsLg + l.rowsMd + l.rowsSm) * l.across
    requires r < l.rowsLg + l.rowsMd + l.rowsSm && c < l.across
    ensures SlotOf(l, r, c) < (l.rowsLg + l.rowsMd + l.rowsSm) * l.across
    ensures PlacedAt(Populate(s, l), l, r, c)
  {
    var n := l.across;
    var lg, md, sm := l.rowsLg, l.rowsMd, l.rowsSm;
    Distrib(lg, md, n);
    Distrib(lg + md, sm, n);
    MulBound(r, lg + md + sm, n);
    var k := SlotOf(l, r, c);
    var s1 := Filled(s, AlienStartX, AlienStartY, n, Large, RwdLg, 0, lg * n);
    var s2 := Filled(s1, AlienStartX, AlienStartY + lg * RowStep, n, Medium, RwdMd, lg * n, md * n);
    var s3 := Filled(s2, AlienStartX, AlienStartY + (lg + md) * RowStep, n, Small, RwdSm, (lg + md) * n, sm * n);
    assert Populate(s, l) == s3;
    if r < lg {
      FilledAt(s, AlienStartX, AlienStartY, n, Large, RwdLg, 0, lg, r, c);
      assert s3[k] == s2[k] == s1[k];
    } else if r < lg + md {
      var i := r - lg;
      Distrib(lg, i, n);
      FilledAt(s1, AlienStartX, AlienStartY + lg * RowStep, n, Medium, RwdMd, lg * n, md, i, c);
      assert k == lg * n + i * n + c;
      assert s3[k] == s2[k];
    } else {
      var i := r - lg - md;
      Distrib(lg + md, i, n);
      FilledAt(s2, AlienStartX, AlienStartY + (lg + md) * RowStep, n, Small, RwdSm, (lg + md) * n, sm, i, c);
      assert k == (lg + md) * n + i * n + c;
    }
  }

  /** The formation a level starts with: every row and column of it is placed as `PlacedAt` says. */
  lemma PopulateFormation(s: seq<Option<Alien>>, l: Layout)
    requires |s| >= (l.rowsLg + l.rowsMd + l.rowsSm) * l.across
    ensures forall r, c :: 0 <= r < l.rowsLg + l.rowsMd + l.rowsSm && 0 <= c < l.across ==>
      PlacedAt(Populate(s, l), l, r, c)
  {
    forall r, c | 0 <= r < l.rowsLg + l.rowsMd + l.rowsSm && 0 <= c < l.across
      ensures PlacedAt(Populate(s, l), l, r, c)
    {
      PopulateSlot(s, l, r, c);
    }
  }

  /** Slots past the formation's last row are left as they were. */
  lemma PopulateTail(s: seq<Option<Alien>>, l: Layout, k: nat)
    requires (l.rowsLg + l.rowsMd + l.rowsSm) * l.across <= k < |s|
    ensures k < |Populate(s, l)| && Populate(s, l)[k] == s[k]
  {
    Distrib(l.rowsLg, l.rowsMd, l.across);
    Distrib(l.rowsLg + l.rowsMd, l.rowsSm, l.across);
  }

  /** `lvl` up by one, `alienMoveEvery` down by one but not below 2, a new formation, no bullets. */
  function NextLevel(f: Field, l: Layout): Field
  {
    WipeBullets(f.(lvl := f.lvl + 1,
                   moveEvery := if f.moveEvery != 2 then f.moveEvery - 1 else f.moveEvery,
                   aliens := Populate(f.aliens, l)), l)
  }

  /**
   * A cadence tick: the sprite frame flips, the formation marches (ending
   * the game if an alien gets down to three rows above the ship's top), a
   * cleared level with no UFO around starts the next one, and the velocity
   * is steered.
   */
  function CadenceTick(f: Field, l: Layout, w: int, rolls: seq<int>): (bool, Field)
  {
    var f0 := f.(spriteIndex := (f.spriteIndex + 1) % 2);
    var m := MarchScan(f0.aliens, f0.bullets, f0.alienv, w, f0.player.y - PlayerSpriteHeight, rolls, |f0.aliens|);
    var f1 := f0.(aliens := m.aliens, bullets := m.bullets);
    if m.over then (true, f1)
    else
      var f2 := if m.complete && f1.ufo.None? then NextLevel(f1, l) else f1;
      (false, f2.(alienv := Steer(f2.alienv, m.down, m.xval)))
  }

  /** A cadence tick is the march of the whole formation followed by the steering of its velocity. */
  lemma CadenceTickMarch(f: Field, l: Layout, w: int, rolls: seq<int>)
    ensures var m := MarchScan(f.aliens, f.bullets, f.alienv, w, f.player.y - PlayerSpriteHeight, rolls, |f.aliens|);
      var (over, r) := CadenceTick(f, l, w, rolls);
      && over == m.over
      && r.spriteIndex == (f.spriteIndex + 1) % 2
      && r.player.lives == f.player.lives && r.player.x == f.player.x && r.player.y == f.player.y
      && r.ufo == f.ufo && r.timerArmed == f.timerArmed
      && (!over ==> r.alienv == Steer(f.alienv, m.down, m.xval))
  {
  }

  /**
   * A cadence tick ends the game exactly when some live alien moves down to
   * `player.y - 3`. Otherwise: the sprite frame flips; after a step down the
   * formation goes right exactly when the last edge-touching alien stands at
   * column 0, and left otherwise; a sideways move that brings some alien to
   * an edge turns into a step down, and any other keeps its direction.
   */
  lemma CadenceSteering(f: Field, l: Layout, w: int, rolls: seq<int>)
    requires 0 <= f.spriteIndex < 2
    ensures var (over, r) := CadenceTick(f, l, w, rolls);
      var v := f.alienv;
      && (over <==> exists j :: 0 <= j < |f.aliens| && Reaches(f.aliens[j], v, f.player.y - PlayerSpriteHeight))
      && r.spriteIndex == 1 - f.spriteIndex
      && (!over && v == DownMove ==>
            (r.alienv == RightMove <==>
               exists j :: LastTouch(f.aliens, v, w, |f.aliens|, j) && Moved(f.aliens[j].value, v).x == 0)
            && (r.alienv != RightMove ==> r.alienv == LeftMove))
      && (!over && v != DownMove ==>
            r.alienv == if exists j :: 0 <= j < |f.aliens| && TouchesEdge(f.aliens[j], v, w) then DownMove else v)
  {
    var v := f.alienv;
    var limit := f.player.y - PlayerSpriteHeight;
    CadenceTickMarch(f, l, w, rolls);
    MarchScanEffects(f.aliens, f.bullets, v, w, limit, rolls, |f.aliens|);
    var m := MarchScan(f.aliens, f.bullets, v, w, limit, rolls, |f.aliens|);
    if !m.over && v == DownMove {
      if exists j :: LastTouch(f.aliens, v, w, |f.aliens|, j) && Moved(f.aliens[j].value, v).x == 0 {
        var j :| LastTouch(f.aliens, v, w, |f.aliens|, j) && Moved(f.aliens[j].value, v).x == 0;
        assert m.down;
        var j' :| LastTouch(f.aliens, v, w, |f.aliens|, j') && m.xval == Moved(f.aliens[j'].value, v).x;
        LastTouchUnique(f.aliens, v, w, |f.aliens|, j, j');
      }
    }
  }

  /**
   * A level ends on a cadence tick that finds every slot empty while no UFO
   * is around: `lvl` goes up by exactly one, `alienMoveEvery` down by one
   * unless already 2 (so it stays within 2..15), the new formation is
   * placed, and every bullet is wiped.
   */
  lemma LevelAdvance(f: Field, l: Layout, w: int, rolls: seq<int>)
    requires Shaped(f, l)
    requires forall j :: 0 <= j < |f.aliens| ==> f.aliens[j].None?
    requires f.ufo.None?
    ensures var (over, r) := CadenceTick(f, l, w, rolls);
      && !over
      && r.lvl == f.lvl + 1
      && r.moveEvery == (if f.moveEvery == 2 then 2 else f.moveEvery - 1)
      && 2 <= r.moveEvery <= 15
      && r.aliens == Populate(f.aliens, l)
      && r.player.bullet.None? && r.bullets == NoBullets(|f.bullets|)
  {
    var f0 := f.(spriteIndex := (f.spriteIndex + 1) % 2);
    var limit := f.player.y - PlayerSpriteHeight;
    MarchScanEffects(f0.aliens, f0.bullets, f0.alienv, w, limit, rolls, |f0.aliens|);
    var m := MarchScan(f0.aliens, f0.bullets, f0.alienv, w, limit, rolls, |f0.aliens|);
    assert m.aliens == f.aliens;
  }

  // ---------------------------------------------------------------------
  // A whole frame

  /** `UpdatePlay` on frame `fc`, with the aliens' firing rolls by slot and whether the UFO timer fired. */
  function FrameStep(f: Field, l: Layout, w: int, h: int, fc: int, rolls: seq<int>, fired: bool): (Outcome, Field)
    requires 0 <= f.spriteIndex < 2 && f.moveEvery > 0
  {
    var (o, f1) := AlienBulletsPhase(f, l, h);
    if o != Continue then (o, f1) else FrameRest(f1, l, w, fc, rolls, fired)
  }

  /**
   * The rest of a frame the alien bullets did not end: the ship bullet
   * moves, the UFO drifts, a cadence tick runs on every `moveEvery`-th
   * frame, and the UFO timer runs unless the march ended the game.
   */
  function FrameRest(f: Field, l: Layout, w: int, fc: int, rolls: seq<int>, fired: bool): (Outcome, Field)
    requires 0 <= f.spriteIndex < 2 && f.moveEvery > 0
  {
    var f2 := UfoDrift(ShipBulletStep(f, w), fc, w);
    var (over, f3) := if fc % f2.moveEvery == 0 then CadenceTick(f2, l, w, rolls) else (false, f2);
    if over then (GameOver, f3) else (Continue, UfoTimer(f3, fired))
  }

  lemma CadenceKeepsShape(f: Field, l: Layout, w: int, rolls: seq<int>)
    requires Shaped(f, l)
    ensures var r := CadenceTick(f, l, w, rolls).1;
      Shaped(r, l) && r.lvl >= f.lvl && r.ufo == f.ufo && r.timerArmed == f.timerArmed
  {
    var f0 := f.(spriteIndex := (f.spriteIndex + 1) % 2);
    var limit := f.player.y - PlayerSpriteHeight;
    var m := MarchScan(f0.aliens, f0.bullets, f0.alienv, w, limit, rolls, |f0.aliens|);
    if !m.over && m.complete && f.ufo.None? {
      assert |Populate(m.aliens, l)| == |m.aliens|;
    }
  }

  /**
   * The alien-bullet phase keeps the shape and leaves the formation, the
   * UFO and its timer alone; it changes the ship only when the ship is hit.
   */
  lemma AlienBulletsKeepShape(f: Field, l: Layout, h: int)
    requires Shaped(f, l)
    ensures var (o, r) := AlienBulletsPhase(f, l, h);
      Shaped(r, l) && r.lvl == f.lvl && r.ufo == f.ufo && r.timerArmed == f.timerArmed
      && r.aliens == f.aliens && r.alienv == f.alienv && r.moveEvery == f.moveEvery
  {
  }

  /** The ship bullet and the UFO drift keep the shape, and never start a UFO while a timer runs. */
  lemma ShotAndDriftKeepShape(f: Field, l: Layout, w: int, fc: int)
    requires Shaped(f, l)
    requires !(f.ufo.Some? && f.timerArmed)
    ensures var r := UfoDrift(ShipBulletStep(f, w), fc, w);
      Shaped(r, l) && r.lvl == f.lvl && !(r.ufo.Some? && r.timerArmed) && r.player.lives == f.player.lives
  {
    ShipBulletKeeps(f, w);
  }

  /**
   * A frame keeps the round's shape: the slot arrays keep their lengths,
   * `alienMoveEvery` stays within 2..15, the level never goes down, and the
   * velocity is one of the three moves. A UFO and a running timer never
   * coexist, and a frame that goes on leaves exactly one of them.
   */
  lemma FrameKeepsShape(f: Field, l: Layout, w: int, h: int, fc: int, rolls: seq<int>, fired: bool)
    requires Shaped(f, l)
    requires !(f.ufo.Some? && f.timerArmed)
    ensures var (o, r) := FrameStep(f, l, w, h, fc, rolls, fired);
      && Shaped(r, l) && r.lvl >= f.lvl
      && !(r.ufo.Some? && r.timerArmed)
      && (o == Continue ==> r.ufo.Some? || r.timerArmed)
  {
    AlienBulletsKeepShape(f, l, h);
    var (o, f1) := AlienBulletsPhase(f, l, h);
    if o == Continue {
      ShotAndDriftKeepShape(f1, l, w, fc);
      var f2 := UfoDrift(ShipBulletStep(f1, w), fc, w);
      if fc % f2.moveEvery == 0 {
        CadenceKeepsShape(f2, l, w, rolls);
        var (over, f3) := CadenceTick(f2, l, w, rolls);
        if !over {
          UfoTimerEffect(f3, fired);
        }
      } else {
        UfoTimerEffect(f2, fired);
      }
    }
  }

  /**
   * The alien-bullet phase ends the frame exactly when some live bullet's
   * next row lands on the ship; the hit costs exactly one life, the game is
   * over exactly when that was the last one, and otherwise every bullet is
   * wiped while the formation, the UFO, its timer and the level stay as
   * they were. Without a hit the ship is untouched.
   */
  lemma AlienBulletsHit(f: Field, l: Layout, h: int)
    ensures var (o, r) := AlienBulletsPhase(f, l, h);
      var hit := exists j :: 0 <= j < |f.bullets| && HitsShip(f.bullets[j], f.player, h);
      && (o != Continue <==> hit)
      && (hit ==> r.player.lives == f.player.lives - 1 && (o == GameOver <==> f.player.lives == 1))
      && (o == LifeLost ==>
            && r.player == f.player.(lives := f.player.lives - 1, bullet := None)
            && r.bullets == NoBullets(BulletSlots(l.across))
            && r.aliens == f.aliens && r.ufo == f.ufo && r.timerArmed == f.timerArmed
            && r.alienv == f.alienv && r.spriteIndex == f.spriteIndex && r.moveEvery == f.moveEvery && r.lvl == f.lvl)
      && (o == Continue ==> r.player == f.player)
  {
    AlienBulletScanEffects(f.bullets, f.bar, f.player, h, |f.bullets|);
  }

  /** Once the alien bullets have missed, nothing else in the frame changes the number of lives. */
  lemma LaterPhasesKeepLives(f: Field, l: Layout, w: int, fc: int, rolls: seq<int>, fired: bool)
    requires 0 <= f.spriteIndex < 2
    ensures var f2 := UfoDrift(ShipBulletStep(f, w), fc, w);
      && f2.player.lives == f.player.lives && f2.moveEvery == f.moveEvery && f2.spriteIndex == f.spriteIndex
      && CadenceTick(f2, l, w, rolls).1.player.lives == f.player.lives
      && UfoTimer(CadenceTick(f2, l, w, rolls).1, fired).player.lives == f.player.lives
      && UfoTimer(f2, fired).player.lives == f.player.lives
  {
    ShipBulletKeeps(f, w);
    CadenceTickMarch(UfoDrift(ShipBulletStep(f, w), fc, w), l, w, rolls);
  }

  /**
   * A hit on the ship that leaves lives over ends the frame at once: one
   * life fewer, no bullets anywhere, and the formation, the UFO, its timer,
   * the score and the level exactly as they were.
   */
  lemma LifeLostEndsFrame(f: Field, l: Layout, w: int, h: int, fc: int, rolls: seq<int>, fired: bool)
    requires 0 <= f.spriteIndex < 2 && f.moveEvery > 0
    requires FrameStep(f, l, w, h, fc, rolls, fired).0 == LifeLost
    ensures var r := FrameStep(f, l, w, h, fc, rolls, fired).1;
      && r.player == f.player.(lives := f.player.lives - 1, bullet := None)
      && r.player.lives != 0
      && r.bullets == NoBullets(BulletSlots(l.across))
      && r.aliens == f.aliens && r.ufo == f.ufo && r.timerArmed == f.timerArmed
      && r.alienv == f.alienv && r.spriteIndex == f.spriteIndex && r.moveEvery == f.moveEvery && r.lvl == f.lvl
  {
    AlienBulletsHit(f, l, h);
  }

  /** A frame ends with the ship hit exactly when some live alien bullet's next row lands on it. */
  lemma ShipHitIff(f: Field, l: Layout, w: int, h: int, fc: int, rolls: seq<int>, fired: bool)
    requires 0 <= f.spriteIndex < 2 && f.moveEvery > 0
    ensures var (o, r) := FrameStep(f, l, w, h, fc, rolls, fired);
      var hit := exists j :: 0 <= j < |f.bullets| && HitsShip(f.bullets[j], f.player, h);
      && (hit ==> o != Continue && r.player.lives == f.player.lives - 1
                  && (o == GameOver <==> f.player.lives == 1))
      && (!hit ==> r.player.lives == f.player.lives)
  {
    AlienBulletsHit(f, l, h);
    var f1 := AlienBulletsPhase(f, l, h).1;
    LaterPhasesKeepLives(f1, l, w, fc, rolls, fired);
  }

  // ---------------------------------------------------------------------
  // Ship control

  /** `HandleKeyPlay`: arrows move two columns, Space fires if no bullet is out; the ship is then kept on screen. */
  function ShipAfterKey(p: Ship, k: Key, w: int): Ship
  {
    var p1 := match k
      case KeyArrowRight => p.(x := p.x + PlayerMoveSpeed)
      case KeyArrowLeft => p.(x := p.x - PlayerMoveSpeed)
      case KeySpace => if p.bullet.None? then p.(bullet := Some(NewBullet(p.x + PlayerSpriteWidth / 2, p.y, PlayerBulletSpeed))) else p
      case _ => p;
    if p1.x + PlayerSpriteWidth > w then p1.(x := w - PlayerSpriteWidth)
    else if p1.x < 0 then p1.(x := 0)
    else p1
  }

  /**
   * After any key the ship lies within the screen (given room for it); an
   * arrow moves it two columns unless that would leave the screen, where it
   * stops at the edge; Space launches a bullet from the ship's centre column
   * moving up unless one is already out, which it leaves alone; nothing else
   * about the ship changes.
   */
  lemma ShipControl(p: Ship, k: Key, w: int)
    ensures var r := ShipAfterKey(p, k, w);
      && r.y == p.y && r.score == p.score && r.lives == p.lives
      && (w >= PlayerSpriteWidth ==> 0 <= r.x <= w - PlayerSpriteWidth)
      && (k == KeySpace && p.bullet.None? ==> r.bullet == Some(Bullet(p.x + 3, p.y, -1)))
      && (k != KeySpace || p.bullet.Some? ==> r.bullet == p.bullet)
      && (0 <= p.x <= w - PlayerSpriteWidth ==>
            && (k == KeyArrowRight ==> r.x == if p.x + 2 <= w - PlayerSpriteWidth then p.x + 2 else w - PlayerSpriteWidth)
            && (k == KeyArrowLeft ==> r.x == if p.x >= 2 then p.x - 2 else 0)
            && (k != KeyArrowRight && k != KeyArrowLeft ==> r.x == p.x))
  {
  }
}

=== FILE: sprites.dfy ===
/**
 * The fixed glyph blocks of the game's entities, one string per sprite row
 * (the rows a multi-line sprite splits into at its line breaks), and their
 * declared sizes. A space is a transparent cell.
 */
module Sprites {

  const BulletSprite: seq<string> := ["."]

  const PlayerSprite: seq<string> := ["  /\\", "OOxxOO", "OXOOXO"]
  const PlayerSpriteWidth: int := 6
  const PlayerSpriteHeight: int := 3

  const AlienSpriteWidth: int := 8
  const AlienSpriteHeight: int := 4

  const UfoSpriteWidth: int := 9
  const UfoSpriteHeight: int := 3

  /** The two animation frames of each alien kind. */
  const SmAlienSprite: seq<seq<string>> :=
    [["   xx", "  xOOx", " xxxxxx", "  /\\/\\"],
     ["   xx", "  xOOx", " xxxxxx", "  \\  /"]]

  const MdAlienSprite: seq<seq<string>> :=
    [[" x    x", " xxOOxx", "  xxxx", "  /  \\"],
     ["", " xxOOxx", "x xxxx x", "  /  \\"]]

  const LgAlienSprite: seq<seq<string>> :=
    [["   xx", " xOxxOx", " xxxxxx", "  /||\\"],
     ["   xx", " xOxxOx", " xxxxxx", "  \\||/"]]

  const UfoSprite: seq<string> := ["  xxxxx", "xxoxOxoxx", " ##   ##"]

  /** The logo of the menu screen: its first line is 91 cells wide and it has 24 lines. */
  const LogoLineLength: int := 91
  const LogoHeight: int := 24
}

=== FILE: text.dfy ===
/**
 * The string primitives the game leans on from Go's standard library:
 * `strings.Split` on a one-character separator, joining records with a
 * separator, `strconv.Atoi`, and the `%d`, `%010d` and `%-10s` verbs of `fmt`.
 * Strings are sequences of single-byte characters.
 */
module Text {
  import opened Wrappers

  const MaxInt64: int := 0x7FFF_FFFF_FFFF_FFFF
  const MinInt64: int := -0x8000_0000_0000_0000

  /** `strings.Split(s, string(sep))`: the pieces between separators, always at least one. */
  function Split(s: string, sep: char): (parts: seq<string>)
    ensures |parts| >= 1
    ensures forall p :: p in parts ==> sep !in p
    decreases |s|
  {
    if |s| == 0 then [""]
    else
      var rest := Split(s[1..], sep);
      if s[0] == sep then [""] + rest
      else [[s[0]] + rest[0]] + rest[1..]
  }

  /** The pieces with one separator between neighbours and none at the end. */
  function Join(parts: seq<string>, sep: char): string
  {
    if |parts| == 0 then ""
    else if |parts| == 1 then parts[0]
    else parts[0] + [sep] + Join(parts[1..], sep)
  }

  lemma {:induction false} SplitWithoutSeparator(p: string, sep: char)
    requires sep !in p
    ensures Split(p, sep) == [p]
    decreases |p|
  {
    if |p| > 0 {
      SplitWithoutSeparator(p[1..], sep);
      assert [p[0]] + p[1..] == p;
    }
  }

  lemma {:induction false} SplitAfterPiece(p: string, sep: char, t: string)
    requires sep !in p
    ensures Split(p + [sep] + t, sep) == [p] + Split(t, sep)
    decreases |p|
  {
    if |p| == 0 {
      assert p + [sep] + t == [sep] + t;
      assert ([sep] + t)[1..] == t;
    } else {
      var s := p + [sep] + t;
      assert s[0] == p[0];
      assert s[1..] == p[1..] + [sep] + t;
      SplitAfterPiece(p[1..], sep, t);
      assert [p[0]] + p[1..] == p;
    }
  }

  /** Splitting undoes joining whenever no piece contains the separator. */
  lemma {:induction false} SplitJoin(parts: seq<string>, sep: char)
    requires |parts| >= 1
    requires forall p :: p in parts ==> sep !in p
    ensures Split(Join(parts, sep), sep) == parts
  {
    if |parts| == 1 {
      SplitWithoutSeparator(parts[0], sep);
    } else {
      assert parts[0] in parts;
      assert forall p :: p in parts[1..] ==> p in parts;
      SplitJoin(parts[1..], sep);
      SplitAfterPiece(parts[0], sep, Join(parts[1..], sep));
      assert [parts[0]] + parts[1..] == parts;
    }
  }

  predicate IsDigit(c: char) { '0' <= c <= '9' }

  predicate AllDigits(s: string) { forall i :: 0 <= i < |s| ==> IsDigit(s[i]) }

  function DigitChar(d: int): (c: char)
    requires 0 <= d < 10
    ensures IsDigit(c) && c as int - '0' as int == d
  {
    ('0' as int + d) as char
  }

  /** Decimal digits of `n`, most significant first, without leading zeros. */
  function NatDigits(n: nat): (s: string)
    ensures |s| >= 1 && AllDigits(s)
    ensures n >= 10 ==> s[0] != '0'
  {
    if n < 10 then [DigitChar(n)] else NatDigits(n / 10) + [DigitChar(n % 10)]
  }

  /** The value of a string of decimal digits. */
  function DigitsValue(s: string): nat
    requires AllDigits(s)
  {
    if |s| == 0 then 0 else DigitsValue(s[..|s| - 1]) * 10 + (s[|s| - 1] as int - '0' as int)
  }

  lemma {:induction false} DigitsValueOfNatDigits(n: nat)
    ensures DigitsValue(NatDigits(n)) == n
  {
    if n >= 10 {
      DigitsValueOfNatDigits(n / 10);
      var s := NatDigits(n);
      assert s[..|s| - 1] == NatDigits(n / 10);
    }
  }

  /** `fmt.Sprintf("%d", n)`: an optional minus sign, then the digits of |n|. */
  function FormatInt(n: int): string
  {
    if n < 0 then "-" + NatDigits(-n) else NatDigits(n)
  }

  /** `strconv.Atoi`: an optional sign, at least one decimal digit, a value that fits in 64 bits. */
  function ParseInt(s: string): Option<int>
  {
    if |s| == 0 then None
    else
      var body := if s[0] == '-' || s[0] == '+' then s[1..] else s;
      if |body| == 0 || !AllDigits(body) then None
      else
        var v: int := if s[0] == '-' then -(DigitsValue(body) as int) else DigitsValue(body);
        if MinInt64 <= v <= MaxInt64 then Some(v) else None
  }

  /** Atoi reads back exactly what `%d` wrote, for every 64-bit value. */
  lemma ParseFormatInt(n: int)
    requires MinInt64 <= n <= MaxInt64
    ensures ParseInt(FormatInt(n)) == Some(n)
  {
    DigitsValueOfNatDigits(if n < 0 then -n else n);
    if n < 0 {
      assert ("-" + NatDigits(-n))[1..] == NatDigits(-n);
    }
  }

  lemma FormatIntHasNoSeparator(n: int, sep: char)
    requires !IsDigit(sep) && sep != '-'
    ensures sep !in FormatInt(n)
  {
    var s := FormatInt(n);
    forall i | 0 <= i < |s| ensures s[i] != sep {
      if n < 0 && i > 0 {
        assert s[i] == NatDigits(-n)[i - 1];
      }
    }
  }

  function Repeat(c: char, n: int): (s: string)
    ensures |s| == if n > 0 then n else 0
    ensures forall i :: 0 <= i < |s| ==> s[i] == c
  {
    if n <= 0 then "" else [c] + Repeat(c, n - 1)
  }

  /** `fmt.Sprintf("%-<width>s", s)`: left-justified, padded with spaces, never cut. */
  function PadRight(s: string, width: int): (r: string)
    ensures |s| < width ==> |r| == width
    ensures |s| >= width ==> r == s
    ensures r[..|s|] == s
    ensures forall i :: |s| <= i < |r| ==> r[i] == ' '
  {
    s + Repeat(' ', width - |s|)
  }

  /** `fmt.Sprintf("%0<width>d", n)`: the sign first, then zeros up to the width, never cut. */
  function ZeroPad(n: int, width: int): (r: string)
    ensures n >= 0 && |NatDigits(n)| <= width ==> |r| == width
    ensures n >= 0 ==> |r| >= |NatDigits(n)| && r[|r| - |NatDigits(n)|..] == NatDigits(n)
  {
    if n < 0 then "-" + Repeat('0', width - 1 - |NatDigits(-n)|) + NatDigits(-n)
    else Repeat('0', width - |NatDigits(n)|) + NatDigits(n)
  }
}

=== FILE: wrappers.dfy ===
/** Failure-compatible wrappers shared by the other modules. */
module Wrappers {

  datatype Option<+T> = None | Some(value: T)

  datatype Result<+R, +E> = Ok(value: R) | Err(error: E)
}
